=== FILE: README.md ===
# Google Drive writer, modelled in Dafny

A model of the Keboola Google Drive writer, a PHP component that uploads
tables and files from a job's data directory into Google Drive and Google
Sheets. The model covers:

- the entry point (`Application.php`): configuration acceptance, the action
  dispatch, and how HTTP errors are classified for the user;
- the configuration schema (`ConfigDefinition.php`): defaults, the action
  enumeration, and rejection as a user error with code 400;
- the local inputs (`Input.php`): the table and file paths, and the filter
  that skips hidden files and manifests;
- the table and file writer (`Writer.php`):
  - the 403 retry rule and the 403 warning;
  - the choice of input file;
  - create, update and create-metadata parameters;
  - processing of enabled tables and of uploaded files;
- the spreadsheet writer (`Writer/Spreadsheet.php`):
  - find-or-create of the spreadsheet;
  - the title and parents sync;
  - A1 ranges;
  - the batched value upload;
- the earlier draft of the spreadsheet writer (`Writer/Sheet.php`), as written;
- the older planners `Writer/File.php` and `Writer/Writer.php`, with PHP's
  loose comparison;
- the request shapes of the local Drive client (`GoogleDrive/Client.php`).

Every remote service is an oracle. A `Remote` answers the n-th call of a run
at the level of client methods. An `Http` answers the n-th request at the
level of the local client. Each operation returns the calls or requests it
issued, in order, together with its outcome: a value, or the `Failure` it
raised. The failure kinds mirror the source's exceptions:

- `UserError` is `UserException`;
- `AppError` is `ApplicationException`;
- `RequestError` is a Guzzle error response;
- `EngineError` is an error raised by PHP itself.

Local collaborators with no logic of their own are function parameters:
- `urlencode` and `build_query`;
- `date()`;
- the MIME guess;
- the manifest reader and the CSV reader;
- `Input::countLines`;
- the text of an exception message;
- whether two numeric strings denote the same number, which PHP's loose `==` and `array_search` decide.

The model follows the code wherever the code and the component's
documentation disagree:
- a 403 is a warning only when the reason, lower-cased, is exactly
  `forbidden` (not when it merely contains it);
- among 5xx statuses only 503 becomes a "Google API error" user error; every
  other unclassified status is an application error with code 500.

Modules, one per file: `Base`, `Text`, `Json`, `Calls`, `Input`, `Config`,
`A1`, `Batching`, `Metadata`, `Spreadsheet`, `SheetDraft`, `Writer`,
`FileWriter`, `LegacyWriter`, `Php`, `Application`, `DriveClient`.

## Model

| member | source | states |
|---|---|---|
| A1.ColumnA1 | src/Keboola/GoogleDriveWriter/Writer/Spreadsheet.php:153-166 | the label of a zero-based column is one letter up to Z and two letters after, and reads back as column n+1 in the conventional A=1 numbering |
| A1.ColumnA1Injective | src/Keboola/GoogleDriveWriter/Writer/Spreadsheet.php:153-166 | two columns get the same label exactly when they are the same column |
| A1.ColumnA1Landmarks | src/Keboola/GoogleDriveWriter/Writer/Spreadsheet.php:153-166 | columns 0, 25, 26 and 701 are labelled A, Z, AA and ZZ |
| A1.RangeSpans | src/Keboola/GoogleDriveWriter/Writer/Spreadsheet.php:62-70 | a range string parses back to the encoded sheet name, starts at column A on the offset row, and spans exactly rowLimit rows and columnCount columns |
| Batching.Chunk | src/Keboola/GoogleDriveWriter/Writer/Spreadsheet.php:114-121 | rows are cut into non-empty batches of at most the limit, all full except the last, which concatenate back to the rows in order |
| Batching.ChunkCount | src/Keboola/GoogleDriveWriter/Writer/Spreadsheet.php:114-121 | the number of batches is the row count divided by the limit, rounded up |
| Config.ValidateTable | src/Keboola/GoogleDriveWriter/Configuration/ConfigDefinition.php:31-63 | an accepted table uses only the schema's keys and has the given non-negative integer id; the table id is the scalar as given, or null; a given title is neither null nor ""; enabled defaults to true and convert to false, and both read null as true; a given folder has only id and title; the folder and the action are present exactly when given, and the action is create or update; rejection is a user error with code 400 |
| Config.ValidateTables | src/Keboola/GoogleDriveWriter/Configuration/ConfigDefinition.php:31-32 | an accepted table list has one entry per element; rejection is a user error with code 400 |
| Config.ValidateTablesPointwise | src/Keboola/GoogleDriveWriter/Configuration/ConfigDefinition.php:31-32 | the prototyped node validates element by element: the list is accepted exactly when every element is, entry i is element i validated, and a refusal is the first refused element's |
| Config.ValidateParameters | src/Keboola/GoogleDriveWriter/Configuration/ConfigDefinition.php:25-77 | accepted parameters are an object with only data_dir, tables and files, whose data_dir is given and is neither null nor ""; files is present exactly when given and is its validated form; a list of tables is validated element by element; rejection is a user error with code 400 |
| Config.TablesField | src/Keboola/GoogleDriveWriter/Configuration/ConfigDefinition.php:31-32 | absent, null, true and an empty object all mean no tables, and a list is validated element by element |
| Config.EncodeKeys | src/Keboola/GoogleDriveWriter/Configuration/ConfigDefinition.php:33-37 | the raw form of an entry uses only the schema's table keys and always carries its integer id |
| Config.EncodeScalars | src/Keboola/GoogleDriveWriter/Configuration/ConfigDefinition.php:38-44 | tableId, fileId and title read back from the raw form unchanged |
| Config.EncodeBools | src/Keboola/GoogleDriveWriter/Configuration/ConfigDefinition.php:56-61 | enabled and convert read back from the raw form with their defaults |
| Config.EncodeFolderField | src/Keboola/GoogleDriveWriter/Configuration/ConfigDefinition.php:45-52 | the folder reads back from the raw form, unset keys included |
| Config.EncodeActionField | src/Keboola/GoogleDriveWriter/Configuration/ConfigDefinition.php:53-55 | a create or update action reads back from the raw form |
| Config.ArrayNode | run.php:19 | an array node sees a JSON object as its keys, sees null, true and an empty list as the empty array, and refuses false, numbers, strings and non-empty lists |
| Config.ValidateFolder | src/Keboola/GoogleDriveWriter/Configuration/ConfigDefinition.php:45-52 | a folder is accepted exactly when it is an array node with no keys but id and title, each holding a scalar |
| Config.ValidateFiles | src/Keboola/GoogleDriveWriter/Configuration/ConfigDefinition.php:65-76 | an accepted files node is an array node whose only key is folder, and has a folder exactly when one is given; rejection is a user error with code 400 |
| Config.ValidateEncode | src/Keboola/GoogleDriveWriter/Configuration/ConfigDefinition.php:31-63 | every entry the schema can produce is what validation makes of its own raw form |
| Config.Defaults | src/Keboola/GoogleDriveWriter/Configuration/ConfigDefinition.php:56-61 | a table giving only its id has no table id, is enabled, not converted, and has no action |
| Config.NullEquivalentsInTable | src/Keboola/GoogleDriveWriter/Configuration/ConfigDefinition.php:45-61 | a table with enabled and convert given as null has both true, and one with folder given as an empty list has an empty folder |
| Config.NullEquivalentsInParameters | src/Keboola/GoogleDriveWriter/Configuration/ConfigDefinition.php:31-76 | parameters with files given as an empty list have an empty files node, and parameters with tables given as null have no tables |
| Input.TablePathInjective | src/Keboola/GoogleDriveWriter/Input.php:31-34 | two table ids share a path exactly when they are equal |
| Input.FilePathInjective | src/Keboola/GoogleDriveWriter/Input.php:26-29 | two file names share a path exactly when they are equal |
| Input.TableAndFilePathsDiffer | src/Keboola/GoogleDriveWriter/Input.php:26-34 | a table path and a file path under one data directory never coincide |
| Input.InputFiles | src/Keboola/GoogleDriveWriter/Input.php:19-24 | the input files are exactly the listed paths that are neither hidden (a path component starting with a dot, which Finder skips by default) nor manifests, in listing order |
| Input.DotFileSkipped | src/Keboola/GoogleDriveWriter/Input.php:21-23 | of the listing .keep, a.csv only a.csv is uploaded |
| Input.BasenameSuffix | src/Keboola/GoogleDriveWriter/Writer.php:81 | the file name is the longest suffix of the path without '/', and it is the whole path or follows a '/' |
| Input.BasenameOfJoin | src/Keboola/GoogleDriveWriter/Writer.php:81 | a file in a sub-directory is named by the part after the directory; a name without '/' is its own file name |
| Input.BasenameIsLongestSuffix | src/Keboola/GoogleDriveWriter/Writer.php:62 | the file name is the only suffix without '/' that is the whole path or follows a '/' |
| Metadata.MissingParentsSpec | src/Keboola/GoogleDriveWriter/Writer/Spreadsheet.php:176-181 | the parents to add are exactly the declared ones that `array_search` does not find among the file's parents under PHP's loose comparison, in declared order |
| Metadata.ListedIff | src/Keboola/GoogleDriveWriter/Writer/Spreadsheet.php:178 | a parent is found exactly when some parent of the file compares loosely equal to it |
| Metadata.LooseParentFound | src/Keboola/GoogleDriveWriter/Writer/Spreadsheet.php:177-180 | when "1" and "01" are the same number, "1" is found among ["01"] and no parent is added |
| Metadata.SyncCall | src/Keboola/GoogleDriveWriter/Writer/Spreadsheet.php:174-194 | a sync patch, when there is one, is a metadata update of the file read |
| Metadata.SyncCallDiff | src/Keboola/GoogleDriveWriter/Writer/Spreadsheet.php:174-194 | no call exactly when the title matches and `array_search` finds every declared parent; otherwise the patch renames iff the title differs and adds exactly the parents not found |
| Metadata.SyncIdempotent | src/Keboola/GoogleDriveWriter/Writer/Spreadsheet.php:174-194 | once the patch is applied, syncing again issues no call, as long as every string compares equal to itself |
| Metadata.SyncAdditive | src/Keboola/GoogleDriveWriter/Writer/Spreadsheet.php:174-194 | the patch never removes a parent and adds only declared ones |
| Metadata.Sync | src/Keboola/GoogleDriveWriter/Writer/Spreadsheet.php:191-193 | the sync issues the patch only when there is one, and fails only when the service refuses it |
| Spreadsheet.PlanChunked | src/Keboola/GoogleDriveWriter/Writer/Spreadsheet.php:111-144 | the plan of a run of rows is their 1000-row chunking, batch k at row offset + 1000k |
| Spreadsheet.ReadablePrefix | src/Keboola/GoogleDriveWriter/Writer/Spreadsheet.php:114-117 | the rows the loops read are a prefix of the CSV, every one with cells, followed by the end of the file or a row without cells |
| Spreadsheet.EmptyRowStops | src/Keboola/GoogleDriveWriter/Writer/Spreadsheet.php:114-117 | of the rows a, (no cells), b only a is sent, in one batch at row 1 |
| Spreadsheet.BatchCalls | src/Keboola/GoogleDriveWriter/Writer/Spreadsheet.php:123-141 | one write call per batch |
| Spreadsheet.TakeBatch | src/Keboola/GoogleDriveWriter/Writer/Spreadsheet.php:115-121 | the inner loop takes, in order, at most limit rows with cells, and stops early only at the end of the file or at a row without cells |
| Spreadsheet.TakeWithinReadable | src/Keboola/GoogleDriveWriter/Writer/Spreadsheet.php:115-121 | a batch so taken is the next min(limit, rows left) rows of the rows the loops read |
| Spreadsheet.CutBatches | src/Keboola/GoogleDriveWriter/Writer/Spreadsheet.php:111-144 | the nested loops send the 1000-row chunks of the rows before the first row without cells, batch k at row 1 + 1000k |
| Spreadsheet.PlanRangesDisjoint | src/Keboola/GoogleDriveWriter/Writer/Spreadsheet.php:123-143 | each update batch's 1000-row range ends before any later batch's range starts |
| Spreadsheet.UploadAllSheetBySheet | src/Keboola/GoogleDriveWriter/Writer/Spreadsheet.php:42-45 | sheets are uploaded one at a time in order, and the first failing sheet ends the loop |
| Spreadsheet.SheetScriptShape | src/Keboola/GoogleDriveWriter/Writer/Spreadsheet.php:93-144 | a sheet upload is the grid update, then the clear for update only, then value writes or a single raise, all addressed to the spreadsheet |
| Spreadsheet.SheetScriptSplit | src/Keboola/GoogleDriveWriter/Writer/Spreadsheet.php:99-141 | a sheet upload is the grid update, the clear for update only, then the batch loop's steps in order |
| Spreadsheet.BatchStepsShape | src/Keboola/GoogleDriveWriter/Writer/Spreadsheet.php:123-141 | every step of the batch loop is a value write to the spreadsheet or the "not allowed" raise |
| Spreadsheet.UploadCalls | src/Keboola/GoogleDriveWriter/Writer/Spreadsheet.php:93-144 | the calls of an upload are a prefix of its script |
| Spreadsheet.UploadClearsOnlyUpdates | src/Keboola/GoogleDriveWriter/Writer/Spreadsheet.php:105-108 | the sheet is cleared exactly when the action is update and the grid update succeeded, and the clear is the second call |
| Spreadsheet.UploadValueWrites | src/Keboola/GoogleDriveWriter/Writer/Spreadsheet.php:99-144 | value writes come only after the grid update and the clear, and every later call is a value write |
| Spreadsheet.UploadSendsPlan | src/Keboola/GoogleDriveWriter/Writer/Spreadsheet.php:93-147 | a successful update or append upload sends the grid update, the clear for update, then every batch of the plan of the rows before the first row without cells |
| Spreadsheet.UploadRejectsOtherActions | src/Keboola/GoogleDriveWriter/Writer/Spreadsheet.php:138-140 | any other action sends only the grid update, and fails with "not allowed" exactly when the CSV's first row has cells |
| Spreadsheet.GetCreateSpreadsheet | src/Keboola/GoogleDriveWriter/Writer/Spreadsheet.php:72-91 | find-or-create starts with a fetch of the configured spreadsheet, makes at most three calls, and only fetches or creates |
| Spreadsheet.GetCreateSpreadsheetOutcomes | src/Keboola/GoogleDriveWriter/Writer/Spreadsheet.php:72-91 | found means one call; a status other than 404 escapes; a 404 creates a spreadsheet file from the table in the declared parents, then fetches it by its new id |
| Spreadsheet.SheetsScriptAddresses | src/Keboola/GoogleDriveWriter/Writer/Spreadsheet.php:43-45 | every call step of the sheet loop addresses the given spreadsheet |
| Spreadsheet.UploadAllAddresses | src/Keboola/GoogleDriveWriter/Writer/Spreadsheet.php:43-45 | every call of the sheet uploads addresses the given spreadsheet |
| Spreadsheet.UploadAllWrites | src/Keboola/GoogleDriveWriter/Writer/Spreadsheet.php:42-52 | with client errors caught, every value the sheet uploads write goes to the given spreadsheet |
| Spreadsheet.SyncUploadWrites | src/Keboola/GoogleDriveWriter/Writer/Spreadsheet.php:40-45 | after the sync, every value write goes to the configured file id |
| Spreadsheet.SyncWritesNothing | src/Keboola/GoogleDriveWriter/Writer/Spreadsheet.php:174-194 | the metadata sync writes no value |
| Spreadsheet.AfterSyncWrites | src/Keboola/GoogleDriveWriter/Writer/Spreadsheet.php:40-52 | when the sync wrote nothing elsewhere, the uploads after it write only to the configured file id |
| Spreadsheet.ReadSyncUploadWrites | src/Keboola/GoogleDriveWriter/Writer/Spreadsheet.php:37-45 | the metadata read uses the configured file id, and so does every value write |
| Spreadsheet.ProcessReadsConfiguredFile | src/Keboola/GoogleDriveWriter/Writer/Spreadsheet.php:33-53 | even after a 404 led to a new file, process reads metadata by the configured file id |
| Spreadsheet.GetCreateWritesNothing | src/Keboola/GoogleDriveWriter/Writer/Spreadsheet.php:72-91 | find-or-create writes no values |
| Spreadsheet.ProcessKeepsConfiguredId | src/Keboola/GoogleDriveWriter/Writer/Spreadsheet.php:33-53 | every value process writes goes to the configured file id |
| Spreadsheet.ProcessFoundAddressesFound | src/Keboola/GoogleDriveWriter/Writer/Spreadsheet.php:33-53 | the corrected process reads metadata and writes values in the spreadsheet that find-or-create returned |
| SheetDraft.Padded | src/Keboola/GoogleDriveWriter/Writer/Sheet.php:66-72 | the draft's inner loop always collects exactly 1000 entries |
| SheetDraft.DraftPlanBatches | src/Keboola/GoogleDriveWriter/Writer/Sheet.php:65-79 | batch k reads from row 1000k; the first carries the starting offset and every later one offset 1000 |
| SheetDraft.DraftPlanStops | src/Keboola/GoogleDriveWriter/Writer/Sheet.php:65-79 | the loop runs while the row at each batch position is truthy and stops at the first one that is not |
| SheetDraft.DraftCutBatches | src/Keboola/GoogleDriveWriter/Writer/Sheet.php:60-79 | every draft batch holds 1000 entries; the first is written at row 0 and every later one at row 1000 |
| SheetDraft.DraftBatchCount | src/Keboola/GoogleDriveWriter/Writer/Sheet.php:65-79 | with no empty rows the draft sends one batch per 1000-row chunk |
| SheetDraft.DraftCarriesRows | src/Keboola/GoogleDriveWriter/Writer/Sheet.php:65-79 | with no empty rows, row j travels in batch j/1000 at position j mod 1000 |
| SheetDraft.DraftPadsWithEof | src/Keboola/GoogleDriveWriter/Writer/Sheet.php:68-72 | every batch entry past the last row is the reader's false |
| SheetDraft.DraftOffsetsCollide | src/Keboola/GoogleDriveWriter/Writer/Sheet.php:73-78 | with more than 2000 rows, batches 2 and 3 are both written at row 1000, and batch 1 at row 0 |
| SheetDraft.DraftValueCalls | src/Keboola/GoogleDriveWriter/Writer/Sheet.php:73-77 | one value write per draft batch |
| SheetDraft.DraftScriptCallsWrite | src/Keboola/GoogleDriveWriter/Writer/Sheet.php:73-77 | every draft value write is a 1000-entry write to the configured file id |
| SheetDraft.DraftUploadIssues | src/Keboola/GoogleDriveWriter/Writer/Sheet.php:56-79 | the draft upload's writes are 1000-entry writes to the configured file, and a successful upload sends the whole script |
| SheetDraft.DraftUpload | src/Keboola/GoogleDriveWriter/Writer/Sheet.php:56-79 | the draft upload of a CSV without rows never succeeds |
| SheetDraft.DraftEmptyCsv | src/Keboola/GoogleDriveWriter/Writer/Sheet.php:56-64 | on a CSV without rows the rename is issued and the column count then fails with count's TypeError, with no value written |
| SheetDraft.DraftSyncUploadIssues | src/Keboola/GoogleDriveWriter/Writer/Sheet.php:55-79 | after the sync, writes go to the configured file, and success ends with the whole upload script |
| SheetDraft.DraftRestIssues | src/Keboola/GoogleDriveWriter/Writer/Sheet.php:52-79 | the draft first reads metadata by the configured file id, then behaves as above |
| SheetDraft.DraftUpdateWrites | src/Keboola/GoogleDriveWriter/Writer/Sheet.php:30-82 | all draft writes go to the configured file, which is read right after find-or-create even when a new file was created |
| SheetDraft.DraftUpdateEnds | src/Keboola/GoogleDriveWriter/Writer/Sheet.php:30-82 | a successful draft run ends with the rename to sheet1 followed by the value writes |
| SheetDraft.DraftAppend | src/Keboola/GoogleDriveWriter/Writer/Sheet.php:84-87 | the draft's append issues nothing and succeeds |
| Writer.Retry403Refuses | src/Keboola/GoogleDriveWriter/Writer.php:43-58 | a 403 is retried unless its reason is one of the three quota or permission reasons |
| Writer.HandleError403 | src/Keboola/GoogleDriveWriter/Writer.php:226-240 | a warning exactly when the lower-cased reason is forbidden, otherwise the user error "Reason: ..." with code 403 |
| Writer.HandleError403Iff | src/Keboola/GoogleDriveWriter/Writer.php:228-236 | the warning is given exactly for the nine letters of forbidden in any mixture of cases |
| Writer.GetInputFile | src/Keboola/GoogleDriveWriter/Writer.php:213-224 | an input path exists exactly when the input file is non-empty or the table id is a non-empty string; a non-empty table id of another type is an engine error (strict types, Input.php:31); with neither, the application error "No input file or table specified" |
| Writer.InputFileWins | src/Keboola/GoogleDriveWriter/Writer.php:215-220 | a non-empty input file name wins over the table id |
| Writer.CreateParams | src/Keboola/GoogleDriveWriter/Writer.php:161-177 | the create parameters: the MIME type is the spreadsheet type under convert and otherwise the guessed type; an id exactly when fileId is non-empty; parents exactly when the folder id is set |
| Writer.CreateFileRun | src/Keboola/GoogleDriveWriter/Writer.php:161-177 | no call, and the failure of the input choice, when no input file resolves; otherwise exactly one create call |
| Writer.StampedExtends | src/Keboola/GoogleDriveWriter/Writer.php:137 | the stamped title extends the title with " (<time>)" |
| Writer.CreateRun | src/Keboola/GoogleDriveWriter/Writer.php:135-139 | create uploads under the stamped title |
| Writer.UpdateParams | src/Keboola/GoogleDriveWriter/Writer.php:144-149 | the update renames to the title and adds the folder exactly when its id is non-empty |
| Writer.UpdateRun | src/Keboola/GoogleDriveWriter/Writer.php:141-159 | update probes the configured file first and then updates it or creates it |
| Writer.UpdateOutcomes | src/Keboola/GoogleDriveWriter/Writer.php:141-159 | a probe error escapes; found leads to an update of that file; not found leads to a create |
| Writer.Dispatch | src/Keboola/GoogleDriveWriter/Writer.php:112-124 | an entry without an action stops with the engine error that calling the error handler raises (PHP 8 passes it four arguments, it declares five), and an action other than create or update raises "Action '...' doesn't exist", both before any call |
| Writer.DispatchRoutes | src/Keboola/GoogleDriveWriter/Writer.php:113-124 | create goes to create and update goes to update |
| Writer.ProcessTable | src/Keboola/GoogleDriveWriter/Writer.php:110-133 | the table's calls are the dispatch's; success is written; a 403 succeeds exactly when its reason is forbidden in any case, as the warning, and is the user error "Reason: ..." with code 403 otherwise; other failures escape unchanged |
| Writer.ProcessTableWarns | src/Keboola/GoogleDriveWriter/Writer.php:125-132 | a table ends in a warning exactly when its dispatch failed with a 403 whose reason is forbidden |
| Writer.ProcessTables | src/Keboola/GoogleDriveWriter/Writer.php:96-108 | a successful run has one response per enabled table |
| Writer.DisabledChangesNothing | src/Keboola/GoogleDriveWriter/Writer.php:98-100 | inserting a disabled table anywhere changes neither the calls nor the outcome |
| Writer.NothingEnabled | src/Keboola/GoogleDriveWriter/Writer.php:96-108 | with no enabled table there is no call and no response |
| Writer.Adopt | src/Keboola/GoogleDriveWriter/Writer.php:85-92 | after a listing only probes, updates and creates are issued |
| Writer.FileTitle | src/Keboola/GoogleDriveWriter/Writer.php:60-72 | without a manifest name, a file's title is its file name, without the directories it was found in |
| Writer.ProcessFile | src/Keboola/GoogleDriveWriter/Writer.php:79-92 | each file starts with a listing by its title |
| Writer.ProcessFileAdopts | src/Keboola/GoogleDriveWriter/Writer.php:81-92 | a name match updates the first match's id; no match creates the file under its title from the top of the files directory, at its file name, without an id; a file name "0" is refused as no input |
| Writer.NestedFileReadsTopLevel | src/Keboola/GoogleDriveWriter/Writer.php:81 | as written, sub/a.csv without a manifest is listed and created as a.csv but read from in/files/a.csv, not from where it was found |
| Writer.NestedZeroRefused | src/Keboola/GoogleDriveWriter/Writer.php:81 | as written, sub/0 is refused with "No input file or table specified" after its listing |
| Writer.ProcessFileListed | src/Keboola/GoogleDriveWriter/Writer.php:79-92 | corrected, each file still starts with the listing by its title |
| Writer.ProcessFileListedUploadsListed | src/Keboola/GoogleDriveWriter/Writer.php:81-92 | corrected, a file without a match is created from the path it was found at; for a file at the top of the directory the corrected and the written run agree |
| Writer.ProcessFileListsOnce | src/Keboola/GoogleDriveWriter/Writer.php:82-83 | each file lists exactly once, by its title: the manifest's name or else the file name |
| Writer.ProcessFileListListings | src/Keboola/GoogleDriveWriter/Writer.php:78-93 | a successful run lists once per file, in order, by each file's title (the manifest's name or else the file name) |
| Writer.ProcessFilesListings | src/Keboola/GoogleDriveWriter/Writer.php:74-94 | a successful run lists once per input file, in listing order |
| Writer.CreateFileMetadataRun | src/Keboola/GoogleDriveWriter/Writer.php:179-201 | one call; the spreadsheet or text/csv MIME type; parents exactly when the folder id is set; the placed folder is the configured one or root |
| Writer.GetFileRun | src/Keboola/GoogleDriveWriter/Writer.php:203-211 | one getFile of the given id, with the given fields, or the default ones when none are given, so the field list is never empty |
| FileWriter.Create | src/Keboola/GoogleDriveWriter/Writer/File.php:39-50 | create uploads the table's CSV under the stamped title into the configured parents |
| FileWriter.Update | src/Keboola/GoogleDriveWriter/Writer/File.php:52-76 | update probes the configured file first and makes at most one more call |
| FileWriter.Process | src/Keboola/GoogleDriveWriter/Writer/File.php:29-37 | a value loosely equal to neither update nor create raises "Action '...' not allowed" before any call |
| FileWriter.ProcessRoutes | src/Keboola/GoogleDriveWriter/Writer/File.php:31-36 | "update" and true route to update, "create" to create, and every other value is refused |
| FileWriter.UpdateOutcomes | src/Keboola/GoogleDriveWriter/Writer/File.php:52-76 | found leads to an update with the title and parents; not found leads to a create under the configured id and the unstamped title |
| FileWriter.ProcessReadsTable | src/Keboola/GoogleDriveWriter/Writer/File.php:39-76 | every upload reads the table's CSV |
| FileWriter.UpdateAgreesWithWriter | src/Keboola/GoogleDriveWriter/Writer/File.php:55-64 | with one non-empty parent, the older update sends the same metadata as the table writer |
| LegacyWriter.Retry403Agrees | src/Keboola/GoogleDriveWriter/Writer/Writer.php:23-43 | the loosely compared retry rule agrees with the strict one on every reason, with the same retry count |
| LegacyWriter.Process | src/Keboola/GoogleDriveWriter/Writer/Writer.php:45-56 | as intended, a successful process returns no results |
| LegacyWriter.ProcessSucceeds | src/Keboola/GoogleDriveWriter/Writer/Writer.php:49-53 | process succeeds exactly when every sheet's method does |
| LegacyWriter.ProcessFailure | src/Keboola/GoogleDriveWriter/Writer/Writer.php:49-53 | a failure of process is the failure of one sheet's method |
| LegacyWriter.ProcessAsWrittenFails | src/Keboola/GoogleDriveWriter/Writer/Writer.php:49-53 | as written, process fails with "class not found" at the first sheet when that sheet's type names one of the package's writer classes |
| LegacyWriter.SheetTypeNotFound | src/Keboola/GoogleDriveWriter/Writer/Writer.php:51-52 | as written, a single sheet of type sheet ends in the engine error Class "Sheet" not found |
| Php.LooseStrEqWord | src/Keboola/GoogleDriveWriter/Writer/Writer.php:34-36 | against a literal with a non-numeric character, loose string equality is plain equality |
| Php.LooseEqWord | src/Keboola/GoogleDriveWriter/Writer/File.php:31-33 | against such a literal, a value is loosely equal exactly when it is that string or true |
| Application.ReadPath | src/Keboola/GoogleDriveWriter/Application.php:44 | an empty path reads the value itself; a failed read is the bootstrap handler's ArgumentCountError or the string-offset engine error |
| Application.ReadPathConcat | src/Keboola/GoogleDriveWriter/Application.php:44 | a path is read one key at a time: a failure of the first part is the failure of the whole, else the rest is read from where the first part led |
| Application.TokenData | src/Keboola/GoogleDriveWriter/Application.php:44 | the token data is read exactly when the credential path is present and ends in a string, a number or a boolean; any other case is an engine error |
| Application.Boot | src/Keboola/GoogleDriveWriter/Application.php:29-44 | the action defaults to run, the parameters are the validated ones, and the authorization is non-empty with readable token data |
| Application.BootOrder | src/Keboola/GoogleDriveWriter/Application.php:31-44 | invalid parameters are reported (code 400) before missing authorization; with valid parameters an empty authorization is the missing-authorization error, and a non-empty one fails exactly when its token data cannot be read, with an engine error |
| Application.BootWithoutCredentials | src/Keboola/GoogleDriveWriter/Application.php:41-44 | the non-empty authorization {"x": 1} fails with the handler's ArgumentCountError |
| Application.BootWithCredentials | src/Keboola/GoogleDriveWriter/Application.php:41-44 | an authorization holding oauth_api.credentials.#data as a string boots |
| Application.HasActionMethodIff | src/Keboola/GoogleDriveWriter/Application.php:72-73 | an action method exists exactly for run, in any mixture of cases |
| Application.Classify | src/Keboola/GoogleDriveWriter/Application.php:77-98 | non-HTTP failures pass; 401 asks to reauthorize; 400 is the message as a user error; 503 is a "Google API error" |
| Application.ClassifyApplicationErrors | src/Keboola/GoogleDriveWriter/Application.php:96-98 | an HTTP error becomes an application error with code 500 exactly when its status is not 400, 401, 403 or 503 |
| Application.Classify403AgreesWithWriter | src/Keboola/GoogleDriveWriter/Application.php:83-89 | a 403 gives the empty result exactly where the table writer warns, and the same user error otherwise |
| Application.RunAsWritten | src/Keboola/GoogleDriveWriter/Application.php:70-99 | as written, an unknown action ends in an engine error |
| Application.Run | src/Keboola/GoogleDriveWriter/Application.php:70-99 | as intended, an unknown action is the user error "Action '...' does not exist." |
| Application.RunDiscrepancy | src/Keboola/GoogleDriveWriter/Application.php:72-74 | every action other than run fails without a user error as written, and with the intended one when corrected; for run the two agree |
| Application.UnknownActionExample | src/Keboola/GoogleDriveWriter/Application.php:74 | the action sync is an engine error as written and a user error naming sync as intended |
| Application.RunRuns | src/Keboola/GoogleDriveWriter/Application.php:76-78 | run, in any mixture of cases, hands the result through and classifies every failure |
| DriveClient.GetFileUri | src/Keboola/GoogleDriveWriter/GoogleDrive/Client.php:47-52 | the getFile address starts with the file's metadata address |
| DriveClient.GetFileUriFields | src/Keboola/GoogleDriveWriter/GoogleDrive/Client.php:49-52 | the address has a query exactly when fields are asked for, and the fields split back out of it |
| DriveClient.GetFile | src/Keboola/GoogleDriveWriter/GoogleDrive/Client.php:47-56 | getFile sends one GET with no body |
| DriveClient.ListFilesUri | src/Keboola/GoogleDriveWriter/GoogleDrive/Client.php:63-68 | the listing address starts with the files address |
| DriveClient.ListFilesUriQuery | src/Keboola/GoogleDriveWriter/GoogleDrive/Client.php:65-68 | the query is appended exactly when it is non-empty, and unchanged |
| DriveClient.CreateBody | src/Keboola/GoogleDriveWriter/GoogleDrive/Client.php:83-95 | the create body has the keys of params plus name; params win every clash; name is the title otherwise |
| DriveClient.CreateFile | src/Keboola/GoogleDriveWriter/GoogleDrive/Client.php:81-115 | createFile posts the metadata, then, only if that succeeded, uploads the file to the id in the reply |
| DriveClient.UpdateFileMetadata | src/Keboola/GoogleDriveWriter/GoogleDrive/Client.php:151-170 | one PATCH carrying the body as JSON |
| DriveClient.UpdateFileMetadataQuery | src/Keboola/GoogleDriveWriter/GoogleDrive/Client.php:153-156 | a query string is appended exactly when there are parameters |
| DriveClient.UpdateFile | src/Keboola/GoogleDriveWriter/GoogleDrive/Client.php:124-142 | updateFile patches the metadata with params as the body, then, only if that succeeded, uploads to the id in the reply |
| DriveClient.UpdateFileSendsParentsInBody | src/Keboola/GoogleDriveWriter/GoogleDrive/Client.php:124-127 | a folder to add given to updateFile travels in the body, with no query string |
| DriveClient.UpdateFileSplit | src/Keboola/GoogleDriveWriter/GoogleDrive/Client.php:124-142 | the corrected updateFile uploads to the id in the metadata reply, only if the metadata update succeeded |
| DriveClient.UpdateFileSplitRoutes | src/Keboola/GoogleDriveWriter/GoogleDrive/Client.php:151-156 | corrected, parent changes go in the query and every other parameter goes in the body, each exactly once |
| DriveClient.CreateSpreadsheet | src/Keboola/GoogleDriveWriter/GoogleDrive/Client.php:255-278 | one POST of a JSON object to the spreadsheets address |
| DriveClient.CreateSpreadsheetBody | src/Keboola/GoogleDriveWriter/GoogleDrive/Client.php:257-264 | the body names the spreadsheet exactly when an id is given, and carries the properties and sheets as given |
| DriveClient.BatchUpdate | src/Keboola/GoogleDriveWriter/GoogleDrive/Client.php:319-337 | one POST to the spreadsheet's batch address |
| DriveClient.AddSheet | src/Keboola/GoogleDriveWriter/GoogleDrive/Client.php:286-295 | a batch update holding exactly one addSheet request |
| DriveClient.UpdateSheet | src/Keboola/GoogleDriveWriter/GoogleDrive/Client.php:297-309 | a batch update holding exactly one updateSheetProperties request, whose field mask is title alone |
| DriveClient.FileExists | src/Keboola/GoogleDriveWriter/GoogleDrive/Client.php:421-432 | fileExists sends one GET of the file's metadata |
| DriveClient.FileExistsOutcomes | src/Keboola/GoogleDriveWriter/GoogleDrive/Client.php:421-432 | true on success, false exactly on a 404, and any other error status escapes unchanged |

## Left out

- HTTP, the file system, the clock and MIME detection are parameters or oracles. This covers `api->request`, `json_decode` of bodies and manifests, `fopen`/`filesize` streams, CSV parsing, `date()` and `MimeType::fromFilename`.
- Retries run inside the external REST client library, which is not part of this model. Only the 403 retry rule and the retry count are modelled.
- `Writer.php` talks to the external Sheets client library, which is not part of this model. Its `fileExists`, `listFiles`, `createFile`, `createFileMetadata`, `updateFile` and `getFile` are oracle calls.
- Logging has no effect on results and is left out: warnings and the quiet logger for non-run actions.
- The container wiring in `Application.php` is left out, apart from the eager read of the token data at line 44. This covers the token's fields, client construction and the Extractor. The Extractor is not part of this model, so the outcome of `runAction` is an input.
- The context arrays attached to exceptions are left out. This covers response bodies, reason phrases and the table data.
- `Writer/Spreadsheet.php` uses `ConfigDefinition::ACTION_APPEND`, `Client::clearSpreadsheetValues` and `Input::countLines`, and none of the three is defined: not in `ConfigDefinition.php` (lines 12-13 define only create and update), not in `GoogleDrive/Client.php`, not in `Input.php`. As written, the call of `countLines` at `Writer/Spreadsheet.php:97` therefore raises PHP's "Call to undefined method" before any sheet is touched. The model describes the intended upload instead: the `Append` action, an abstract clear call, and the line count as a parameter.
- LegacyWriter.Process: `Writer/Writer.php` calls a method on the class named by a sheet's type. A type naming a writer class of the package fails as written (see Findings). For every other type, the class lookup, its constructor and the method live in the `Invoke` oracle, because the classes involved are not part of this model.
- Loose comparison follows PHP 8: an integer compared with a non-numeric string is compared as a string. Whether two numeric strings are numerically equal is an oracle (`NumEq`). The same oracle decides the `array_search` of the metadata sync.
- Reading an undefined array key is a warning, which PHP 8 reports to the error handler of `bootstrap.php` (lines 15-23) with four arguments. The handler declares five, so the call raises an `ArgumentCountError`, and the `ErrorException` it means to throw is never reached. `run.php` (lines 52-58) catches the error as a `Throwable` and exits with code 2. The model raises this engine error for a table without an action (`Writer.php:113`) and for an authorization without its token data (`Application.php:44`). An absent `title` or `fileId` (`Writer.php:137`, `143-145`) reads as "" instead, and the keys the spreadsheet writers read from a sheet are taken to be present.
- Writer.Dispatch: the engine error's text names the handler `{closure}`, as PHP 8.0 to 8.3 do. PHP 8.4 adds the closure's file and line to that name, which the model does not.
- Numbers in the configuration are integers: `Json` has no floating-point values, so a float scalar such as a table id of 1.5 cannot be written.
- The spreadsheet writers' sheet and spreadsheet entries are not schema-checked, and their `tableId` is a string.
- SheetDraft.DraftUpload: on a CSV without rows, `Writer/Sheet.php:64` counts the reader's `false`. PHP 8 raises a TypeError there, after the metadata sync and the rename. The model fails with that error; its text follows PHP 8's wording of `count`'s argument check.
- The manifest name is read only when it is a string.
- The listing is Finder's recursive search of `in/files`, given as paths relative to that directory. Finder also leaves out version-control directories by default; the model does not.
- The listed path stands for the real path: symbolic links are not resolved, and the manifest read is the one next to the listed path.
- The Drive client methods the writers do not call are left out: `deleteFile`, `exportFile`, `getSpreadsheetValues` and `generateIds`.
- The writers call `getSpreadsheet`, `updateSpreadsheetValues` and `appendSpreadsheetValues` (`Writer/Spreadsheet.php:75`, `89`, `125`, `132`; `Writer/Sheet.php:33`, `49`, `73`). They are modelled only as abstract calls; the request shapes those client methods build are not modelled.
- Integers are unbounded. The row offsets and counts involved stay far below PHP's 64-bit range.
- An update sheet whose CSV has a first row with no cells or with more than 702 cells is excluded by the `Addressable` preconditions of the spreadsheet and draft members. The source indexes outside its letter table there.
- A1.ColumnA1: columns from index 702 (past ZZ) are excluded by the precondition. There the source reads past its 26-letter table.
- Config.ValidateParameters: refuses `tables` given as a non-empty JSON object. The prototyped node would take the object's values in key order, and the model's objects keep no key order.
- Config.ValidateParameters: states the class and code of a rejection (a user error with code 400), not the text of the configuration processor's message.
- Writer.ProcessFilesListings: does not restate that manifests are skipped; Input.InputFiles states that.
- Writer.ProcessFiles: the files loop is modelled as written, reading each file by its file name alone (see Findings). Writer.ProcessFileListed is the corrected step for one file.
- Writer.ProcessTables: states the number of responses, not each one. Writer.ProcessTable states each one, and Writer.DisabledChangesNothing states that disabled tables are skipped.
- Application.Boot: `UserException`'s default code is taken to be 0. That class is not part of this model.
- Application.TokenData: the texts of the engine errors follow PHP 8.1 and later. A string offset of a string is refused under every PHP 8 release, but with other wordings in some. A null `#data` is reported as deprecated only from PHP 8.1, so under PHP 8.0 it would pass.

## Findings

| source | as written | input that shows it | evidently intended | confidence | as-written member | corrected member |
|---|---|---|---|---|---|---|
| src/Keboola/GoogleDriveWriter/Writer/Sheet.php:78 | after each batch the offset is set to the inner counter, which is always 1000, and the first batch is written from row 0 | a CSV of 2001 non-empty rows: batches at rows 0, 1000 and 1000 | the offset advances by the rows taken, from row 1, so the ranges follow each other | high, not executed | SheetDraft.DraftOffsetsCollide | Spreadsheet.PlanRangesDisjoint |
| src/Keboola/GoogleDriveWriter/Writer/Sheet.php:68 | the inner loop never checks for the end of the file, so the last batch is padded with the reader's false up to 1000 entries | a CSV of 3 rows: one batch of 3 rows followed by 997 false entries | stop the batch at the end of the file | high, not executed | SheetDraft.DraftPadsWithEof | Spreadsheet.TakeBatch |
| src/Keboola/GoogleDriveWriter/Writer/Spreadsheet.php:37 | after a 404 created a new spreadsheet, the metadata is read, synced and filled by the configured (missing) file id | getSpreadsheet of the configured id answers 404 and createFile returns a new id: the next call is getFile of the missing id | continue with the id of the spreadsheet that was found or created | medium, not executed | Spreadsheet.ProcessReadsConfiguredFile | Spreadsheet.ProcessFoundAddressesFound |
| src/Keboola/GoogleDriveWriter/Application.php:74 | the message for an unknown action indexes the application object as an array, which PHP refuses with an engine error | the action sync | the user error "Action 'sync' does not exist." | high, not executed | Application.UnknownActionExample | Application.Run |
| src/Keboola/GoogleDriveWriter/GoogleDrive/Client.php:127 | updateFile passes its params as the metadata body, so addParents travels in the JSON body; the other callers of updateFileMetadata pass addParents as a query parameter | File.php update of an existing file with parents ["f1"]: a PATCH with no query string and addParents in the body | parent changes go in the query string, the rest in the body | medium, not executed | DriveClient.UpdateFileSendsParentsInBody | DriveClient.UpdateFileSplitRoutes |
| src/Keboola/GoogleDriveWriter/Writer/Writer.php:52 | the class named by the sheet's type is looked up in the global namespace and built with the Drive client alone, while the writer classes live in the package's Writer namespace and take a client and an input | one sheet of type sheet: Class "Sheet" not found, before any call | build the package's writer class with the client and the input, then call the sheet's method | high, not executed | LegacyWriter.ProcessAsWrittenFails | LegacyWriter.ProcessSucceeds |
| src/Keboola/GoogleDriveWriter/Writer.php:81 | the input file is `getFilename()`, the name without the directories Finder's recursive search went through, so a file in a sub-directory is read from the top of the files directory | sub/a.csv with no manifest and no name match: listed and created as a.csv, read from in/files/a.csv; sub/0 is refused as no input | read the file from the path it was found at (`getRelativePathname()`) | medium, not executed | Writer.NestedFileReadsTopLevel | Writer.ProcessFileListedUploadsListed |

=== FILE: a1.dfy ===
/** A1 addressing of spreadsheet cells: column letters and range strings,
    as `getColumnA1` and `getRange` in Writer/Spreadsheet.php build them
    (Writer/Sheet.php holds a character-for-character copy of both). */
module A1 {
  import opened Base
  import opened Text

  /** `range('A', 'Z')[k]`. */
  function Letter(k: int): char
    requires 0 <= k < 26
  {
    ('A' as int + k) as char
  }

  predicate IsLetter(c: char) {
    'A' <= c <= 'Z'
  }

  /** Conventional spreadsheet numbering of a column label: bijective base 26,
      where A counts 1 and Z counts 26 (so "Z" is 26, "AA" is 27). */
  function LabelValue(s: string): int {
    if |s| == 0 then 0 else LabelValue(s[..|s| - 1]) * 26 + (s[|s| - 1] as int - 'A' as int + 1)
  }

  lemma LabelValueSnoc(p: string, c: char)
    ensures LabelValue(p + [c]) == LabelValue(p) * 26 + (c as int - 'A' as int + 1)
  {
    assert (p + [c])[..|p|] == p;
  }

  /** The column label of zero-based column `n`. Only one- and two-letter
      labels are produced: index 702 would read past 'Z' in the letter table. */
  function ColumnA1(n: int): (r: string)
    requires 0 <= n <= 701
    ensures |r| == (if n <= 25 then 1 else 2)
    ensures forall i :: 0 <= i < |r| ==> IsLetter(r[i])
    ensures LabelValue(r) == n + 1
  {
    DivMod26(n);
    var prefix := if n > 25 then [Letter(n / 26 - 1)] else [];
    var r := prefix + [Letter(n % 26)];
    ColumnA1Value(n, prefix, r);
    assert IsLetter(r[|r| - 1]);
    assert n > 25 ==> IsLetter(r[0]);
    r
  }

  /** Quotient and remainder of a column index by the alphabet's size. */
  lemma DivMod26(n: int)
    requires 0 <= n <= 701
    ensures n == (n / 26) * 26 + n % 26 && 0 <= n % 26 < 26
    ensures 0 <= n / 26 <= 26 && (n > 25 <==> n / 26 >= 1)
  {
  }

  lemma ColumnA1Value(n: int, prefix: string, r: string)
    requires 0 <= n <= 701
    requires prefix == (if n > 25 then [Letter(n / 26 - 1)] else [])
    requires r == prefix + [Letter(n % 26)]
    ensures LabelValue(r) == n + 1
  {
    var q, m := n / 26, n % 26;
    assert n == q * 26 + m && 0 <= m < 26;
    LabelValueSnoc(prefix, Letter(m));
    if n > 25 {
      LabelValueSnoc([], prefix[0]);
      assert [] + [prefix[0]] == prefix;
      assert LabelValue(prefix) == q;
    } else {
      assert q == 0;
    }
  }

  /** Different columns get different labels. */
  lemma ColumnA1Injective(a: int, b: int)
    requires 0 <= a <= 701 && 0 <= b <= 701
    ensures ColumnA1(a) == ColumnA1(b) <==> a == b
  {
  }

  /** The boundary labels of the conventional numbering. */
  lemma ColumnA1Landmarks()
    ensures ColumnA1(0) == "A" && ColumnA1(25) == "Z"
    ensures ColumnA1(26) == "AA" && ColumnA1(701) == "ZZ"
  {
  }

  /** `getRange`: `<urlencoded title>!A<rowOffset>:<last column><rowOffset + rowLimit - 1>`.
      `urlencode` is a parameter: it maps a space to '+', never produces '!'. */
  function Range(urlencode: string -> string, sheetTitle: string, columnCount: int, rowOffset: int, rowLimit: int): string
    requires 1 <= columnCount <= 702
  {
    urlencode(sheetTitle) + "!" + "A" + IntToString(rowOffset) + ":"
      + ColumnA1(columnCount - 1) + IntToString(rowOffset + rowLimit - 1)
  }

  /** A range read back: sheet, first cell and last cell. */
  datatype CellRange = CellRange(sheet: string, firstColumn: string, firstRow: nat, lastColumn: string, lastRow: nat)

  /** Splits at the first occurrence of `c`. */
  function SplitFirst(s: string, c: char): Option<(string, string)> {
    if |s| == 0 then None
    else if s[0] == c then Some(([], s[1..]))
    else match SplitFirst(s[1..], c)
      case None => None
      case Some(p) => Some(([s[0]] + p.0, p.1))
  }

  function LeadingLetters(s: string): (k: nat)
    ensures k <= |s|
  {
    if |s| > 0 && IsLetter(s[0]) then 1 + LeadingLetters(s[1..]) else 0
  }

  /** A cell address such as `AB12`: letters, then at least one digit. */
  function ParseCell(s: string): Option<(string, nat)> {
    var k := LeadingLetters(s);
    if 0 < k < |s| && AllDigits(s[k..]) then Some((s[..k], ParseNat(s[k..]))) else None
  }

  /** Reads `<sheet>!<cell>:<cell>`. */
  function ParseRange(s: string): Option<CellRange> {
    match SplitFirst(s, '!')
    case None => None
    case Some(p) =>
      match SplitFirst(p.1, ':')
      case None => None
      case Some(q) =>
        match (ParseCell(q.0), ParseCell(q.1))
        case (Some(a), Some(b)) => Some(CellRange(p.0, a.0, a.1, b.0, b.1))
        case _ => None
  }

  lemma {:induction false} SplitFirstConcat(a: string, b: string, c: char)
    requires c !in a
    ensures SplitFirst(a + [c] + b, c) == Some((a, b))
    decreases |a|
  {
    if |a| == 0 {
      assert a + [c] + b == [c] + b;
    } else {
      assert (a + [c] + b)[1..] == a[1..] + [c] + b;
      SplitFirstConcat(a[1..], b, c);
      assert [a[0]] + a[1..] == a;
    }
  }

  lemma {:induction false} LeadingLettersConcat(l: string, d: string)
    requires forall i :: 0 <= i < |l| ==> IsLetter(l[i])
    requires |d| > 0 && !IsLetter(d[0])
    ensures LeadingLetters(l + d) == |l|
    decreases |l|
  {
    if |l| == 0 {
      assert l + d == d;
    } else {
      assert (l + d)[1..] == l[1..] + d;
      LeadingLettersConcat(l[1..], d);
    }
  }

  lemma ParseCellOf(l: string, n: nat)
    requires |l| > 0 && forall i :: 0 <= i < |l| ==> IsLetter(l[i])
    ensures ParseCell(l + NatToString(n)) == Some((l, n))
  {
    var d := NatToString(n);
    LeadingLettersConcat(l, d);
    assert (l + d)[..|l|] == l && (l + d)[|l|..] == d;
    ParseNatToString(n);
  }

  /** A range string can be read back: it names the encoded sheet, starts in
      column A at `rowOffset`, and spans exactly `rowLimit` rows and
      `columnCount` columns. */
  lemma {:induction false} RangeSpans(urlencode: string -> string, sheetTitle: string, columnCount: int, rowOffset: nat, rowLimit: int)
    requires 1 <= columnCount <= 702 && rowLimit >= 1
    requires '!' !in urlencode(sheetTitle)
    ensures var p := ParseRange(Range(urlencode, sheetTitle, columnCount, rowOffset, rowLimit));
      && p.Some?
      && p.value.sheet == urlencode(sheetTitle)
      && p.value.firstColumn == "A" && p.value.firstRow == rowOffset
      && p.value.lastRow - p.value.firstRow + 1 == rowLimit
      && LabelValue(p.value.lastColumn) - LabelValue(p.value.firstColumn) + 1 == columnCount
  {
    var last: nat := rowOffset + rowLimit - 1;
    var start := "A" + NatToString(rowOffset);
    var end := ColumnA1(columnCount - 1) + NatToString(last);
    var cells := start + [':'] + end;
    assert Range(urlencode, sheetTitle, columnCount, rowOffset, rowLimit) == urlencode(sheetTitle) + ['!'] + cells;
    SplitFirstConcat(urlencode(sheetTitle), cells, '!');
    assert ':' !in start by {
      assert forall i :: 1 <= i < |start| ==> IsDigit(start[i]);
    }
    SplitFirstConcat(start, end, ':');
    ParseCellOf("A", rowOffset);
    ParseCellOf(ColumnA1(columnCount - 1), last);
    assert LabelValue("A") == 1 by {
      assert "A"[..0] == [];
    }
  }
}

=== FILE: application.dfy ===
/** The entry point (Application.php): how a raw configuration is accepted,
    which action runs, and how an HTTP error escaping the action is turned
    into the error the user sees. */
module Application {
  import opened Base
  import opened Json
  import opened Config
  import opened Php
  import Writer

  /** The raw configuration: the `action` key when it is set, the
      `parameters` tree (null when missing) and the `authorization` value
      (null when missing). */
  datatype RawConfig = RawConfig(action: Option<string>, parameters: Json, authorization: Json)

  /** A constructed application: the action to run and the validated parameters. */
  datatype App = App(action: string, parameters: Parameters)

  const MissingAuthorization: Failure := UserError("Missing authorization data", 0)

  /** The keys the constructor reads the OAuth token data under. */
  const CredentialPath: seq<string> := ["oauth_api", "credentials", "#data"]

  /** Reading a string offset of a string, which PHP 8 refuses with an engine error. */
  const StringOffset: Failure := EngineError("Cannot access offset of type string on string")

  /** `$v[path[0]][path[1]]...` read eagerly: the value at the end of the
      path, or how the read fails. A key an array lacks, or an offset of
      null, a boolean or a number, is a warning under PHP 8, which the
      bootstrap handler turns into its ArgumentCountError; an offset of a
      string is an engine error of its own. */
  function ReadPath(v: Json, path: seq<string>): (r: Outcome<Json>)
    ensures |path| == 0 ==> r == Ok(v)
    ensures r.Fail? ==> r.failure == Writer.HandlerArgumentCount || r.failure == StringOffset
    decreases |path|
  {
    if |path| == 0 then Ok(v)
    else match v
      case JObj(fields) =>
        if path[0] in fields then ReadPath(fields[path[0]], path[1..]) else Fail(Writer.HandlerArgumentCount)
      case JStr(_) => Fail(StringOffset)
      case _ => Fail(Writer.HandlerArgumentCount)
  }

  /** A path is read one key at a time: the read of `p + q` is the read of
      `q` from where `p` led, and fails where `p` fails. */
  lemma {:induction false} ReadPathConcat(v: Json, p: seq<string>, q: seq<string>)
    ensures ReadPath(v, p).Fail? ==> ReadPath(v, p + q) == ReadPath(v, p)
    ensures ReadPath(v, p).Ok? ==> ReadPath(v, p + q) == ReadPath(ReadPath(v, p).value, q)
    decreases |p|
  {
    if |p| > 0 {
      assert (p + q)[0] == p[0] && (p + q)[1..] == p[1..] + q;
      if v.JObj? && p[0] in v.fields {
        ReadPathConcat(v.fields[p[0]], p[1..], q);
      }
    } else {
      assert p + q == q;
    }
  }

  /** `json_decode($config['authorization']['oauth_api']['credentials']['#data'], true)`
      as far as it can fail: the read of the path, then the argument, which
      Application.php (without strict types) converts from a scalar, refuses
      as an array and, from PHP 8.1, reports as deprecated when it is null. */
  function TokenData(authorization: Json): (r: Outcome<Json>)
    ensures r.Ok? <==> ReadPath(authorization, CredentialPath).Ok? && IsConvertible(ReadPath(authorization, CredentialPath).value)
    ensures r.Ok? ==> r.value == ReadPath(authorization, CredentialPath).value
    ensures r.Fail? ==> r.failure.EngineError?
  {
    var data :- ReadPath(authorization, CredentialPath);
    match data
    case JArr(_) => Fail(JsonDecodeArray)
    case JObj(_) => Fail(JsonDecodeArray)
    case JNull => Fail(Writer.HandlerArgumentCount)
    case _ => Ok(data)
  }

  /** A string, a number or a boolean, which PHP hands to a string parameter. */
  predicate IsConvertible(v: Json) {
    v.JStr? || v.JInt? || v.JBool?
  }

  const JsonDecodeArray: Failure := EngineError("json_decode(): Argument #1 ($json) must be of type string, array given")

  /** The constructor: the action defaults to `run`, the parameters are
      validated first, then the authorization must not be empty, and then
      its token data is read. */
  function Boot(c: RawConfig): (r: Outcome<App>)
    ensures r.Ok? ==> r.value.action == c.action.GetOr("run") && ValidateParameters(c.parameters) == Ok(r.value.parameters)
    ensures r.Ok? ==> !EmptyValue(c.authorization) && TokenData(c.authorization).Ok?
  {
    var parameters :- ValidateParameters(c.parameters);
    if EmptyValue(c.authorization) then Fail(MissingAuthorization)
    else
      var token :- TokenData(c.authorization);
      Ok(App(c.action.GetOr("run"), parameters))
  }

  /** Invalid parameters are reported (as a user error with code 400) ahead
      of missing authorization; with valid parameters an empty authorization
      is the user error, and a non-empty one fails exactly when its token
      data cannot be read, with an engine error rather than a user error. */
  lemma BootOrder(c: RawConfig)
    ensures ValidateParameters(c.parameters).Fail? ==>
      Boot(c).Fail? && Boot(c).failure.UserError? && Boot(c).failure.code == 400
    ensures ValidateParameters(c.parameters).Ok? && EmptyValue(c.authorization) ==> Boot(c) == Fail(MissingAuthorization)
    ensures ValidateParameters(c.parameters).Ok? && !EmptyValue(c.authorization) ==>
      && (Boot(c).Fail? <==> TokenData(c.authorization).Fail?)
      && (Boot(c).Fail? ==> Boot(c).failure == TokenData(c.authorization).failure && Boot(c).failure.EngineError?)
  {
  }

  /** An authorization without the credential path, `{"x": 1}`, passes the
      emptiness test but ends the constructor in the handler's ArgumentCountError. */
  lemma BootWithoutCredentials(action: Option<string>, parameters: Json)
    requires ValidateParameters(parameters).Ok?
    ensures Boot(RawConfig(action, parameters, JObj(map["x" := JInt(1)]))) == Fail(Writer.HandlerArgumentCount)
  {
    var auth := JObj(map["x" := JInt(1)]);
    assert "x" in auth.fields && !EmptyValue(auth);
    assert CredentialPath[0] == "oauth_api" && "oauth_api" !in auth.fields;
    assert ReadPath(auth, CredentialPath) == Fail(Writer.HandlerArgumentCount);
  }

  /** An authorization with the token data as a string boots. */
  lemma BootWithCredentials(action: Option<string>, parameters: Json, data: string)
    requires ValidateParameters(parameters).Ok?
    ensures var auth := JObj(map["oauth_api" := JObj(map["credentials" := JObj(map["#data" := JStr(data)])])]);
      Boot(RawConfig(action, parameters, auth)).Ok?
  {
    var auth := JObj(map["oauth_api" := JObj(map["credentials" := JObj(map["#data" := JStr(data)])])]);
    assert ReadPath(auth, CredentialPath) == Ok(JStr(data)) by {
      assert CredentialPath[1..] == ["credentials", "#data"];
      assert CredentialPath[1..][1..] == ["#data"];
      assert CredentialPath[1..][1..][1..] == [];
    }
  }

  /** `method_exists($this, $action . 'Action')`, which ignores case: the
      application's own methods are `__construct`, `run`, `runAction` and
      `validateParamteters`. */
  predicate HasActionMethod(action: string) {
    Lower(action + "Action") in {"__construct", "run", "runaction", "validateparamteters"}
  }

  /** Only `run`, in any mixture of cases, names an action method. */
  lemma HasActionMethodIff(action: string)
    ensures HasActionMethod(action) <==> Lower(action) == "run"
  {
    var la := Lower(action);
    var l := Lower(action + "Action");
    assert l == la + "action" by {
      forall i | 0 <= i < |l| ensures l[i] == (la + "action")[i] {
        assert (action + "Action")[i] == if i < |action| then action[i] else "Action"[i - |action|];
      }
    }
    if la == "run" {
      assert l == "runaction";
    }
    if l in {"__construct", "run", "runaction", "validateparamteters"} {
      assert |l| >= 6 && l[|l| - 1] == 'n';
      assert l != "__construct" && l != "validateparamteters" && l != "run";
      assert la == l[..3];
    }
  }

  /** The HTTP error escaping the action, as the user sees it. `message` is
      the client library's text for the error. */
  function Classify(f: Failure, message: string): (r: Outcome<Json>)
    ensures !f.RequestError? ==> r == Fail(f)
    ensures f.RequestError? && f.status == 401 ==> r == Fail(UserError("Expired or wrong credentials, please reauthorize.", 401))
    ensures f.RequestError? && f.status == 400 ==> r == Fail(UserError(message, 0))
    ensures f.RequestError? && f.status == 503 ==> r == Fail(UserError("Google API error: " + message, 503))
  {
    if !f.RequestError? then Fail(f)
    else if f.status == 401 then Fail(UserError("Expired or wrong credentials, please reauthorize.", 401))
    else if f.status == 403 then
      if Lower(f.reason) == "forbidden" then Ok(JArr([])) else Fail(UserError("Reason: " + f.reason, 403))
    else if f.status == 400 then Fail(UserError(message, 0))
    else if f.status == 503 then Fail(UserError("Google API error: " + message, 503))
    else Fail(AppError(message, 500))
  }

  /** Every status other than 400, 401, 403 and 503 (404, 500 and 502
      included) becomes an application error with code 500, and only those do. */
  lemma ClassifyApplicationErrors(status: int, reason: string, message: string)
    ensures Classify(RequestError(status, reason), message) == Fail(AppError(message, 500))
      <==> status !in {400, 401, 403, 503}
  {
  }

  /** A 403 is handled as the table planner handles it: the empty result
      exactly where the planner warns, the same user error otherwise. */
  lemma Classify403AgreesWithWriter(reason: string, message: string)
    ensures Classify(RequestError(403, reason), message).Ok? <==> Writer.HandleError403(reason).Ok?
    ensures Classify(RequestError(403, reason), message).Ok? ==> Classify(RequestError(403, reason), message).value == JArr([])
    ensures Classify(RequestError(403, reason), message).Fail? ==>
      Classify(RequestError(403, reason), message).failure == Writer.HandleError403(reason).failure
  {
  }

  /** `run` as written: an unknown action does not reach its intended user
      error, because the message is built by indexing the application object
      as an array, which PHP refuses. */
  function RunAsWritten(app: App, action: Outcome<Json>, message: string): (r: Outcome<Json>)
    ensures !HasActionMethod(app.action) ==> r.Fail? && r.failure.EngineError?
  {
    if !HasActionMethod(app.action) then Fail(EngineError("Cannot use object of type Keboola\\GoogleDriveWriter\\Application as array"))
    else if action.Ok? then action
    else Classify(action.failure, message)
  }

  /** `run` as intended: an unknown action is a user error naming it;
      `action` is what the action method returned or raised. */
  function Run(app: App, action: Outcome<Json>, message: string): (r: Outcome<Json>)
    ensures !HasActionMethod(app.action) ==> r == Fail(UserError("Action '" + app.action + "' does not exist.", 0))
  {
    if !HasActionMethod(app.action) then Fail(UserError("Action '" + app.action + "' does not exist.", 0))
    else if action.Ok? then action
    else Classify(action.failure, message)
  }

  /** Any action other than `run` ends in the engine error as written and in
      the user error as intended; for `run` the two agree. */
  lemma RunDiscrepancy(app: App, action: Outcome<Json>, message: string)
    ensures Lower(app.action) != "run" ==>
      && RunAsWritten(app, action, message).Fail? && !RunAsWritten(app, action, message).failure.UserError?
      && Run(app, action, message) == Fail(UserError("Action '" + app.action + "' does not exist.", 0))
    ensures Lower(app.action) == "run" ==> RunAsWritten(app, action, message) == Run(app, action, message)
  {
    HasActionMethodIff(app.action);
  }

  /** The action `sync`, for instance, is refused differently by the two. */
  lemma UnknownActionExample(parameters: Parameters, action: Outcome<Json>, message: string)
    ensures RunAsWritten(App("sync", parameters), action, message).failure.EngineError?
    ensures Run(App("sync", parameters), action, message) == Fail(UserError("Action 'sync' does not exist.", 0))
  {
    HasActionMethodIff("sync");
    assert |Lower("sync")| == 4;
    assert "Action '" + "sync" + "' does not exist." == "Action 'sync' does not exist.";
  }

  /** The run action, named in any case, hands every result through and
      classifies every failure. */
  lemma RunRuns(app: App, action: Outcome<Json>, message: string)
    requires |app.action| == 3 && forall i :: 0 <= i < 3 ==> CaseVariant(app.action[i], "run"[i])
    ensures action.Ok? ==> Run(app, action, message) == action
    ensures action.Fail? ==> Run(app, action, message) == Classify(action.failure, message)
  {
    LowerEqualsIff(app.action, "run");
    HasActionMethodIff(app.action);
  }
}

=== FILE: base.dfy ===
/** Shared vocabulary: optional values, the failures the writer raises, and the
    few PHP string semantics (`empty()`, `strtolower`) the code relies on. */
module Base {

  datatype Option<T> = None | Some(value: T) {
    function GetOr(default: T): T {
      match this
      case Some(v) => v
      case None => default
    }
  }

  /** What can escape an operation of the writer. */
  datatype Failure =
    | UserError(message: string, code: int)      // UserException: the user's fault, exit code 1
    | AppError(message: string, code: int)       // ApplicationException: exit code 2
    | RequestError(status: int, reason: string)  // an HTTP error response, escaping as a Guzzle exception
    | EngineError(message: string)               // an Error raised by the PHP engine itself

  /** The result of an operation: a value or the failure it raised. */
  datatype Outcome<T> = Ok(value: T) | Fail(failure: Failure) {
    predicate IsFailure() {
      Fail?
    }

    function PropagateFailure<U>(): Outcome<U>
      requires Fail?
    {
      Fail(failure)
    }

    function Extract(): T
      requires Ok?
    {
      value
    }
  }

  /** PHP `empty()` on a string: both "" and "0" count as empty. */
  predicate PhpEmpty(s: string) {
    s == "" || s == "0"
  }

  function LowerChar(c: char): char {
    if 'A' <= c <= 'Z' then (c as int + 32) as char else c
  }

  /** PHP `strtolower`: ASCII upper-case letters become lower-case, nothing else changes. */
  function Lower(s: string): (r: string)
    ensures |r| == |s|
    ensures forall i :: 0 <= i < |s| ==> r[i] == LowerChar(s[i])
  {
    if s == [] then [] else [LowerChar(s[0])] + Lower(s[1..])
  }

  /** `c` is `l` or its upper-case form. */
  predicate CaseVariant(c: char, l: char) {
    c == l || ('a' <= l <= 'z' && c as int == l as int - 32)
  }

  /** One character: lower-casing `c` gives `l` exactly when `c` is `l` or its upper-case form. */
  lemma LowerCharIff(c: char, l: char)
    requires 'a' <= l <= 'z' || !('A' <= l <= 'Z')
    ensures LowerChar(c) == l <==> CaseVariant(c, l)
  {
  }

  /** The lower-cased reason equals `lit` exactly when the reason spells `lit`
      in any mixture of cases, with nothing before or after it. */
  lemma LowerEqualsIff(s: string, lit: string)
    requires forall i :: 0 <= i < |lit| ==> ('a' <= lit[i] <= 'z' || !('A' <= lit[i] <= 'Z'))
    ensures Lower(s) == lit <==> (|s| == |lit| && forall i :: 0 <= i < |s| ==> CaseVariant(s[i], lit[i]))
  {
    if |s| == |lit| {
      forall i | 0 <= i < |s| ensures Lower(s)[i] == lit[i] <==> CaseVariant(s[i], lit[i]) {
        LowerCharIff(s[i], lit[i]);
      }
    }
  }

  /** `s` ends with `t`. */
  predicate EndsIn<T(==)>(s: seq<T>, t: seq<T>) {
    |s| >= |t| && s[|s| - |t|..] == t
  }

  lemma EndsInConcat<T>(a: seq<T>, b: seq<T>, t: seq<T>)
    requires EndsIn(b, t)
    ensures EndsIn(a + b, t)
  {
    assert (a + b)[|a + b| - |t|..] == b[|b| - |t|..];
  }

  /** The elements of `xs` that satisfy `p`, in their original order. */
  function Filter<T(==)>(xs: seq<T>, p: T -> bool): (r: seq<T>)
    ensures forall i :: 0 <= i < |r| ==> r[i] in xs && p(r[i])
    ensures forall i :: 0 <= i < |xs| && p(xs[i]) ==> xs[i] in r
    ensures Subsequence(r, xs)
    decreases |xs|
  {
    if |xs| == 0 then []
    else if p(xs[0]) then [xs[0]] + Filter(xs[1..], p)
    else
      var r := Filter(xs[1..], p);
      SubsequenceCons(r, xs[0], xs[1..]);
      r
  }

  /** Filtering a concatenation filters each part. */
  lemma {:induction false} FilterConcat<T>(a: seq<T>, b: seq<T>, p: T -> bool)
    ensures Filter(a + b, p) == Filter(a, p) + Filter(b, p)
    decreases |a|
  {
    if |a| == 0 {
      assert a + b == b;
    } else {
      assert (a + b)[0] == a[0] && (a + b)[1..] == a[1..] + b;
      FilterConcat(a[1..], b, p);
    }
  }

  /** `a` can be obtained from `b` by deleting elements (greedy matching). */
  predicate Subsequence<T(==)>(a: seq<T>, b: seq<T>)
    decreases |b|
  {
    |a| == 0 || (|b| > 0 && if a[0] == b[0] then Subsequence(a[1..], b[1..]) else Subsequence(a, b[1..]))
  }

  /** Prepending to the longer sequence keeps a subsequence a subsequence. */
  lemma {:induction false} SubsequenceCons<T>(a: seq<T>, x: T, b: seq<T>)
    requires Subsequence(a, b)
    ensures Subsequence(a, [x] + b)
    decreases |b|, 1
  {
    assert ([x] + b)[1..] == b;
    if |a| > 0 && a[0] == x {
      SubsequenceTail(a, b);
    }
  }

  /** Dropping the first element of `a` keeps a subsequence a subsequence. */
  lemma {:induction false} SubsequenceTail<T>(a: seq<T>, b: seq<T>)
    requires |a| > 0 && Subsequence(a, b)
    ensures Subsequence(a[1..], b)
    decreases |b|, 0
  {
    if a[0] != b[0] {
      SubsequenceTail(a, b[1..]);
    }
    SubsequenceCons(a[1..], b[0], b[1..]);
    assert [b[0]] + b[1..] == b;
  }
}

=== FILE: batching.dfy ===
/** Splitting CSV rows into the fixed-size batches the value upload sends. */
module Batching {

  /** Rows per value batch. */
  const BatchLimit: nat := 1000

  function Flatten<T>(xss: seq<seq<T>>): seq<T> {
    if |xss| == 0 then [] else xss[0] + Flatten(xss[1..])
  }

  function Min(a: int, b: int): int {
    if a <= b then a else b
  }

  /** Consecutive batches of `limit` elements; only the last may be shorter,
      none is empty, and together they are `xs` in order. */
  function Chunk<T>(xs: seq<T>, limit: nat): (r: seq<seq<T>>)
    requires limit > 0
    ensures Flatten(r) == xs
    ensures forall k :: 0 <= k < |r| ==> 0 < |r[k]| <= limit
    ensures forall k :: 0 <= k < |r| - 1 ==> |r[k]| == limit
    decreases |xs|
  {
    if |xs| == 0 then []
    else
      var n := Min(limit, |xs|);
      var rest := Chunk(xs[n..], limit);
      var r := [xs[..n]] + rest;
      assert r[1..] == rest;
      assert xs[..n] + xs[n..] == xs;
      assert n < limit ==> |xs[n..]| == 0;
      r
  }

  /** There are ceil(|xs| / limit) batches. */
  lemma {:induction false} ChunkCount<T>(xs: seq<T>, limit: nat)
    requires limit > 0
    ensures |xs| == 0 ==> |Chunk(xs, limit)| == 0
    ensures |xs| > 0 ==> (|Chunk(xs, limit)| - 1) * limit < |xs| <= |Chunk(xs, limit)| * limit
    decreases |xs|
  {
    if |xs| > 0 {
      var n := Min(limit, |xs|);
      var rest := xs[n..];
      ChunkCount(rest, limit);
      var k := |Chunk(rest, limit)|;
      assert |Chunk(xs, limit)| == 1 + k;
      if |rest| > 0 {
        assert n == limit;
        assert (k - 1) * limit == k * limit - limit;
        assert (k + 1) * limit == k * limit + limit;
      } else {
        assert k == 0;
        assert (1 + k) * limit == limit;
      }
    }
  }
}

=== FILE: calls.dfy ===
/** The remote calls the planners issue, the replies they read, and the
    trace-with-outcome that every planner returns. The remote service is an
    oracle: a `Remote` answers the n-th call of a run. */
module Calls {
  import opened Base
  import opened Json

  /** `Client::MIME_TYPE_SPREADSHEET` */
  const MimeSpreadsheet: string := "application/vnd.google-apps.spreadsheet"

  /** An entry of a value batch: a CSV row, or the `false` a CSV reader
      returns once it is past the end of the file. */
  datatype Line = Row(cells: seq<string>) | Eof

  function AsLines(rows: seq<seq<string>>): (r: seq<Line>)
    ensures |r| == |rows|
    ensures forall i :: 0 <= i < |rows| ==> r[i] == Row(rows[i])
  {
    seq(|rows|, i requires 0 <= i < |rows| => Row(rows[i]))
  }

  /** A request of a spreadsheet batch update: `updateSheetProperties` on the
      sheet `sheetId`, setting its title and grid size, limited to `fields`. */
  datatype SheetRequest = UpdateSheetProperties(sheetId: int, title: string, rowCount: int, columnCount: int, fields: string)

  /** One call on a Drive/Sheets client, with the arguments it is given. */
  datatype Call =
    | GetFile(id: string, fields: seq<string>)
    | FileExists(id: string)
    | ListFiles(query: string)
    | CreateFile(pathname: string, title: string, params: map<string, Json>)
    | CreateFileMetadata(title: string, params: map<string, Json>)
    | UpdateFile(id: string, pathname: string, params: map<string, Json>)
    | UpdateFileMetadata(id: string, body: map<string, Json>, params: map<string, Json>)
    | GetSpreadsheet(id: string)
    | UpdateSheet(spreadsheetId: string, sheetId: Option<int>, title: string)
    | BatchUpdateSpreadsheet(spreadsheetId: string, requests: seq<SheetRequest>)
    | ClearSpreadsheetValues(spreadsheetId: string, range: string)
    | UpdateSpreadsheetValues(spreadsheetId: string, range: string, values: seq<Line>)
    | AppendSpreadsheetValues(spreadsheetId: string, range: string, values: seq<Line>)

  /** What the planners read from a successful reply: a file's id, name and
      parents, a spreadsheet's sheet ids, a listing's file ids, an existence answer. */
  datatype Reply = Reply(id: string, name: string, parents: seq<string>, sheetIds: seq<int>, fileIds: seq<string>, found: bool)

  datatype Response = Answer(reply: Reply) | HttpError(status: int, reason: string)

  /** The remote service: the response to the call issued at a given position of the run. */
  type Remote = (nat, Call) -> Response

  /** The calls issued, in order, and how the operation ended. */
  datatype Run<T> = Run(calls: seq<Call>, out: Outcome<T>)

  /** Issues one call; an error response escapes as a `RequestError`. */
  function Ask(remote: Remote, base: nat, c: Call): (r: Run<Reply>)
    ensures r.calls == [c]
    ensures remote(base, c).Answer? ==> r.out == Ok(remote(base, c).reply)
    ensures remote(base, c).HttpError? ==> r.out == Fail(RequestError(remote(base, c).status, remote(base, c).reason))
  {
    match remote(base, c)
    case Answer(reply) => Run([c], Ok(reply))
    case HttpError(status, reason) => Run([c], Fail(RequestError(status, reason)))
  }

  /** Issues one call whose reply is not used. */
  function Send(remote: Remote, base: nat, c: Call): (r: Run<()>)
    ensures r.calls == [c]
    ensures r.out.Ok? <==> remote(base, c).Answer?
    ensures remote(base, c).HttpError? ==> r.out == Fail(RequestError(remote(base, c).status, remote(base, c).reason))
  {
    match remote(base, c)
    case Answer(_) => Run([c], Ok(()))
    case HttpError(status, reason) => Run([c], Fail(RequestError(status, reason)))
  }

  /** One step of a fixed script: issue a call, or raise. */
  datatype Step = Do(call: Call) | Raise(failure: Failure)

  /** A script of calls only. */
  function Dos(cs: seq<Call>): (r: seq<Step>)
    ensures |r| == |cs|
    ensures forall i :: 0 <= i < |cs| ==> r[i] == Do(cs[i])
  {
    seq(|cs|, i requires 0 <= i < |cs| => Do(cs[i]))
  }

  /** The calls a script issues when every call is answered: those before
      its first raise. */
  function Issued(steps: seq<Step>): (r: seq<Call>)
    ensures |r| <= |steps|
    decreases |steps|
  {
    if |steps| == 0 || steps[0].Raise? then []
    else [steps[0].call] + Issued(steps[1..])
  }

  /** The failure of the first raise of a script, if it has one. */
  function FirstRaise(steps: seq<Step>): Option<Failure>
    decreases |steps|
  {
    if |steps| == 0 then None
    else if steps[0].Raise? then Some(steps[0].failure)
    else FirstRaise(steps[1..])
  }

  /** Every call of `cs`, issued from step `base` on, is answered. */
  predicate Answered(remote: Remote, base: nat, cs: seq<Call>) {
    forall j :: 0 <= j < |cs| ==> remote(base + j, cs[j]).Answer?
  }

  lemma AnsweredCons(remote: Remote, base: nat, cs: seq<Call>)
    requires |cs| > 0
    ensures Answered(remote, base, cs) <==> remote(base, cs[0]).Answer? && Answered(remote, base + 1, cs[1..])
  {
    if remote(base, cs[0]).Answer? && Answered(remote, base + 1, cs[1..]) {
      forall j | 1 <= j < |cs| ensures remote(base + j, cs[j]).Answer? {
        assert cs[j] == cs[1..][j - 1];
      }
    }
  }

  /** Runs a script: issues its calls in order and stops at the first call the
      service refuses or at the first raise. */
  function Exec(remote: Remote, base: nat, steps: seq<Step>): (r: Run<()>)
    decreases |steps|
  {
    if |steps| == 0 then Run([], Ok(()))
    else match steps[0]
      case Raise(f) => Run([], Fail(f))
      case Do(c) =>
        match remote(base, c)
        case HttpError(status, reason) => Run([c], Fail(RequestError(status, reason)))
        case Answer(_) =>
          var rest := Exec(remote, base + 1, steps[1..]);
          Run([c] + rest.calls, rest.out)
  }

  /** The first step of a script run. */
  lemma ExecStep(remote: Remote, base: nat, steps: seq<Step>)
    requires |steps| > 0
    ensures steps[0].Raise? ==> Exec(remote, base, steps) == Run([], Fail(steps[0].failure))
    ensures steps[0].Do? && remote(base, steps[0].call).HttpError? ==>
      Exec(remote, base, steps)
        == Run([steps[0].call], Fail(RequestError(remote(base, steps[0].call).status, remote(base, steps[0].call).reason)))
    ensures steps[0].Do? && remote(base, steps[0].call).Answer? ==>
      Exec(remote, base, steps)
        == Run([steps[0].call] + Exec(remote, base + 1, steps[1..]).calls, Exec(remote, base + 1, steps[1..]).out)
  {
  }

  /** A script run issues a prefix of the script's calls. */
  lemma {:induction false} ExecIssuesPrefix(remote: Remote, base: nat, steps: seq<Step>)
    ensures var r := Exec(remote, base, steps);
      |r.calls| <= |Issued(steps)| && r.calls == Issued(steps)[..|r.calls|]
    decreases |steps|
  {
    if |steps| > 0 && steps[0].Do? && remote(base, steps[0].call).Answer? {
      ExecIssuesPrefix(remote, base + 1, steps[1..]);
      var rest := Exec(remote, base + 1, steps[1..]);
      assert [steps[0].call] + Issued(steps[1..])[..|rest.calls|] == Issued(steps)[..1 + |rest.calls|];
    }
  }

  /** Every call a script issues is one of its `Do` steps. */
  lemma {:induction false} IssuedSteps(steps: seq<Step>)
    ensures forall j :: 0 <= j < |Issued(steps)| ==> steps[j] == Do(Issued(steps)[j])
    decreases |steps|
  {
    if |steps| > 0 && steps[0].Do? {
      IssuedSteps(steps[1..]);
      var rest := Issued(steps[1..]);
      forall j | 1 <= j < |rest| + 1 ensures steps[j] == Do(Issued(steps)[j]) {
        assert steps[j] == steps[1..][j - 1];
      }
    }
  }

  /** A script run succeeds exactly when it has no raise and every call it
      issues is answered; it has then issued all of them. */
  lemma {:induction false} ExecSucceeds(remote: Remote, base: nat, steps: seq<Step>)
    ensures Exec(remote, base, steps).out.Ok? <==> FirstRaise(steps).None? && Answered(remote, base, Issued(steps))
    ensures Exec(remote, base, steps).out.Ok? ==> Exec(remote, base, steps).calls == Issued(steps)
    decreases |steps|
  {
    if |steps| > 0 && steps[0].Do? {
      var c := steps[0].call;
      assert Issued(steps) == [c] + Issued(steps[1..]);
      AnsweredCons(remote, base, Issued(steps));
      if remote(base, c).Answer? {
        ExecSucceeds(remote, base + 1, steps[1..]);
      }
    }
  }

  /** A failed script run either ends with the call the service refused,
      reporting its error, or has issued every call before the first raise
      and reports that raise. */
  lemma {:induction false} ExecFails(remote: Remote, base: nat, steps: seq<Step>)
    ensures var r := Exec(remote, base, steps);
      r.out.Fail? ==>
        || (&& |r.calls| > 0
            && remote(base + |r.calls| - 1, r.calls[|r.calls| - 1]).HttpError?
            && r.out.failure == RequestError(remote(base + |r.calls| - 1, r.calls[|r.calls| - 1]).status,
                                             remote(base + |r.calls| - 1, r.calls[|r.calls| - 1]).reason))
        || (r.calls == Issued(steps) && FirstRaise(steps) == Some(r.out.failure))
    decreases |steps|
  {
    if |steps| > 0 && steps[0].Do? && remote(base, steps[0].call).Answer? {
      ExecFails(remote, base + 1, steps[1..]);
      var r := Exec(remote, base, steps);
      var rest := Exec(remote, base + 1, steps[1..]);
      assert r.calls == [steps[0].call] + rest.calls;
      assert Issued(steps) == [steps[0].call] + Issued(steps[1..]);
      if |rest.calls| > 0 {
        assert r.calls[|r.calls| - 1] == rest.calls[|rest.calls| - 1];
      }
    }
  }

  /** The issued calls of a script that starts with plain calls: those calls,
      then what the rest issues. */
  lemma {:induction false} IssuedDos(cs: seq<Call>, rest: seq<Step>)
    ensures Issued(Dos(cs) + rest) == cs + Issued(rest)
    decreases |cs|
  {
    if |cs| > 0 {
      assert (Dos(cs) + rest)[1..] == Dos(cs[1..]) + rest;
      IssuedDos(cs[1..], rest);
      assert cs == [cs[0]] + cs[1..];
    } else {
      assert Dos(cs) + rest == rest;
    }
  }

  /** Running a plain call list issues a prefix of it, all of it when it succeeds. */
  lemma ExecDos(remote: Remote, base: nat, cs: seq<Call>)
    ensures |Exec(remote, base, Dos(cs)).calls| <= |cs|
    ensures Exec(remote, base, Dos(cs)).calls == cs[..|Exec(remote, base, Dos(cs)).calls|]
    ensures Exec(remote, base, Dos(cs)).out.Ok? ==> Exec(remote, base, Dos(cs)).calls == cs
  {
    IssuedDos(cs, []);
    assert Dos(cs) + [] == Dos(cs);
    ExecIssuesPrefix(remote, base, Dos(cs));
    ExecSucceeds(remote, base, Dos(cs));
  }

  /** Running two scripts one after the other is running their concatenation:
      the second starts only if the first succeeded. */
  lemma {:induction false} ExecConcat(remote: Remote, base: nat, a: seq<Step>, b: seq<Step>)
    ensures var first := Exec(remote, base, a);
      Exec(remote, base, a + b)
        == if first.out.Fail? then first else Then(first, Exec(remote, base + |first.calls|, b))
    decreases |a|
  {
    if |a| == 0 {
      assert a + b == b;
    } else {
      var ab := a + b;
      assert ab[0] == a[0] && ab[1..] == a[1..] + b;
      if a[0].Do? && remote(base, a[0].call).Answer? {
        ExecConcat(remote, base + 1, a[1..], b);
      }
    }
  }

  /** A run that stopped with the failure of `r`. */
  function Stop<A, B>(r: Run<A>): Run<B>
    requires r.out.Fail?
  {
    Run(r.calls, Fail(r.out.failure))
  }

  /** `first` followed by `next`: all calls, the outcome of `next`. */
  function Then<A, B>(first: Run<A>, next: Run<B>): Run<B> {
    Run(first.calls + next.calls, next.out)
  }

  /** Runs `step` on each element in order, each from where the previous one
      stopped; the first failure ends the run. */
  function Each<X, T>(step: (nat, X) -> Run<T>, base: nat, xs: seq<X>): (r: Run<seq<T>>)
    decreases |xs|
  {
    if |xs| == 0 then Run([], Ok([]))
    else
      var first := step(base, xs[0]);
      if first.out.Fail? then Stop(first)
      else
        var rest := Each(step, base + |first.calls|, xs[1..]);
        Run(first.calls + rest.calls, if rest.out.Fail? then Fail(rest.out.failure) else Ok([first.out.value] + rest.out.value))
  }

  /** A successful run has one result per element. */
  lemma {:induction false} EachCount<X, T>(step: (nat, X) -> Run<T>, base: nat, xs: seq<X>)
    ensures Each(step, base, xs).out.Ok? ==> |Each(step, base, xs).out.value| == |xs|
    decreases |xs|
  {
    if |xs| > 0 && step(base, xs[0]).out.Ok? {
      EachCount(step, base + |step(base, xs[0]).calls|, xs[1..]);
    }
  }

  predicate IsValueWrite(c: Call) {
    c.UpdateSpreadsheetValues? || c.AppendSpreadsheetValues?
  }
}

=== FILE: config.dfy ===
/** The validated configuration (Configuration/ConfigDefinition.php): table
    entries with their defaults and the action enumeration, the files
    section, and the validation that turns raw parameters into them. */
module Config {
  import opened Base
  import opened Json
  import opened Text

  /** Actions named in configurations. Tables accept only create and update;
      sheets of the spreadsheet writer also know append. */
  datatype Action = Create | Update | Append | Other(name: string) {
    function Name(): string {
      match this
      case Create => "create"
      case Update => "update"
      case Append => "append"
      case Other(n) => n
    }
  }

  /** A folder; a key given as null is unset, as PHP's `isset` reads it. */
  datatype Folder = Folder(id: Option<string>, title: Option<string>)

  /** One configured table. `tableId` keeps the scalar as given (null when
      absent), since its type matters to the strictly typed input paths; the
      other absent string scalars read as "" (PHP null in a string context);
      `folder.id` keeps the difference between unset and "". */
  datatype TableEntry = TableEntry(
    id: nat,
    tableId: Json,
    fileId: string,
    title: string,
    folder: Option<Folder>,
    action: Option<Action>,
    enabled: bool,
    convert: bool)

  datatype FilesConfig = FilesConfig(folder: Option<Folder>)

  datatype Parameters = Parameters(dataDir: string, tables: seq<TableEntry>, files: Option<FilesConfig>)

  const TableKeys: set<string> := {"id", "tableId", "fileId", "title", "folder", "action", "enabled", "convert"}
  const FolderKeys: set<string> := {"id", "title"}
  const RootKeys: set<string> := {"data_dir", "tables", "files"}

  /** A rejected configuration: the processor's exception becomes a UserException with code 400. */
  function Invalid(path: string): Failure {
    UserError("Invalid configuration for path \"" + path + "\"", 400)
  }

  /** A scalar node: any scalar or null, read as PHP would print it. */
  function Scalar(j: Json): Option<string> {
    match j
    case JStr(s) => Some(s)
    case JInt(i) => Some(IntToString(i))
    case JBool(b) => Some(if b then "1" else "")
    case JNull => Some("")
    case _ => None
  }

  /** A value a scalar node accepts. */
  predicate IsScalar(j: Json) {
    j.JStr? || j.JInt? || j.JBool? || j.JNull?
  }

  /** What an array node receives: `json_decode($json, true)` makes a JSON
      object and an empty JSON list the same associative array, and the node
      reads null and true as the empty array. A non-empty list has the keys
      0, 1, ..., which no node with named children accepts. */
  function ArrayNode(j: Json): (r: Option<map<string, Json>>)
    ensures j.JObj? ==> r == Some(j.fields)
    ensures j == JNull || j == JBool(true) || j == JArr([]) ==> r == Some(map[])
    ensures j == JBool(false) || j.JInt? || j.JStr? || (j.JArr? && j.items != []) ==> r.None?
  {
    match j
    case JObj(m) => Some(m)
    case JArr(items) => if items == [] then Some(map[]) else None
    case JNull => Some(map[])
    case JBool(b) => if b then Some(map[]) else None
    case _ => None
  }

  /** `tableId`: a scalar kept as given; absent reads as null. */
  function TableIdField(m: map<string, Json>): Outcome<Json> {
    if "tableId" !in m then Ok(JNull)
    else if IsScalar(m["tableId"]) then Ok(m["tableId"])
    else Fail(Invalid("tableId"))
  }

  /** An optional scalar key; absent reads as "". */
  function ScalarField(m: map<string, Json>, key: string): Outcome<string> {
    if key !in m then Ok("")
    else match Scalar(m[key])
      case Some(s) => Ok(s)
      case None => Fail(Invalid(key))
  }

  /** `title`: a scalar that, when given, is neither null nor "". */
  function TitleField(m: map<string, Json>): Outcome<string> {
    if "title" !in m then Ok("")
    else if m["title"] == JNull || m["title"] == JStr("") then Fail(Invalid("title"))
    else match Scalar(m["title"])
      case Some(s) => Ok(s)
      case None => Fail(Invalid("title"))
  }

  /** A boolean node with its default; the node reads null as true. */
  function BoolField(m: map<string, Json>, key: string, default: bool): Outcome<bool> {
    if key !in m then Ok(default)
    else if m[key] == JNull then Ok(true)
    else if m[key].JBool? then Ok(m[key].b)
    else Fail(Invalid(key))
  }

  function FolderField(m: map<string, Json>): Outcome<Option<Folder>> {
    if "folder" !in m then Ok(None)
    else
      var f :- ValidateFolder(m["folder"]);
      Ok(Some(f))
  }

  function ActionField(m: map<string, Json>): Outcome<Option<Action>> {
    if "action" !in m then Ok(None)
    else
      var a :- ValidateAction(m["action"]);
      Ok(Some(a))
  }

  /** A folder node: at most `id` and `title`, both scalars. */
  function ValidateFolder(j: Json): (r: Outcome<Folder>)
    ensures r.Ok? <==>
      && ArrayNode(j).Some? && ArrayNode(j).value.Keys <= FolderKeys
      && (forall k :: k in ArrayNode(j).value ==> IsScalar(ArrayNode(j).value[k]))
  {
    if ArrayNode(j).None? || !(ArrayNode(j).value.Keys <= FolderKeys) then Fail(Invalid("folder"))
    else
      var m := ArrayNode(j).value;
      var id := if "id" in m then Scalar(m["id"]) else Some("");
      var title := if "title" in m then Scalar(m["title"]) else Some("");
      if id.None? || title.None? then Fail(Invalid("folder"))
      else Ok(Folder(if "id" in m && m["id"] != JNull then Some(id.value) else None,
                     if "title" in m && m["title"] != JNull then Some(title.value) else None))
  }

  function ValidateAction(j: Json): Outcome<Action> {
    if j == JStr("create") then Ok(Create)
    else if j == JStr("update") then Ok(Update)
    else Fail(Invalid("action"))
  }

  /** One element of `tables`: `id` required and a non-negative integer,
      `title` non-empty when given, `action` create or update when given,
      `enabled` defaulting to true and `convert` to false (both true when
      given as null), `folder` with `id` and `title` only, nothing else. */
  function ValidateTable(j: Json): (r: Outcome<TableEntry>)
    ensures r.Ok? ==> j.JObj? && "id" in j.fields && j.fields["id"] == JInt(r.value.id)
    ensures r.Ok? ==> j.fields.Keys <= TableKeys
    ensures r.Ok? && "title" in j.fields ==> j.fields["title"] != JNull && j.fields["title"] != JStr("")
    ensures r.Ok? ==> r.value.tableId == (if "tableId" in j.fields then j.fields["tableId"] else JNull) && IsScalar(r.value.tableId)
    ensures r.Ok? ==> r.value.enabled == ("enabled" !in j.fields || j.fields["enabled"] == JNull || j.fields["enabled"] == JBool(true))
    ensures r.Ok? ==> r.value.convert == ("convert" in j.fields && (j.fields["convert"] == JNull || j.fields["convert"] == JBool(true)))
    ensures r.Ok? && "folder" in j.fields ==>
      ArrayNode(j.fields["folder"]).Some? && ArrayNode(j.fields["folder"]).value.Keys <= FolderKeys
    ensures r.Ok? ==> (r.value.folder.Some? <==> "folder" in j.fields)
    ensures r.Ok? ==> (r.value.action.Some? <==> "action" in j.fields)
    ensures r.Ok? && r.value.action.Some? ==> r.value.action.value in {Create, Update}
    ensures r.Fail? ==> r.failure.UserError? && r.failure.code == 400
  {
    if ArrayNode(j).None? || !(ArrayNode(j).value.Keys <= TableKeys) then Fail(Invalid("tables"))
    else if "id" !in ArrayNode(j).value || !j.fields["id"].JInt? || j.fields["id"].i < 0 then Fail(Invalid("id"))
    else
      var m := j.fields;
      var tableId :- TableIdField(m);
      var fileId :- ScalarField(m, "fileId");
      var title :- TitleField(m);
      var folder :- FolderField(m);
      var action :- ActionField(m);
      var enabled :- BoolField(m, "enabled", true);
      var convert :- BoolField(m, "convert", false);
      Ok(TableEntry(m["id"].i, tableId, fileId, title, folder, action, enabled, convert))
  }

  function ValidateTables(items: seq<Json>): (r: Outcome<seq<TableEntry>>)
    ensures r.Ok? ==> |r.value| == |items|
    ensures r.Fail? ==> r.failure.UserError? && r.failure.code == 400
  {
    if |items| == 0 then Ok([])
    else match ValidateTable(items[0])
      case Fail(f) => Fail(f)
      case Ok(t) =>
        match ValidateTables(items[1..])
        case Fail(f) => Fail(f)
        case Ok(ts) => Ok([t] + ts)
  }

  /** The prototyped `tables` node validates element by element: the list is
      accepted exactly when every entry is, entry i is the i-th table
      validated, and a refusal is that of the first refused entry. */
  lemma {:induction false} ValidateTablesPointwise(items: seq<Json>)
    ensures ValidateTables(items).Ok? <==> forall i :: 0 <= i < |items| ==> ValidateTable(items[i]).Ok?
    ensures ValidateTables(items).Ok? ==> forall i :: 0 <= i < |items| ==> ValidateTable(items[i]) == Ok(ValidateTables(items).value[i])
    ensures ValidateTables(items).Fail? ==> exists i :: 0 <= i < |items| && FirstRefused(items, i) && ValidateTable(items[i]) == Fail(ValidateTables(items).failure)
    decreases |items|
  {
    if |items| > 0 {
      ValidateTablesPointwise(items[1..]);
      var r := ValidateTables(items);
      if ValidateTable(items[0]).Ok? {
        forall i | 1 <= i < |items| ensures items[i] == items[1..][i - 1] {}
        if r.Fail? {
          var k :| 0 <= k < |items[1..]| && FirstRefused(items[1..], k) && ValidateTable(items[1..][k]) == Fail(ValidateTables(items[1..]).failure);
          assert FirstRefused(items, k + 1);
        }
      } else {
        assert FirstRefused(items, 0);
      }
    }
  }

  /** Entry i is refused and every entry before it is accepted. */
  predicate FirstRefused(items: seq<Json>, i: int)
    requires 0 <= i < |items|
  {
    ValidateTable(items[i]).Fail? && forall j :: 0 <= j < i ==> ValidateTable(items[j]).Ok?
  }

  /** The `files` node: at most a `folder`. */
  function ValidateFiles(j: Json): (r: Outcome<FilesConfig>)
    ensures r.Ok? ==> ArrayNode(j).Some? && ArrayNode(j).value.Keys <= {"folder"}
    ensures r.Ok? ==> (r.value.folder.Some? <==> "folder" in ArrayNode(j).value)
    ensures r.Fail? ==> r.failure.UserError? && r.failure.code == 400
  {
    if ArrayNode(j).None? || !(ArrayNode(j).value.Keys <= {"folder"}) then Fail(Invalid("files"))
    else if "folder" !in ArrayNode(j).value then Ok(FilesConfig(None))
    else match ValidateFolder(ArrayNode(j).value["folder"])
      case Fail(f) => Fail(f)
      case Ok(folder) => Ok(FilesConfig(Some(folder)))
  }

  /** The `tables` node: a list of table elements; null, true and an empty
      object stand for no tables. A non-empty object is refused here (see
      the README's left-out list). */
  function TablesField(m: map<string, Json>): (r: Outcome<seq<TableEntry>>)
    ensures "tables" in m && m["tables"].JArr? ==> r == ValidateTables(m["tables"].items)
    ensures "tables" !in m || ArrayNode(m["tables"]) == Some(map[]) ==> r == Ok([])
  {
    if "tables" !in m then Ok([])
    else match m["tables"]
      case JArr(items) => ValidateTables(items)
      case _ => if ArrayNode(m["tables"]) == Some(map[]) then Ok([]) else Fail(Invalid("tables"))
  }

  /** The whole `parameters` tree: `data_dir` is required and neither null
      nor "", `tables` defaults to no tables, `files` carries only a folder,
      nothing else is allowed. */
  function ValidateParameters(j: Json): (r: Outcome<Parameters>)
    ensures r.Ok? ==> j.JObj? && "data_dir" in j.fields && j.fields.Keys <= RootKeys
    ensures r.Ok? ==>
      && j.fields["data_dir"] != JNull && j.fields["data_dir"] != JStr("")
      && Scalar(j.fields["data_dir"]) == Some(r.value.dataDir)
    ensures r.Ok? ==> (r.value.files.Some? <==> "files" in j.fields)
    ensures r.Ok? && "files" in j.fields ==> ValidateFiles(j.fields["files"]) == Ok(r.value.files.value)
    ensures r.Ok? && "tables" in j.fields && j.fields["tables"].JArr? ==>
      ValidateTables(j.fields["tables"].items) == Ok(r.value.tables)
    ensures r.Fail? ==> r.failure.UserError? && r.failure.code == 400
  {
    if ArrayNode(j).None? || !(ArrayNode(j).value.Keys <= RootKeys) then Fail(Invalid("parameters"))
    else if "data_dir" !in ArrayNode(j).value then Fail(Invalid("data_dir"))
    else
      var m := j.fields;
      var dataDir := Scalar(m["data_dir"]);
      if dataDir.None? || m["data_dir"] == JNull || m["data_dir"] == JStr("") then Fail(Invalid("data_dir"))
      else
        var tables := TablesField(m);
        var files := if "files" in m then ValidateFiles(m["files"]) else Ok(FilesConfig(None));
        if tables.Fail? then Fail(tables.failure)
        else if files.Fail? then Fail(files.failure)
        else Ok(Parameters(dataDir.value, tables.value, if "files" in m then Some(files.value) else None))
  }

  /** An entry the schema can produce: the table id is a scalar and the
      action, when given, is create or update. (An empty `title` stands for
      an absent one, so every title is one the schema accepts.) */
  predicate WellFormed(e: TableEntry) {
    && IsScalar(e.tableId)
    && (e.action.Some? ==> e.action.value in {Create, Update})
  }

  function EncodeFolder(f: Folder): Json {
    var m: map<string, Json> := if f.id.Some? then map["id" := JStr(f.id.value)] else map[];
    JObj(if f.title.Some? then m["title" := JStr(f.title.value)] else m)
  }

  /** The raw configuration a user would write for `e` (absent strings left out). */
  function Encode(e: TableEntry): Json {
    var m := map["id" := JInt(e.id), "enabled" := JBool(e.enabled), "convert" := JBool(e.convert)];
    var m := if e.tableId != JNull then m["tableId" := e.tableId] else m;
    var m := if e.fileId != "" then m["fileId" := JStr(e.fileId)] else m;
    var m := if e.title != "" then m["title" := JStr(e.title)] else m;
    var m := if e.folder.Some? then m["folder" := EncodeFolder(e.folder.value)] else m;
    var m := if e.action.Some? then m["action" := JStr(e.action.value.Name())] else m;
    JObj(m)
  }

  lemma EncodeKeys(e: TableEntry)
    ensures Encode(e).JObj? && Encode(e).fields.Keys <= TableKeys
    ensures "id" in Encode(e).fields && Encode(e).fields["id"] == JInt(e.id)
  {
  }

  lemma EncodeScalars(e: TableEntry)
    requires IsScalar(e.tableId)
    ensures TableIdField(Encode(e).fields) == Ok(e.tableId)
    ensures ScalarField(Encode(e).fields, "fileId") == Ok(e.fileId)
    ensures TitleField(Encode(e).fields) == Ok(e.title)
  {
    EncodeTableId(e);
    EncodeFileId(e);
    EncodeTitle(e);
  }

  lemma EncodeTableId(e: TableEntry)
    requires IsScalar(e.tableId)
    ensures TableIdField(Encode(e).fields) == Ok(e.tableId)
  {
  }

  lemma EncodeFileId(e: TableEntry)
    ensures ScalarField(Encode(e).fields, "fileId") == Ok(e.fileId)
  {
  }

  lemma EncodeTitle(e: TableEntry)
    ensures TitleField(Encode(e).fields) == Ok(e.title)
  {
  }

  lemma EncodeBools(e: TableEntry)
    ensures BoolField(Encode(e).fields, "enabled", true) == Ok(e.enabled)
    ensures BoolField(Encode(e).fields, "convert", false) == Ok(e.convert)
  {
  }

  lemma EncodeFolderField(e: TableEntry)
    ensures FolderField(Encode(e).fields) == Ok(e.folder)
  {
    if e.folder.Some? {
      assert Encode(e).fields["folder"] == EncodeFolder(e.folder.value);
      assert ValidateFolder(EncodeFolder(e.folder.value)) == Ok(e.folder.value);
    }
  }

  lemma EncodeActionField(e: TableEntry)
    requires WellFormed(e)
    ensures ActionField(Encode(e).fields) == Ok(e.action)
  {
    if e.action.Some? {
      assert Encode(e).fields["action"] == JStr(e.action.value.Name());
    }
  }

  /** Every well-formed entry is what validation makes of its own encoding. */
  lemma ValidateEncode(e: TableEntry)
    requires WellFormed(e)
    ensures ValidateTable(Encode(e)) == Ok(e)
  {
    EncodeKeys(e);
    EncodeScalars(e);
    EncodeBools(e);
    EncodeFolderField(e);
    EncodeActionField(e);
  }

  /** An entry giving only its id gets the defaults: enabled, not converted, no action. */
  lemma Defaults(id: nat)
    ensures ValidateTable(JObj(map["id" := JInt(id)])) == Ok(TableEntry(id, JNull, "", "", None, None, true, false))
  {
  }

  /** The schema's null equivalents: a null boolean reads as true and an
      empty list serves as an empty folder. */
  lemma NullEquivalentsInTable()
    ensures ValidateTable(JObj(map["id" := JInt(0), "enabled" := JNull, "convert" := JNull]))
      == Ok(TableEntry(0, JNull, "", "", None, None, true, true))
    ensures ValidateTable(JObj(map["id" := JInt(0), "folder" := JArr([])]))
      == Ok(TableEntry(0, JNull, "", "", Some(Folder(None, None)), None, true, false))
  {
    var m := map["id" := JInt(0), "folder" := JArr([])];
    assert m.Keys == {"id", "folder"};
    assert ValidateFolder(JArr([])) == Ok(Folder(None, None));
  }

  /** An empty list of files and a null table list are accepted: no folder
      and no tables. */
  lemma NullEquivalentsInParameters()
    ensures ValidateParameters(JObj(map["data_dir" := JStr("/data"), "files" := JArr([])]))
      == Ok(Parameters("/data", [], Some(FilesConfig(None))))
    ensures ValidateParameters(JObj(map["data_dir" := JStr("/data"), "tables" := JNull]))
      == Ok(Parameters("/data", [], None))
  {
    var m := map["data_dir" := JStr("/data"), "files" := JArr([])];
    assert m.Keys == {"data_dir", "files"};
    assert ValidateFiles(JArr([])) == Ok(FilesConfig(None));
    var n := map["data_dir" := JStr("/data"), "tables" := JNull];
    assert n.Keys == {"data_dir", "tables"};
  }
}

=== FILE: drive_client.dfy ===
/** The local Drive/Sheets client (GoogleDrive/Client.php): the HTTP requests
    each client method sends, in order. The HTTP exchange itself is an
    oracle that answers the n-th request of a run; the JSON it decodes is
    read as a `Reply`. */
module DriveClient {
  import opened Base
  import opened Json
  import opened Text
  import opened Calls

  const DriveFiles: string := "https://www.googleapis.com/drive/v3/files"
  const DriveUpload: string := "https://www.googleapis.com/upload/drive/v3/files"
  const Spreadsheets: string := "https://sheets.googleapis.com/v4/spreadsheets/"

  datatype Verb = Get | Post | Patch | Put | Delete

  /** A request body: none, a JSON document, or the stream of a local file. */
  datatype Body = NoBody | JsonBody(json: Json) | Upload(pathname: string)

  datatype Request = Request(verb: Verb, uri: string, body: Body)

  /** The HTTP service: the response to the request sent at a given position of the run. */
  type Http = (nat, Request) -> Response

  /** `build_query`: how a parameter array is written as a query string. */
  type QueryBuilder = map<string, Json> -> string

  /** The requests sent, in order, and what the method returned or raised. */
  datatype Exchange<T> = Exchange(requests: seq<Request>, out: Outcome<T>)

  /** Sends one request; an error status escapes as a `RequestError`. */
  function Send1(http: Http, base: nat, req: Request): (r: Exchange<Reply>)
    ensures r.requests == [req]
    ensures http(base, req).Answer? <==> r.out.Ok?
    ensures http(base, req).Answer? ==> r.out.value == http(base, req).reply
  {
    match http(base, req)
    case Answer(reply) => Exchange([req], Ok(reply))
    case HttpError(status, reason) => Exchange([req], Fail(RequestError(status, reason)))
  }

  /** The address of a file's metadata. */
  function FileUri(id: string): string {
    DriveFiles + "/" + id
  }

  /** The address a file's content is uploaded to. */
  function UploadUri(id: string): string {
    DriveUpload + "/" + id + "?uploadType=media"
  }

  /** `getFile`: the metadata address, restricted to `fields` when any are asked for. */
  function GetFileUri(id: string, fields: seq<string>): (uri: string)
    ensures StartsWith(uri, FileUri(id))
  {
    if fields == [] then FileUri(id) else FileUri(id) + "?fields=" + Join(fields, ',')
  }

  /** The field list travels in the query exactly when it is not empty, and
      can be read back from it when no field contains a comma. */
  lemma GetFileUriFields(id: string, fields: seq<string>)
    requires '?' !in id
    requires forall i :: 0 <= i < |fields| ==> ',' !in fields[i]
    ensures '?' in GetFileUri(id, fields) <==> fields != []
    ensures fields != [] ==>
      var prefix := FileUri(id) + "?fields=";
      StartsWith(GetFileUri(id, fields), prefix) && Split(GetFileUri(id, fields)[|prefix|..], ',') == fields
  {
    NoQueryInFileUri(id);
    if fields != [] {
      var prefix := FileUri(id) + "?fields=";
      var uri := GetFileUri(id, fields);
      assert uri[|FileUri(id)|] == '?';
      assert uri[|prefix|..] == Join(fields, ',');
      SplitJoin(fields, ',');
    }
  }

  /** The metadata address of a file whose id has no `?` has no query. */
  lemma NoQueryInFileUri(id: string)
    requires '?' !in id
    ensures '?' !in FileUri(id)
  {
    assert FileUri(id) == DriveFiles + ("/" + id);
    assert forall k :: 0 <= k < |DriveFiles| ==> DriveFiles[k] != '?';
  }

  /** `getFile`: one GET of the file's metadata. */
  function GetFile(http: Http, base: nat, id: string, fields: seq<string>): (r: Exchange<Reply>)
    ensures r.requests == [Request(Get, GetFileUri(id, fields), NoBody)]
  {
    Send1(http, base, Request(Get, GetFileUri(id, fields), NoBody))
  }

  /** `listFiles`: the files address, with the query when it is not empty
      (a query of "0" counts as empty). */
  function ListFilesUri(query: string): (uri: string)
    ensures StartsWith(uri, DriveFiles)
  {
    if PhpEmpty(query) then DriveFiles else DriveFiles + "?q=" + query
  }

  /** The query travels exactly when it is not empty, and unchanged. */
  lemma ListFilesUriQuery(query: string)
    ensures '?' in ListFilesUri(query) <==> !PhpEmpty(query)
    ensures !PhpEmpty(query) ==> ListFilesUri(query)[|DriveFiles| + 3..] == query
  {
    assert forall k :: 0 <= k < |DriveFiles| ==> DriveFiles[k] != '?';
    if !PhpEmpty(query) {
      assert ListFilesUri(query)[|DriveFiles|] == '?';
    }
  }

  /** The metadata `createFile` posts: the title as `name`, overlaid by `params`. */
  function CreateBody(title: string, params: map<string, Json>): (body: map<string, Json>)
    ensures body.Keys == params.Keys + {"name"}
    ensures forall k :: k in params ==> body[k] == params[k]
    ensures "name" !in params ==> body["name"] == JStr(title)
  {
    map["name" := JStr(title)] + params
  }

  /** `createFile`: post the metadata, then upload the file's content to the
      id the service gave the new file. */
  function CreateFile(http: Http, base: nat, pathname: string, title: string, params: map<string, Json>): (r: Exchange<Reply>)
    ensures 1 <= |r.requests| <= 2
    ensures r.requests[0] == Request(Post, DriveFiles, JsonBody(JObj(CreateBody(title, params))))
    ensures |r.requests| == 2 <==> http(base, r.requests[0]).Answer?
    ensures |r.requests| == 2 ==>
      r.requests[1] == Request(Patch, UploadUri(http(base, r.requests[0]).reply.id), Upload(pathname))
  {
    var meta := Send1(http, base, Request(Post, DriveFiles, JsonBody(JObj(CreateBody(title, params)))));
    if meta.out.Fail? then meta
    else
      var content := Send1(http, base + 1, Request(Patch, UploadUri(meta.out.value.id), Upload(pathname)));
      Exchange(meta.requests + content.requests, content.out)
  }

  /** `updateFileMetadata`: patch the metadata with `body`, passing `params` as
      a query string when there are any. */
  function UpdateFileMetadata(http: Http, query: QueryBuilder, base: nat, id: string,
                              body: map<string, Json>, params: map<string, Json>): (r: Exchange<Reply>)
    ensures |r.requests| == 1 && r.requests[0].verb == Patch && r.requests[0].body == JsonBody(JObj(body))
  {
    var uri := if params == map[] then FileUri(id) else FileUri(id) + "?" + query(params);
    Send1(http, base, Request(Patch, uri, JsonBody(JObj(body))))
  }

  /** The query string is appended exactly when there are parameters. */
  lemma UpdateFileMetadataQuery(http: Http, query: QueryBuilder, base: nat, id: string,
                                body: map<string, Json>, params: map<string, Json>)
    requires '?' !in id
    ensures var uri := UpdateFileMetadata(http, query, base, id, body, params).requests[0].uri;
      && StartsWith(uri, FileUri(id))
      && ('?' in uri <==> params != map[])
      && (params != map[] ==> uri[|FileUri(id)| + 1..] == query(params))
  {
    NoQueryInFileUri(id);
    var uri := UpdateFileMetadata(http, query, base, id, body, params).requests[0].uri;
    if params != map[] {
      assert uri[|FileUri(id)|] == '?';
    }
  }

  /** `updateFile` as written: `params` is sent as the metadata body, with no
      query parameters; then the content is uploaded to the id the metadata
      reply names. */
  function UpdateFile(http: Http, query: QueryBuilder, base: nat, id: string, pathname: string,
                      params: map<string, Json>): (r: Exchange<Reply>)
    ensures 1 <= |r.requests| <= 2
    ensures r.requests[0] == Request(Patch, FileUri(id), JsonBody(JObj(params)))
    ensures |r.requests| == 2 <==> http(base, r.requests[0]).Answer?
    ensures |r.requests| == 2 ==>
      r.requests[1] == Request(Patch, UploadUri(http(base, r.requests[0]).reply.id), Upload(pathname))
  {
    var meta := UpdateFileMetadata(http, query, base, id, params, map[]);
    if meta.out.Fail? then meta
    else
      var content := Send1(http, base + 1, Request(Patch, UploadUri(meta.out.value.id), Upload(pathname)));
      Exchange(meta.requests + content.requests, content.out)
  }

  /** Whatever `params` holds, `updateFile` sends none of it as a query
      parameter: a folder to add (`addParents`) travels in the JSON body,
      where the other callers of `updateFileMetadata` never put it. */
  lemma UpdateFileSendsParentsInBody(http: Http, query: QueryBuilder, base: nat, id: string, pathname: string,
                                     folder: Json)
    requires '?' !in id
    ensures var first := UpdateFile(http, query, base, id, pathname, map["addParents" := folder]).requests[0];
      && '?' !in first.uri
      && first.body.json.fields["addParents"] == folder
  {
    NoQueryInFileUri(id);
  }

  /** The keys `updateFileMetadata` takes as query parameters rather than as metadata. */
  const QueryKeys: set<string> := {"addParents", "removeParents"}

  /** `updateFile` as intended: the parent changes go in the query, the rest
      in the body. */
  function UpdateFileSplit(http: Http, query: QueryBuilder, base: nat, id: string, pathname: string,
                           params: map<string, Json>): (r: Exchange<Reply>)
    ensures 1 <= |r.requests| <= 2 && r.requests[0].verb == Patch && r.requests[0].body.JsonBody?
    ensures |r.requests| == 2 <==> http(base, r.requests[0]).Answer?
    ensures |r.requests| == 2 ==>
      r.requests[1] == Request(Patch, UploadUri(http(base, r.requests[0]).reply.id), Upload(pathname))
  {
    var body := map k | k in params && k !in QueryKeys :: params[k];
    var queryParams := map k | k in params && k in QueryKeys :: params[k];
    var meta := UpdateFileMetadata(http, query, base, id, body, queryParams);
    if meta.out.Fail? then meta
    else
      var content := Send1(http, base + 1, Request(Patch, UploadUri(meta.out.value.id), Upload(pathname)));
      Exchange(meta.requests + content.requests, content.out)
  }

  /** Split this way, every parameter is sent exactly once: the parent changes
      in the query string, every other one in the body. */
  lemma UpdateFileSplitRoutes(http: Http, query: QueryBuilder, base: nat, id: string, pathname: string,
                              params: map<string, Json>)
    requires '?' !in id
    ensures var first := UpdateFileSplit(http, query, base, id, pathname, params).requests[0];
      && first.body.json.JObj?
      && (forall k :: k in first.body.json.fields <==> k in params && k !in QueryKeys)
      && (forall k :: k in first.body.json.fields ==> first.body.json.fields[k] == params[k])
      && ('?' in first.uri <==> exists k :: k in params && k in QueryKeys)
      && ("addParents" in params ==> first.uri == FileUri(id) + "?" + query(map k | k in params && k in QueryKeys :: params[k]))
  {
    var queryParams := map k | k in params && k in QueryKeys :: params[k];
    var body := map k | k in params && k !in QueryKeys :: params[k];
    UpdateFileMetadataQuery(http, query, base, id, body, queryParams);
    if exists k :: k in params && k in QueryKeys {
      var k :| k in params && k in QueryKeys;
      assert k in queryParams;
    }
  }

  /** `createSpreadsheet`: one POST of the properties and sheets, naming the
      spreadsheet's id only when one is given. */
  function CreateSpreadsheet(http: Http, base: nat, properties: Json, sheets: Json, fileId: Option<string>): (r: Exchange<Reply>)
    ensures |r.requests| == 1 && r.requests[0].verb == Post && r.requests[0].uri == Spreadsheets
    ensures r.requests[0].body.JsonBody? && r.requests[0].body.json.JObj?
  {
    var body := map["properties" := properties, "sheets" := sheets];
    var body := if fileId.Some? then body["spreadsheetId" := JStr(fileId.value)] else body;
    Send1(http, base, Request(Post, Spreadsheets, JsonBody(JObj(body))))
  }

  /** The body names the spreadsheet exactly when an id is given, and always
      carries the properties and sheets as given. */
  lemma CreateSpreadsheetBody(http: Http, base: nat, properties: Json, sheets: Json, fileId: Option<string>)
    ensures var fields := CreateSpreadsheet(http, base, properties, sheets, fileId).requests[0].body.json.fields;
      && ("spreadsheetId" in fields <==> fileId.Some?)
      && (fileId.Some? ==> fields["spreadsheetId"] == JStr(fileId.value))
      && fields.Keys <= {"properties", "sheets", "spreadsheetId"}
      && "properties" in fields && fields["properties"] == properties
      && "sheets" in fields && fields["sheets"] == sheets
  {
  }

  /** The batch update address of a spreadsheet. */
  function BatchUpdateUri(spreadsheetId: string): string {
    Spreadsheets + spreadsheetId + ":batchUpdate"
  }

  /** `batchUpdateSpreadsheet`: one POST of the body to the spreadsheet's batch address. */
  function BatchUpdate(http: Http, base: nat, spreadsheetId: string, body: Json): (r: Exchange<Reply>)
    ensures r.requests == [Request(Post, BatchUpdateUri(spreadsheetId), JsonBody(body))]
  {
    Send1(http, base, Request(Post, BatchUpdateUri(spreadsheetId), JsonBody(body)))
  }

  /** The single request a batch update body carries, if it carries exactly one. */
  function OnlyRequest(body: Json): Option<Json> {
    if body.JObj? && body.fields.Keys == {"requests"} && body.fields["requests"].JArr?
       && |body.fields["requests"].items| == 1
    then Some(body.fields["requests"].items[0])
    else None
  }

  /** `addSheet`: a batch update of one `addSheet` request. */
  function AddSheet(http: Http, base: nat, spreadsheetId: string, sheet: Json): (r: Exchange<Reply>)
    ensures |r.requests| == 1 && r.requests[0].uri == BatchUpdateUri(spreadsheetId)
    ensures r.requests[0].body.JsonBody? && OnlyRequest(r.requests[0].body.json) == Some(JObj(map["addSheet" := sheet]))
  {
    BatchUpdate(http, base, spreadsheetId, JObj(map["requests" := JArr([JObj(map["addSheet" := sheet])])]))
  }

  /** `updateSheet`: a batch update of one `updateSheetProperties` request
      whose field mask is the title alone. */
  function UpdateSheet(http: Http, base: nat, spreadsheetId: string, properties: Json): (r: Exchange<Reply>)
    ensures |r.requests| == 1 && r.requests[0].uri == BatchUpdateUri(spreadsheetId)
    ensures r.requests[0].body.JsonBody?
    ensures var only := OnlyRequest(r.requests[0].body.json);
      && only.Some? && only.value.JObj? && only.value.fields.Keys == {"updateSheetProperties"}
      && only.value.fields["updateSheetProperties"] == JObj(map["properties" := properties, "fields" := JStr("title")])
  {
    BatchUpdate(http, base, spreadsheetId,
      JObj(map["requests" := JArr([JObj(map["updateSheetProperties" :=
        JObj(map["properties" := properties, "fields" := JStr("title")])])])]))
  }

  /** `fileExists`: fetch the file; found when it answers, not found on a 404,
      and any other error escapes. */
  function FileExists(http: Http, base: nat, id: string): (r: Exchange<bool>)
    ensures r.requests == [Request(Get, FileUri(id), NoBody)]
  {
    var probe := GetFile(http, base, id, []);
    if probe.out.Ok? then Exchange(probe.requests, Ok(true))
    else if probe.out.failure.RequestError? && probe.out.failure.status == 404 then Exchange(probe.requests, Ok(false))
    else Exchange(probe.requests, Fail(probe.out.failure))
  }

  /** The answer of `fileExists` against the response to its one request: true
      on success, false exactly on a 404, the error itself otherwise. */
  lemma FileExistsOutcomes(http: Http, base: nat, id: string)
    ensures var resp := http(base, Request(Get, FileUri(id), NoBody));
      var r := FileExists(http, base, id);
      && (r.out == Ok(true) <==> resp.Answer?)
      && (r.out == Ok(false) <==> resp.HttpError? && resp.status == 404)
      && (r.out.Fail? <==> resp.HttpError? && resp.status != 404)
      && (r.out.Fail? ==> r.out.failure == RequestError(resp.status, resp.reason))
  {
  }
}

=== FILE: file_writer.dfy ===
/** The older per-table planner (Writer/File.php): the action is compared
    loosely, the content is always the table's CSV, and the configured
    parents are sent as they are. Its client is the local Drive client, one
    remote call per client method. */
module FileWriter {
  import opened Base
  import opened Json
  import opened Calls
  import opened Input
  import opened Php
  import Writer

  /** The array `process` receives. */
  datatype FileEntry = FileEntry(action: Json, title: string, tableId: string, fileId: string, parents: seq<string>)

  /** The data directory and the `date('Y-m-d H:i:s')` of the run. */
  datatype Env = Env(dataDir: string, now: string)

  /** `create`: upload the table's CSV under the stamped title into the configured parents. */
  function Create(remote: Remote, base: nat, env: Env, f: FileEntry): (r: Run<Reply>)
    ensures r.calls == [CreateFile(TablePath(env.dataDir, f.tableId), Writer.Stamped(f.title, env.now), map["parents" := Strs(f.parents)])]
  {
    Ask(remote, base, CreateFile(TablePath(env.dataDir, f.tableId), Writer.Stamped(f.title, env.now), map["parents" := Strs(f.parents)]))
  }

  /** `update`: overwrite the file when it exists, otherwise create it under
      the configured id and the unstamped title. */
  function Update(remote: Remote, base: nat, env: Env, f: FileEntry): (r: Run<Reply>)
    ensures 1 <= |r.calls| <= 2 && r.calls[0] == FileExists(f.fileId)
  {
    var probe := Ask(remote, base, FileExists(f.fileId));
    if probe.out.Fail? then Stop(probe)
    else if probe.out.value.found then
      Then(probe, Ask(remote, base + 1, UpdateFile(f.fileId, TablePath(env.dataDir, f.tableId),
                                                   map["name" := JStr(f.title), "addParents" := Strs(f.parents)])))
    else
      Then(probe, Ask(remote, base + 1, CreateFile(TablePath(env.dataDir, f.tableId), f.title,
                                                   map["id" := JStr(f.fileId), "parents" := Strs(f.parents)])))
  }

  /** `process`: `update` first, then `create`, each by loose comparison. */
  function Process(numEq: NumEq, remote: Remote, base: nat, env: Env, f: FileEntry): (r: Run<Reply>)
    ensures !LooseEq(numEq, f.action, "update") && !LooseEq(numEq, f.action, "create") ==>
      r == Run([], Fail(AppError("Action '" + PhpString(f.action) + "' not allowed", 0)))
  {
    if LooseEq(numEq, f.action, "update") then Update(remote, base, env, f)
    else if LooseEq(numEq, f.action, "create") then Create(remote, base, env, f)
    else Run([], Fail(AppError("Action '" + PhpString(f.action) + "' not allowed", 0)))
  }

  /** The action names route as expected, `true` counts as `update`, and
      every other value is refused before any call. */
  lemma ProcessRoutes(numEq: NumEq, remote: Remote, base: nat, env: Env, f: FileEntry)
    ensures f.action == JStr("update") || f.action == JBool(true) ==> Process(numEq, remote, base, env, f) == Update(remote, base, env, f)
    ensures f.action == JStr("create") ==> Process(numEq, remote, base, env, f) == Create(remote, base, env, f)
    ensures f.action != JStr("update") && f.action != JStr("create") && f.action != JBool(true) ==>
      Process(numEq, remote, base, env, f) == Run([], Fail(AppError("Action '" + PhpString(f.action) + "' not allowed", 0)))
  {
    assert Word("update") by { assert !NumericChar("update"[0]); }
    assert Word("create") by { assert !NumericChar("create"[0]); }
    LooseEqWord(numEq, f.action, "update");
    LooseEqWord(numEq, f.action, "create");
  }

  /** When the file exists it is renamed to the title and gets the configured
      parents added, whatever they are; when it does not, it is created under
      its configured id with the title unchanged. */
  lemma UpdateOutcomes(remote: Remote, base: nat, env: Env, f: FileEntry)
    ensures var r := Update(remote, base, env, f);
      |r.calls| == 2 ==>
        && r.calls[1].pathname == TablePath(env.dataDir, f.tableId)
        && (r.calls[1].UpdateFile? <==> remote(base, FileExists(f.fileId)).reply.found)
        && (r.calls[1].UpdateFile? ==> r.calls[1].id == f.fileId && r.calls[1].params["name"] == JStr(f.title)
                                       && r.calls[1].params["addParents"] == Strs(f.parents))
        && (r.calls[1].CreateFile? ==> r.calls[1].title == f.title && r.calls[1].params["id"] == JStr(f.fileId)
                                       && r.calls[1].params["parents"] == Strs(f.parents))
  {
  }

  /** The content uploaded always comes from the table's CSV. */
  lemma ProcessReadsTable(numEq: NumEq, remote: Remote, base: nat, env: Env, f: FileEntry)
    ensures var r := Process(numEq, remote, base, env, f);
      forall i :: 0 <= i < |r.calls| && (r.calls[i].CreateFile? || r.calls[i].UpdateFile?) ==>
        r.calls[i].pathname == TablePath(env.dataDir, f.tableId)
  {
  }

  /** With one configured parent that is a non-empty folder id, the older
      update sends the same metadata as the table planner's. */
  lemma UpdateAgreesWithWriter(f: FileEntry, job: Writer.Job)
    requires |f.parents| == 1 && !PhpEmpty(f.parents[0])
    requires job.title == f.title && job.folder.Some? && job.folder.value.id == Some(f.parents[0])
    ensures Writer.UpdateParams(job) == map["name" := JStr(f.title), "addParents" := Strs(f.parents)]
  {
    var m := Writer.UpdateParams(job);
    assert [Writer.FolderId(job.folder).value] == f.parents;
    assert m.Keys == {"name", "addParents"};
  }
}

=== FILE: input.dfy ===
/** Where the writer finds its local inputs (Input.php): the deterministic
    path builders and the filter over the files directory. */
module Input {
  import opened Base
  import opened Text

  /** `<dataDir>/in/tables/<tableId>.csv` */
  function TablePath(dataDir: string, tableId: string): string {
    dataDir + "/in/tables/" + tableId + ".csv"
  }

  /** `<dataDir>/in/files/<name>` */
  function FilePath(dataDir: string, name: string): string {
    dataDir + "/in/files/" + name
  }

  /** Distinct table ids never share a path. */
  lemma TablePathInjective(dataDir: string, a: string, b: string)
    ensures TablePath(dataDir, a) == TablePath(dataDir, b) <==> a == b
  {
    if TablePath(dataDir, a) == TablePath(dataDir, b) {
      var k := |dataDir + "/in/tables/"|;
      assert |a| == |b|;
      assert a == TablePath(dataDir, a)[k..k + |a|];
      assert b == TablePath(dataDir, b)[k..k + |b|];
    }
  }

  /** Distinct file names never share a path. */
  lemma FilePathInjective(dataDir: string, a: string, b: string)
    ensures FilePath(dataDir, a) == FilePath(dataDir, b) <==> a == b
  {
    if FilePath(dataDir, a) == FilePath(dataDir, b) {
      var k := |dataDir + "/in/files/"|;
      assert a == FilePath(dataDir, a)[k..];
      assert b == FilePath(dataDir, b)[k..];
    }
  }

  /** A table input and a file input under the same data directory are never the same path. */
  lemma TableAndFilePathsDiffer(dataDir: string, tableId: string, name: string)
    ensures TablePath(dataDir, tableId) != FilePath(dataDir, name)
  {
    var k := |dataDir| + 4;
    assert TablePath(dataDir, tableId)[k] == 't';
    assert |FilePath(dataDir, name)| > k && FilePath(dataDir, name)[k] == 'f';
  }

  /** `SplFileInfo::getFilename` and `basename`: what follows the last '/'
      of a path Finder lists (such a path never ends in '/'). */
  function Basename(path: string): string
    decreases |path|
  {
    if |path| == 0 || path[|path| - 1] == '/' then ""
    else Basename(path[..|path| - 1]) + [path[|path| - 1]]
  }

  /** The file name is the longest suffix of the path without '/': it is
      the whole path or follows a '/'. */
  lemma {:induction false} BasenameSuffix(path: string)
    ensures '/' !in Basename(path)
    ensures |Basename(path)| <= |path| && Basename(path) == path[|path| - |Basename(path)|..]
    ensures |Basename(path)| < |path| ==> path[|path| - |Basename(path)| - 1] == '/'
    decreases |path|
  {
    if |path| > 0 && path[|path| - 1] != '/' {
      var init := path[..|path| - 1];
      BasenameSuffix(init);
      var b := Basename(init);
      assert Basename(path) == b + [path[|path| - 1]];
      assert init[|init| - |b|..] + [path[|path| - 1]] == path[|path| - |b| - 1..];
    }
  }

  /** The name of a file in a sub-directory is the part after the
      directory, and a name without '/' is its own file name. */
  lemma {:induction false} BasenameOfJoin(dir: string, name: string)
    requires '/' !in name
    ensures Basename(dir + "/" + name) == name
    ensures Basename(name) == name
  {
    BasenameIsLongestSuffix(dir + "/" + name, name);
    BasenameIsLongestSuffix(name, name);
  }

  /** The file name is the only suffix without '/' that is the whole path
      or follows a '/'. */
  lemma {:induction false} BasenameIsLongestSuffix(path: string, s: string)
    requires '/' !in s && |s| <= |path| && s == path[|path| - |s|..]
    requires |s| < |path| ==> path[|path| - |s| - 1] == '/'
    ensures Basename(path) == s
  {
    var b := Basename(path);
    BasenameSuffix(path);
    SuffixAgrees(path, s, |b|);
    SuffixAgrees(path, b, |s|);
    assert |b| == |s|;
  }

  /** A suffix agrees with the path, counting from the end. */
  lemma SuffixAgrees(path: string, s: string, j: nat)
    ensures |s| <= |path| && s == path[|path| - |s|..] && j < |s| ==> s[|s| - 1 - j] == path[|path| - 1 - j]
  {
  }

  /** The glob `*.manifest` on a file name. */
  predicate IsManifest(name: string) {
    EndsWith(name, ".manifest")
  }

  /** A path Finder skips by default (`ignoreDotFiles`): one of its
      components, relative to the searched directory, starts with a dot and
      has more after it. */
  predicate Hidden(name: string) {
    exists i :: 0 <= i < |name| - 1 && name[i] == '.' && (i == 0 || name[i - 1] == '/')
  }

  /** A file `getInputFiles` yields: not hidden and not a manifest. */
  predicate Uploadable(name: string) {
    !Hidden(name) && !IsManifest(name)
  }

  /** `getInputFiles`: the paths found under `in/files`, without hidden files
      and manifests, in listing order. */
  function InputFiles(names: seq<string>): (r: seq<string>)
    ensures forall i :: 0 <= i < |r| ==> r[i] in names && Uploadable(r[i])
    ensures forall i :: 0 <= i < |names| && Uploadable(names[i]) ==> names[i] in r
    ensures Subsequence(r, names)
  {
    Filter(names, (n: string) => Uploadable(n))
  }

  /** A dot file next to a data file is not uploaded; the data file is. */
  lemma DotFileSkipped()
    ensures InputFiles([".keep", "a.csv"]) == ["a.csv"]
  {
    assert ".keep"[0] == '.';
    assert !Hidden("a.csv") by {
      forall i | 0 <= i < |"a.csv"| - 1 && "a.csv"[i] == '.' ensures i != 0 && "a.csv"[i - 1] != '/' {
      }
    }
    assert !IsManifest("a.csv");
  }
}

=== FILE: json.dfy ===
/** The JSON values that request bodies and parameters are built from
    (PHP associative arrays, as `json_encode` would send them). */
module Json {

  datatype Json =
    | JNull
    | JBool(b: bool)
    | JInt(i: int)
    | JStr(s: string)
    | JArr(items: seq<Json>)
    | JObj(fields: map<string, Json>)

  /** A PHP list of strings. */
  function Strs(xs: seq<string>): (r: Json)
    ensures r.JArr? && |r.items| == |xs|
    ensures forall i :: 0 <= i < |xs| ==> r.items[i] == JStr(xs[i])
  {
    JArr(seq(|xs|, i requires 0 <= i < |xs| => JStr(xs[i])))
  }
}

=== FILE: legacy_writer.dfy ===
/** The oldest writer class (Writer/Writer.php): the same 403 retry rule,
    written with loose comparison, and a `process` that hands each sheet to
    a class chosen by the sheet's type and always answers with no results. */
module LegacyWriter {
  import opened Base
  import opened Json
  import opened Php
  import Writer

  /** The retry count the constructor sets on its API client. */
  const BackoffsCount: nat := 7

  /** The 403 backoff callback, comparing the reason loosely. */
  predicate Retry403(numEq: NumEq, reason: string) {
    !(|| LooseStrEq(numEq, reason, "insufficientPermissions")
      || LooseStrEq(numEq, reason, "dailyLimitExceeded")
      || LooseStrEq(numEq, reason, "usageLimits.userRateLimitExceededUnreg"))
  }

  /** Loose comparison changes nothing here: the callback agrees with the
      table planner's on every reason, and both retry as often. */
  lemma Retry403Agrees(numEq: NumEq, reason: string)
    ensures Retry403(numEq, reason) <==> Writer.Retry403(reason)
    ensures BackoffsCount == Writer.BackoffsCount
  {
    assert !NumericChar("insufficientPermissions"[0]);
    assert !NumericChar("dailyLimitExceeded"[0]);
    assert !NumericChar("usageLimits.userRateLimitExceededUnreg"[0]);
    LooseStrEqWord(numEq, reason, "insufficientPermissions");
    LooseStrEqWord(numEq, reason, "dailyLimitExceeded");
    LooseStrEqWord(numEq, reason, "usageLimits.userRateLimitExceededUnreg");
  }

  /** A configured sheet: the method to call, the type naming the class, and the rest of its array. */
  datatype SheetJob = SheetJob(action: string, kind: string, rest: Json)

  /** Running the `n`-th sheet: calling its `action` method on the class
      named by its type with the first letter upper-cased; the class lookup
      and everything the method does happen there. */
  type Invoke = (nat, SheetJob) -> Outcome<()>

  /** `process` from the `n`-th sheet on: every sheet in order, the first
      failure escaping; nothing is ever collected. */
  function Process(invoke: Invoke, sheets: seq<SheetJob>, n: nat): (r: Outcome<seq<Json>>)
    ensures r.Ok? ==> r.value == []
    decreases |sheets|
  {
    if |sheets| == 0 then Ok([])
    else
      var s := sheets[0];
      var done := invoke(n, s);
      if done.Fail? then Fail(done.failure)
      else Process(invoke, sheets[1..], n + 1)
  }

  /** The method call `process` makes for the `n`-th sheet succeeds. */
  predicate Succeeds(invoke: Invoke, n: nat, s: SheetJob) {
    invoke(n, s).Ok?
  }

  /** `process` succeeds exactly when every sheet's method does. */
  lemma {:induction false} ProcessSucceeds(invoke: Invoke, sheets: seq<SheetJob>, n: nat)
    ensures Process(invoke, sheets, n).Ok? <==> forall i :: 0 <= i < |sheets| ==> Succeeds(invoke, n + i, sheets[i])
    decreases |sheets|
  {
    if |sheets| > 0 {
      if Succeeds(invoke, n, sheets[0]) {
        var tail := sheets[1..];
        ProcessSucceeds(invoke, tail, n + 1);
        if forall i :: 0 <= i < |sheets| ==> Succeeds(invoke, n + i, sheets[i]) {
          forall j | 0 <= j < |tail| ensures Succeeds(invoke, n + 1 + j, tail[j]) {
            assert tail[j] == sheets[j + 1];
            assert Succeeds(invoke, n + (j + 1), sheets[j + 1]);
          }
        }
        if forall j :: 0 <= j < |tail| ==> Succeeds(invoke, n + 1 + j, tail[j]) {
          forall i | 1 <= i < |sheets| ensures Succeeds(invoke, n + i, sheets[i]) {
            assert sheets[i] == tail[i - 1];
            assert Succeeds(invoke, n + 1 + (i - 1), tail[i - 1]);
          }
        }
      } else {
        assert !Succeeds(invoke, n + 0, sheets[0]);
      }
    }
  }

  /** A failure of `process` is the failure of one of the sheets' methods. */
  lemma {:induction false} ProcessFailure(invoke: Invoke, sheets: seq<SheetJob>, n: nat)
    ensures Process(invoke, sheets, n).Fail? ==>
      exists i :: 0 <= i < |sheets| && invoke(n + i, sheets[i]) == Fail(Process(invoke, sheets, n).failure)
    decreases |sheets|
  {
    if |sheets| > 0 && Succeeds(invoke, n, sheets[0]) && Process(invoke, sheets, n).Fail? {
      ProcessFailure(invoke, sheets[1..], n + 1);
      var f := Process(invoke, sheets, n).failure;
      var j :| 0 <= j < |sheets| - 1 && invoke(n + 1 + j, sheets[1..][j]) == Fail(f);
      assert sheets[1..][j] == sheets[j + 1];
      assert invoke(n + (j + 1), sheets[j + 1]) == Fail(f);
    }
  }

  /** PHP `ucfirst`: the first character upper-cased when it is an ASCII letter. */
  function Ucfirst(s: string): (r: string)
    ensures |r| == |s|
    ensures |s| > 0 ==> r[1..] == s[1..] && LowerChar(r[0]) == LowerChar(s[0])
  {
    if s == [] then s
    else if 'a' <= s[0] <= 'z' then [(s[0] as int - 32) as char] + s[1..]
    else s
  }

  /** The writer classes the package defines (Writer/File.php, Writer/Sheet.php,
      Writer/Spreadsheet.php), by short name in lower case. */
  const WriterClasses: set<string> := {"file", "sheet", "spreadsheet"}

  function ClassNotFound(kind: string): Failure {
    EngineError("Class \"" + Ucfirst(kind) + "\" not found")
  }

  /** `new $actionClassName($this->driveApi)` as written. A class name held in
      a variable is looked up in the global namespace, and PHP ignores case
      there, so a type naming one of the package's writer classes, which live
      in their own namespace, names no class at all. (Their constructors also
      take a client and an input, not the client alone.) What a type naming
      some other class does is left to `other`. */
  function InvokeAsWritten(other: Invoke): Invoke {
    (n: nat, s: SheetJob) => if Lower(s.kind) in WriterClasses then Fail(ClassNotFound(s.kind)) else other(n, s)
  }

  /** As written, `process` stops at the first sheet whose type names a
      writer class of the package, with the engine's "class not found". */
  lemma ProcessAsWrittenFails(other: Invoke, sheets: seq<SheetJob>, n: nat)
    requires |sheets| > 0 && Lower(sheets[0].kind) in WriterClasses
    ensures Process(InvokeAsWritten(other), sheets, n) == Fail(ClassNotFound(sheets[0].kind))
  {
  }

  /** A single sheet of type `sheet` fails as written, whatever its action. */
  lemma SheetTypeNotFound(other: Invoke, action: string, rest: Json)
    ensures Process(InvokeAsWritten(other), [SheetJob(action, "sheet", rest)], 0) == Fail(EngineError("Class \"Sheet\" not found"))
  {
    SheetNamesWriterClass();
    SheetClassMessage();
    ProcessAsWrittenFails(other, [SheetJob(action, "sheet", rest)], 0);
  }

  lemma SheetNamesWriterClass()
    ensures Lower("sheet") in WriterClasses
  {
    SheetLower();
  }

  lemma SheetClassMessage()
    ensures ClassNotFound("sheet") == EngineError("Class \"Sheet\" not found")
  {
    SheetUcfirst();
  }

  lemma SheetLower()
    ensures Lower("sheet") == "sheet"
  {
    var kind := "sheet";
    forall i | 0 <= i < |kind| ensures Lower(kind)[i] == kind[i] {
    }
  }

  lemma SheetUcfirst()
    ensures Ucfirst("sheet") == "Sheet"
  {
    var kind := "sheet";
    assert Ucfirst(kind) == ['S'] + kind[1..];
  }
}

=== FILE: metadata.dfy ===
/** `syncFileMetadata` (Writer/Spreadsheet.php, copied verbatim in
    Writer/Sheet.php): the smallest rename/add-parents patch that makes a
    remote file carry the declared title and parents. Parents are only ever
    added, never removed. */
module Metadata {
  import opened Base
  import opened Json
  import opened Calls
  import opened Php

  /** `array_search($parent, $parents) !== false`: PHP compares loosely, so
      two numeric strings match when they denote the same number. */
  predicate Listed(numEq: NumEq, p: string, remote: seq<string>)
    decreases |remote|
  {
    |remote| > 0 && (LooseStrEq(numEq, p, remote[0]) || Listed(numEq, p, remote[1..]))
  }

  /** `array_search` finds `p` exactly when some remote parent compares loosely equal to it. */
  lemma {:induction false} ListedIff(numEq: NumEq, p: string, remote: seq<string>)
    ensures Listed(numEq, p, remote) <==> exists i :: 0 <= i < |remote| && LooseStrEq(numEq, p, remote[i])
    decreases |remote|
  {
    if |remote| > 0 {
      ListedIff(numEq, p, remote[1..]);
      if Listed(numEq, p, remote[1..]) {
        var i :| 0 <= i < |remote[1..]| && LooseStrEq(numEq, p, remote[1..][i]);
        assert remote[i + 1] == remote[1..][i];
      }
      if i :| 1 <= i < |remote| && LooseStrEq(numEq, p, remote[i]) {
        assert remote[1..][i - 1] == remote[i];
      }
    }
  }

  /** The oracle agrees that every string equals itself, as PHP's `==` does. */
  ghost predicate Reflexive(numEq: NumEq) {
    forall s :: numEq(s, s)
  }

  /** The declared parents `array_search` does not find among the remote
      file's parents, in declared order. */
  function MissingParents(numEq: NumEq, declared: seq<string>, remote: seq<string>): seq<string> {
    Filter(declared, (p: string) => !Listed(numEq, p, remote))
  }

  /** The parents to add are declared ones `array_search` does not find,
      every declared parent it does not find is among them, and they keep
      the declared order. */
  lemma MissingParentsSpec(numEq: NumEq, declared: seq<string>, remote: seq<string>)
    ensures var r := MissingParents(numEq, declared, remote);
      && (forall i :: 0 <= i < |r| ==> r[i] in declared && !Listed(numEq, r[i], remote))
      && (forall i :: 0 <= i < |declared| && !Listed(numEq, declared[i], remote) ==> declared[i] in r)
      && Subsequence(r, declared)
  {
  }

  /** "1" is found among ["01"] when the two are the same number, so nothing
      is added, although the strings differ. */
  lemma LooseParentFound(numEq: NumEq)
    requires numEq("1", "01")
    ensures MissingParents(numEq, ["1"], ["01"]) == []
  {
    assert NumericLike("1") && NumericLike("01");
    assert LooseStrEq(numEq, "1", "01");
    assert "01" in ["01"];
    assert Listed(numEq, "1", ["01"]);
  }

  /** The `updateFileMetadata` call that brings `file` in line with the
      declared title and parents, or none when nothing differs. */
  function SyncCall(numEq: NumEq, title: string, parents: seq<string>, file: Reply): (r: Option<Call>)
    ensures r.Some? ==> r.value.UpdateFileMetadata? && r.value.id == file.id
  {
    var toAdd := MissingParents(numEq, parents, file.parents);
    var body: map<string, Json> := if title != file.name then map["name" := JStr(title)] else map[];
    var params: map<string, Json> := if toAdd != [] then map["addParents" := Strs(toAdd)] else map[];
    if body != map[] || params != map[] then Some(UpdateFileMetadata(file.id, body, params)) else None
  }

  /** No call exactly when the title matches and every declared parent is
      present; otherwise the patch renames exactly when the title differs and
      adds exactly the missing parents, in declared order. */
  lemma SyncCallDiff(numEq: NumEq, title: string, parents: seq<string>, file: Reply)
    ensures var r := SyncCall(numEq, title, parents, file);
      && (r.None? <==> title == file.name && forall p :: p in parents ==> Listed(numEq, p, file.parents))
      && (r.Some? ==> ("name" in r.value.body <==> title != file.name))
      && (r.Some? && "name" in r.value.body ==> r.value.body["name"] == JStr(title))
      && (r.Some? ==> ("addParents" in r.value.params <==> exists p :: p in parents && !Listed(numEq, p, file.parents)))
      && (r.Some? && "addParents" in r.value.params ==>
            r.value.params["addParents"] == Strs(MissingParents(numEq, parents, file.parents)))
  {
    var toAdd := MissingParents(numEq, parents, file.parents);
    MissingParentsSpec(numEq, parents, file.parents);
    assert (exists p :: p in parents && !Listed(numEq, p, file.parents)) <==> toAdd != [] by {
      if toAdd != [] {
        assert toAdd[0] in parents && !Listed(numEq, toAdd[0], file.parents);
      }
      if p :| p in parents && !Listed(numEq, p, file.parents) {
        var i :| 0 <= i < |parents| && parents[i] == p;
        assert p in toAdd;
      }
    }
    var body: map<string, Json> := if title != file.name then map["name" := JStr(title)] else map[];
    var params: map<string, Json> := if toAdd != [] then map["addParents" := Strs(toAdd)] else map[];
    assert (body == map[]) == (title == file.name) by {
      if title != file.name { assert "name" in body; }
    }
    assert (params == map[]) == (toAdd == []) by {
      if toAdd != [] { assert "addParents" in params; }
    }
  }

  /** What the file looks like once the service has applied a metadata patch. */
  function Apply(file: Reply, c: Option<Call>): Reply
    requires c.Some? ==> c.value.UpdateFileMetadata?
  {
    match c
    case None => file
    case Some(u) =>
      var named := if "name" in u.body && u.body["name"].JStr? then file.(name := u.body["name"].s) else file;
      var added := if "addParents" in u.params && u.params["addParents"].JArr? then StrsOf(u.params["addParents"].items) else [];
      named.(parents := file.parents + added)
  }

  function StrsOf(items: seq<Json>): (r: seq<string>)
    ensures |r| == |items|
    ensures forall i :: 0 <= i < |items| && items[i].JStr? ==> r[i] == items[i].s
  {
    seq(|items|, i requires 0 <= i < |items| => if items[i].JStr? then items[i].s else "")
  }

  /** Appending parents keeps every found parent found and makes each
      appended one found. */
  lemma ListedAppend(numEq: NumEq, p: string, a: seq<string>, b: seq<string>)
    requires Reflexive(numEq)
    requires Listed(numEq, p, a) || p in b
    ensures Listed(numEq, p, a + b)
  {
    ListedIff(numEq, p, a + b);
    if Listed(numEq, p, a) {
      ListedIff(numEq, p, a);
      var i :| 0 <= i < |a| && LooseStrEq(numEq, p, a[i]);
      assert (a + b)[i] == a[i];
    } else {
      var j :| 0 <= j < |b| && b[j] == p;
      assert (a + b)[|a| + j] == p;
      assert numEq(p, p);
    }
  }

  /** Syncing again after the patch has been applied issues no call. */
  lemma SyncIdempotent(numEq: NumEq, title: string, parents: seq<string>, file: Reply)
    requires Reflexive(numEq)
    ensures SyncCall(numEq, title, parents, Apply(file, SyncCall(numEq, title, parents, file))) == None
  {
    var c := SyncCall(numEq, title, parents, file);
    var after := Apply(file, c);
    SyncCallDiff(numEq, title, parents, file);
    SyncCallDiff(numEq, title, parents, after);
    if c.Some? {
      var toAdd := MissingParents(numEq, parents, file.parents);
      MissingParentsSpec(numEq, parents, file.parents);
      var added := if "addParents" in c.value.params then toAdd else [];
      if "addParents" in c.value.params {
        assert StrsOf(Strs(toAdd).items) == toAdd;
      }
      assert after.parents == file.parents + added;
      forall p | p in parents ensures Listed(numEq, p, after.parents) {
        if !Listed(numEq, p, file.parents) {
          var i :| 0 <= i < |parents| && parents[i] == p;
          assert p in toAdd;
        }
        ListedAppend(numEq, p, file.parents, added);
      }
    }
  }

  /** The patch never takes a parent away and only ever adds declared ones. */
  lemma SyncAdditive(numEq: NumEq, title: string, parents: seq<string>, file: Reply)
    ensures var after := Apply(file, SyncCall(numEq, title, parents, file));
      && (forall p :: p in file.parents ==> p in after.parents)
      && (forall p :: p in after.parents ==> p in file.parents || p in parents)
  {
    var c := SyncCall(numEq, title, parents, file);
    SyncCallDiff(numEq, title, parents, file);
    if c.Some? && "addParents" in c.value.params {
      var toAdd := MissingParents(numEq, parents, file.parents);
      MissingParentsSpec(numEq, parents, file.parents);
      assert StrsOf(Strs(toAdd).items) == toAdd;
    }
  }

  /** Issues the sync call, if any. */
  function Sync(remote: Remote, base: nat, numEq: NumEq, title: string, parents: seq<string>, file: Reply): (r: Run<()>)
    ensures r.calls == (if SyncCall(numEq, title, parents, file).Some? then [SyncCall(numEq, title, parents, file).value] else [])
    ensures r.out.Fail? ==> r.calls != [] && remote(base, r.calls[0]).HttpError?
  {
    match SyncCall(numEq, title, parents, file)
    case None => Run([], Ok(()))
    case Some(c) =>
      var a := Ask(remote, base, c);
      if a.out.Fail? then Stop(a) else Run(a.calls, Ok(()))
  }
}

=== FILE: php.dfy ===
/** PHP's loose comparison `==` against a string literal, and the way PHP
    prints a scalar, as the older planner classes rely on them (PHP 8
    semantics). Whether two numeric strings are numerically equal is left
    to an oracle; only the shape of a numeric string is spelled out. */
module Php {
  import opened Json
  import opened Text

  /** Decides, for two numeric strings, whether they denote the same number. */
  type NumEq = (string, string) -> bool

  /** A character that can occur in a PHP numeric string. */
  predicate NumericChar(c: char) {
    '0' <= c <= '9' || c == '+' || c == '-' || c == '.' || c == 'e' || c == 'E' || c == ' ' || c == '\t' || c == '\n' || c == '\r'
  }

  /** Could be a numeric string: not empty, and made of numeric characters
      only. Every PHP numeric string is of this shape. */
  predicate NumericLike(s: string) {
    |s| > 0 && forall i :: 0 <= i < |s| ==> NumericChar(s[i])
  }

  /** `$a == $b` on two strings: numerically when both are numeric, byte for byte otherwise. */
  predicate LooseStrEq(numEq: NumEq, a: string, b: string) {
    if NumericLike(a) && NumericLike(b) then numEq(a, b) else a == b
  }

  /** `$v == 'lit'` for a configuration value `v`. */
  predicate LooseEq(numEq: NumEq, v: Json, lit: string) {
    match v
    case JStr(s) => LooseStrEq(numEq, s, lit)
    case JBool(b) => b == (lit != "" && lit != "0")
    case JNull => lit == ""
    case JInt(i) => if NumericLike(lit) then numEq(IntToString(i), lit) else IntToString(i) == lit
    case JArr(_) => false
    case JObj(_) => false
  }

  /** A literal that has a character no numeric string has. */
  predicate Word(lit: string) {
    exists i :: 0 <= i < |lit| && !NumericChar(lit[i])
  }

  /** Against a word, loose comparison of a string is plain equality, whatever
      the numeric oracle says. */
  lemma LooseStrEqWord(numEq: NumEq, s: string, lit: string)
    requires Word(lit)
    ensures LooseStrEq(numEq, s, lit) <==> s == lit
  {
    var i :| 0 <= i < |lit| && !NumericChar(lit[i]);
    assert !NumericLike(lit);
  }

  /** Against a non-empty word, a value compares loosely equal exactly when it
      is that string or the boolean `true`. */
  lemma LooseEqWord(numEq: NumEq, v: Json, lit: string)
    requires Word(lit) && lit != "0"
    ensures LooseEq(numEq, v, lit) <==> v == JStr(lit) || v == JBool(true)
  {
    var i :| 0 <= i < |lit| && !NumericChar(lit[i]);
    assert !NumericLike(lit);
    if v.JInt? {
      IntToStringNumeric(v.i);
    }
  }

  /** A printed int is made of digits and a sign only. */
  lemma IntToStringNumeric(n: int)
    ensures forall k :: 0 <= k < |IntToString(n)| ==> NumericChar(IntToString(n)[k])
  {
    var m: nat := if n < 0 then -n else n;
    assert AllDigits(NatToString(m));
    if n < 0 {
      forall k | 1 <= k < |IntToString(n)| ensures NumericChar(IntToString(n)[k]) {
        assert IntToString(n)[k] == NatToString(m)[k - 1];
      }
    }
  }

  /** PHP's `empty()` on a value: null, false, 0, "", "0" and the empty array. */
  predicate EmptyValue(v: Json) {
    match v
    case JNull => true
    case JBool(b) => !b
    case JInt(i) => i == 0
    case JStr(s) => s == "" || s == "0"
    case JArr(items) => items == []
    case JObj(fields) => fields == map[]
  }

  /** How `sprintf('%s')` prints a value. */
  function PhpString(v: Json): string {
    match v
    case JStr(s) => s
    case JInt(i) => IntToString(i)
    case JBool(b) => if b then "1" else ""
    case JNull => ""
    case JArr(_) => "Array"
    case JObj(_) => "Array"
  }
}

=== FILE: sheet_draft.dfy ===
/** The earlier draft of the spreadsheet writer (Writer/Sheet.php), modelled
    as written. It finds or creates the spreadsheet the way the final writer
    does, syncs the file metadata with the same rule, renames the first sheet
    to "sheet1", and pushes the CSV in batches that are always 1000 entries
    long and whose offsets do not accumulate. */
module SheetDraft {
  import opened Base
  import opened Calls
  import opened A1
  import opened Metadata
  import opened Spreadsheet

  /** The keys the draft reads from a sheet configuration. */
  datatype DraftSheet = DraftSheet(fileId: string, tableId: string, title: string, parents: seq<string>, pathname: string, sheetTitle: string)

  function Rows(env: Env, sheet: DraftSheet): seq<seq<string>> {
    env.csv(sheet.pathname)
  }

  /** `$csvFile->current()` is truthy: there is a row at `pos` and it has
      cells (an empty PHP array is falsy). */
  predicate Current(rows: seq<seq<string>>, pos: nat) {
    pos < |rows| && |rows[pos]| > 0
  }

  /** `getRange` can address the column count of the first row. */
  predicate DraftAddressable(env: Env, sheet: DraftSheet) {
    var rows := Rows(env, sheet);
    Current(rows, 0) ==> |rows[0]| <= 702
  }

  /** What the reader yields at `pos`: the row, or `false` past the end. */
  function Entry(rows: seq<seq<string>>, pos: nat): Line {
    if pos < |rows| then Row(rows[pos]) else Eof
  }

  /** The inner loop from `pos`: it never tests for the end of the file, so it
      always collects exactly 1000 entries. */
  function Padded(rows: seq<seq<string>>, pos: nat): (r: seq<Line>)
    ensures |r| == 1000
  {
    seq(1000, k requires 0 <= k < 1000 => Entry(rows, pos + k))
  }

  datatype DraftBatch = DraftBatch(offset: int, values: seq<Line>)

  /** The outer loop from `pos` with the current `offset`: one batch while the
      current row is truthy; after each batch the offset is set to the inner
      counter, which is always 1000. */
  function DraftPlan(rows: seq<seq<string>>, pos: nat, offset: int): seq<DraftBatch>
    decreases |rows| - pos
  {
    if !Current(rows, pos) then []
    else [DraftBatch(offset, Padded(rows, pos))] + DraftPlan(rows, pos + 1000, 1000)
  }

  /** Batch k of the loop started at `pos` reads from `pos + 1000 * k`; the
      first carries the starting offset and every later one offset 1000. */
  lemma {:induction false} DraftPlanBatches(rows: seq<seq<string>>, pos: nat, offset: int)
    ensures forall k :: 0 <= k < |DraftPlan(rows, pos, offset)| ==>
      DraftPlan(rows, pos, offset)[k] == DraftBatch(if k == 0 then offset else 1000, Padded(rows, pos + 1000 * k))
    decreases |rows| - pos
  {
    if Current(rows, pos) {
      var rest := DraftPlan(rows, pos + 1000, 1000);
      DraftPlanBatches(rows, pos + 1000, 1000);
      var plan := DraftPlan(rows, pos, offset);
      assert plan == [DraftBatch(offset, Padded(rows, pos))] + rest;
      forall k | 1 <= k < |plan| ensures plan[k] == DraftBatch(1000, Padded(rows, pos + 1000 * k)) {
        assert plan[k] == rest[k - 1];
        assert pos + 1000 + 1000 * (k - 1) == pos + 1000 * k;
      }
    }
  }

  /** The loop runs while the row at each batch position is truthy and stops
      at the first batch position where it is not. */
  lemma {:induction false} DraftPlanStops(rows: seq<seq<string>>, pos: nat, offset: int)
    ensures var plan := DraftPlan(rows, pos, offset);
      && (forall k :: 0 <= k < |plan| ==> Current(rows, pos + 1000 * k))
      && !Current(rows, pos + 1000 * |plan|)
    decreases |rows| - pos
  {
    if Current(rows, pos) {
      var rest := DraftPlan(rows, pos + 1000, 1000);
      DraftPlanStops(rows, pos + 1000, 1000);
      var plan := DraftPlan(rows, pos, offset);
      assert |plan| == 1 + |rest|;
      forall k | 1 <= k < |plan| ensures Current(rows, pos + 1000 * k) {
        assert pos + 1000 + 1000 * (k - 1) == pos + 1000 * k;
      }
      assert pos + 1000 + 1000 * |rest| == pos + 1000 * |plan|;
    }
  }

  /** The nested loops of `update` as written, collecting the batches they
      send: every batch holds exactly 1000 entries, the first is written at
      row 0 and every later one at row 1000. */
  method DraftCutBatches(rows: seq<seq<string>>) returns (plan: seq<DraftBatch>)
    ensures plan == DraftPlan(rows, 0, 0)
    ensures forall k :: 0 <= k < |plan| ==>
      |plan[k].values| == 1000 && plan[k].offset == (if k == 0 then 0 else 1000)
  {
    var offset := 0;
    var limit := 1000;
    var pos: nat := 0;
    plan := [];
    while Current(rows, pos)
      invariant DraftPlan(rows, 0, 0) == plan + DraftPlan(rows, pos, offset)
      invariant offset == (if |plan| == 0 then 0 else 1000)
      decreases |rows| - pos
    {
      var i := 0;
      var values: seq<Line> := [];
      while i < limit
        invariant i <= limit
        invariant |values| == i
        invariant forall k :: 0 <= k < i ==> values[k] == Entry(rows, pos + k)
      {
        values := values + [Entry(rows, pos + i)];
        i := i + 1;
      }
      assert values == Padded(rows, pos);
      plan := plan + [DraftBatch(offset, values)];
      pos := pos + i;
      offset := i;
    }
    DraftPlanBatches(rows, 0, 0);
  }

  /** `n` is the number of 1000-row chunks of `a` rows. */
  lemma ChunkCountOf(a: nat, n: nat)
    requires a <= 1000 * n && (n == 0 || 1000 * (n - 1) < a)
    ensures n == (a + 999) / 1000
  {
    var q := (a + 999) / 1000;
    assert a + 999 == 1000 * q + (a + 999) % 1000;
  }

  /** When every row has cells, the loop sends one batch per 1000-row chunk. */
  lemma DraftBatchCount(rows: seq<seq<string>>)
    requires forall j :: 0 <= j < |rows| ==> |rows[j]| > 0
    ensures |DraftPlan(rows, 0, 0)| == (|rows| + 999) / 1000
  {
    var n := |DraftPlan(rows, 0, 0)|;
    DraftPlanStops(rows, 0, 0);
    if n > 0 {
      assert Current(rows, 1000 * (n - 1));
    }
    ChunkCountOf(|rows|, n);
  }

  /** When every row has cells, row j travels in batch j / 1000 at position
      j % 1000: every row is sent once, in order. */
  lemma DraftCarriesRows(rows: seq<seq<string>>)
    requires forall j :: 0 <= j < |rows| ==> |rows[j]| > 0
    ensures forall j :: 0 <= j < |rows| ==>
      && j / 1000 < |DraftPlan(rows, 0, 0)|
      && |DraftPlan(rows, 0, 0)[j / 1000].values| == 1000
      && DraftPlan(rows, 0, 0)[j / 1000].values[j % 1000] == Row(rows[j])
  {
    var plan := DraftPlan(rows, 0, 0);
    DraftPlanBatches(rows, 0, 0);
    DraftPlanStops(rows, 0, 0);
    assert 1000 * |plan| >= |rows|;
    forall j | 0 <= j < |rows|
      ensures j / 1000 < |plan| && |plan[j / 1000].values| == 1000 && plan[j / 1000].values[j % 1000] == Row(rows[j])
    {
      var k, m := j / 1000, j % 1000;
      assert 1000 * k + m == j && 0 <= m < 1000;
      assert 1000 * k < 1000 * |plan|;
      assert plan[k].values == Padded(rows, 1000 * k);
      assert Padded(rows, 1000 * k)[m] == Entry(rows, j);
    }
  }

  /** Every entry of a batch that lies past the last row is an end-of-file
      marker. */
  lemma DraftPadsWithEof(rows: seq<seq<string>>)
    ensures forall k, m ::
      (0 <= k < |DraftPlan(rows, 0, 0)| && 0 <= m < |DraftPlan(rows, 0, 0)[k].values| && 1000 * k + m >= |rows|)
      ==> DraftPlan(rows, 0, 0)[k].values[m] == Eof
  {
    var plan := DraftPlan(rows, 0, 0);
    DraftPlanBatches(rows, 0, 0);
    forall k, m | 0 <= k < |plan| && 0 <= m < |plan[k].values| && 1000 * k + m >= |rows|
      ensures plan[k].values[m] == Eof
    {
      assert plan[k].values == Padded(rows, 1000 * k);
      assert Padded(rows, 1000 * k)[m] == Entry(rows, 1000 * k + m);
    }
  }

  /** As written, a file of more than 2000 rows sends its second and third
      batches to the same range, starting at row 1000, and its first batch to
      a range starting at row 0. */
  lemma DraftOffsetsCollide(rows: seq<seq<string>>)
    requires |rows| > 2000
    requires |rows[0]| > 0 && |rows[1000]| > 0 && |rows[2000]| > 0
    ensures var plan := DraftPlan(rows, 0, 0);
      |plan| >= 3 && plan[0].offset == 0 && plan[1].offset == 1000 && plan[2].offset == 1000
  {
    var plan := DraftPlan(rows, 0, 0);
    DraftPlanBatches(rows, 0, 0);
    DraftPlanStops(rows, 0, 0);
    assert Current(rows, 1000 * 2);
  }

  /** `syncSpreadsheetMetadata`: rename the first sheet of the spreadsheet to
      "sheet1" (a null sheet id when it has none). */
  function RenameCall(spreadsheet: Reply): Call {
    UpdateSheet(spreadsheet.id, if |spreadsheet.sheetIds| > 0 then Some(spreadsheet.sheetIds[0]) else None, "sheet1")
  }

  /** The value writes of a plan: each batch at its range of the configured
      file, with the first row's cell count as the column count. */
  function DraftValueCalls(env: Env, sheet: DraftSheet, plan: seq<DraftBatch>): (r: seq<Call>)
    requires |plan| > 0 ==> 1 <= |Rows(env, sheet)| && 1 <= |Rows(env, sheet)[0]| <= 702
    ensures |r| == |plan|
  {
    seq(|plan|, k requires 0 <= k < |plan| =>
      UpdateSpreadsheetValues(sheet.fileId,
        Range(env.urlencode, sheet.sheetTitle, |Rows(env, sheet)[0]|, plan[k].offset, 1000), plan[k].values))
  }

  function AsEntry(sheet: DraftSheet): SpreadsheetEntry {
    SpreadsheetEntry(sheet.fileId, sheet.tableId, sheet.title, sheet.parents, [])
  }

  /** `update` of the draft: find or create the spreadsheet, then read, sync,
      rename and fill it. */
  function DraftUpdate(remote: Remote, base: nat, env: Env, sheet: DraftSheet): Run<()>
    requires DraftAddressable(env, sheet)
  {
    var created := GetCreateSpreadsheet(remote, base, env, AsEntry(sheet));
    if created.out.Fail? then Stop(created)
    else Then(created, DraftRest(remote, base + |created.calls|, env, sheet, created.out.value))
  }

  /** After the spreadsheet is known: read the file by the configured id,
      then sync and upload. */
  function DraftRest(remote: Remote, base: nat, env: Env, sheet: DraftSheet, spreadsheet: Reply): Run<()>
    requires DraftAddressable(env, sheet)
  {
    var file := Ask(remote, base, GetFile(sheet.fileId, ["id", "name", "parents"]));
    if file.out.Fail? then Stop(file)
    else Then(file, DraftSyncUpload(remote, base + 1, env, sheet, spreadsheet, file.out.value))
  }

  /** Sync the file's title and parents, then upload. */
  function DraftSyncUpload(remote: Remote, base: nat, env: Env, sheet: DraftSheet, spreadsheet: Reply, file: Reply): Run<()>
    requires DraftAddressable(env, sheet)
  {
    var sync := Sync(remote, base, env.numEq, sheet.title, sheet.parents, file);
    if sync.out.Fail? then sync
    else Then(sync, DraftUpload(remote, base + |sync.calls|, env, sheet, spreadsheet))
  }

  /** The calls of the upload, in order: the rename, then the value writes. */
  function DraftScriptCalls(env: Env, sheet: DraftSheet, spreadsheet: Reply): seq<Call>
    requires DraftAddressable(env, sheet)
  {
    [RenameCall(spreadsheet)] + DraftValueCalls(env, sheet, DraftPlan(Rows(env, sheet), 0, 0))
  }

  /** `count($csvFile->current())` on a CSV without rows: PHP 8 refuses to
      count the reader's `false`. */
  const CountOfFalse: Failure := EngineError("count(): Argument #1 ($value) must be of type Countable|array, bool given")

  /** The upload, stopped by the first error. On a CSV without rows the
      column count raises once the rename has been issued. */
  function DraftUpload(remote: Remote, base: nat, env: Env, sheet: DraftSheet, spreadsheet: Reply): (r: Run<()>)
    requires DraftAddressable(env, sheet)
    ensures |Rows(env, sheet)| == 0 ==> r.out.Fail?
  {
    CountColumns(Rows(env, sheet), Exec(remote, base, Dos(DraftScriptCalls(env, sheet, spreadsheet))))
  }

  /** `count($csvFile->current())` after the calls of `run`: it raises on a
      CSV without rows, and changes nothing otherwise. */
  function CountColumns(rows: seq<seq<string>>, run: Run<()>): (r: Run<()>)
    ensures r.calls == run.calls
    ensures r.out.Ok? <==> run.out.Ok? && |rows| > 0
  {
    if |rows| == 0 && run.out.Ok? then Run(run.calls, Fail(CountOfFalse)) else run
  }

  /** On a CSV without rows the draft renames the first sheet and then fails
      on the column count, writing no values. */
  lemma DraftEmptyCsv(remote: Remote, base: nat, env: Env, sheet: DraftSheet, spreadsheet: Reply)
    requires DraftAddressable(env, sheet) && |Rows(env, sheet)| == 0
    requires remote(base, RenameCall(spreadsheet)).Answer?
    ensures DraftUpload(remote, base, env, sheet, spreadsheet) == Run([RenameCall(spreadsheet)], Fail(CountOfFalse))
  {
    assert DraftPlan(Rows(env, sheet), 0, 0) == [];
    assert DraftScriptCalls(env, sheet, spreadsheet) == [RenameCall(spreadsheet)];
    var steps := Dos([RenameCall(spreadsheet)]);
    assert steps[0] == Do(RenameCall(spreadsheet)) && steps[1..] == [];
    assert [RenameCall(spreadsheet)] + Exec(remote, base + 1, steps[1..]).calls == [RenameCall(spreadsheet)];
    assert Exec(remote, base, steps) == Run([RenameCall(spreadsheet)], Ok(()));
  }

  /** A whole draft run on a CSV without rows never succeeds. */
  lemma DraftEmptyCsvFails(remote: Remote, base: nat, env: Env, sheet: DraftSheet)
    requires DraftAddressable(env, sheet) && |Rows(env, sheet)| == 0
    ensures DraftUpdate(remote, base, env, sheet).out.Fail?
  {
  }

  /** Every value write of `calls` is a range write to spreadsheet `id`
      carrying exactly 1000 entries. */
  predicate DraftWrites(calls: seq<Call>, id: string) {
    forall i :: 0 <= i < |calls| && IsValueWrite(calls[i]) ==>
      calls[i].UpdateSpreadsheetValues? && calls[i].spreadsheetId == id && |calls[i].values| == 1000
  }

  lemma DraftWritesConcat(a: seq<Call>, b: seq<Call>, id: string)
    requires DraftWrites(a, id) && DraftWrites(b, id)
    ensures DraftWrites(a + b, id)
  {
    forall i | 0 <= i < |a + b| && IsValueWrite((a + b)[i])
      ensures (a + b)[i].UpdateSpreadsheetValues? && (a + b)[i].spreadsheetId == id && |(a + b)[i].values| == 1000
    {
      if i >= |a| {
        assert (a + b)[i] == b[i - |a|];
      }
    }
  }

  lemma DraftScriptCallsWrite(env: Env, sheet: DraftSheet, spreadsheet: Reply)
    requires DraftAddressable(env, sheet)
    ensures DraftWrites(DraftScriptCalls(env, sheet, spreadsheet), sheet.fileId)
  {
    var plan := DraftPlan(Rows(env, sheet), 0, 0);
    DraftPlanBatches(Rows(env, sheet), 0, 0);
    var cs := DraftScriptCalls(env, sheet, spreadsheet);
    forall i | 0 <= i < |cs| && IsValueWrite(cs[i])
      ensures cs[i].UpdateSpreadsheetValues? && cs[i].spreadsheetId == sheet.fileId && |cs[i].values| == 1000
    {
      assert cs[i] == DraftValueCalls(env, sheet, plan)[i - 1];
    }
  }

  /** The upload issues a prefix of its calls, all of them when it succeeds. */
  lemma DraftUploadIssues(remote: Remote, base: nat, env: Env, sheet: DraftSheet, spreadsheet: Reply)
    requires DraftAddressable(env, sheet)
    ensures DraftWrites(DraftUpload(remote, base, env, sheet, spreadsheet).calls, sheet.fileId)
    ensures DraftUpload(remote, base, env, sheet, spreadsheet).out.Ok? ==>
      DraftUpload(remote, base, env, sheet, spreadsheet).calls == DraftScriptCalls(env, sheet, spreadsheet)
  {
    var cs := DraftScriptCalls(env, sheet, spreadsheet);
    ExecDos(remote, base, cs);
    DraftScriptCallsWrite(env, sheet, spreadsheet);
    var upload := DraftUpload(remote, base, env, sheet, spreadsheet);
    forall i | 0 <= i < |upload.calls| && IsValueWrite(upload.calls[i])
      ensures upload.calls[i].UpdateSpreadsheetValues? && upload.calls[i].spreadsheetId == sheet.fileId
        && |upload.calls[i].values| == 1000
    {
      assert upload.calls[i] == cs[i];
    }
  }

  lemma DraftSyncUploadIssues(remote: Remote, base: nat, env: Env, sheet: DraftSheet, spreadsheet: Reply, file: Reply)
    requires DraftAddressable(env, sheet)
    ensures var r := DraftSyncUpload(remote, base, env, sheet, spreadsheet, file);
      var tail := DraftScriptCalls(env, sheet, spreadsheet);
      && DraftWrites(r.calls, sheet.fileId)
      && (r.out.Ok? ==> EndsIn(r.calls, tail))
  {
    var sync := Sync(remote, base, env.numEq, sheet.title, sheet.parents, file);
    assert DraftWrites(sync.calls, sheet.fileId);
    if sync.out.Ok? {
      var next := base + |sync.calls|;
      DraftUploadIssues(remote, next, env, sheet, spreadsheet);
      var upload := DraftUpload(remote, next, env, sheet, spreadsheet);
      DraftWritesConcat(sync.calls, upload.calls, sheet.fileId);
      assert DraftSyncUpload(remote, base, env, sheet, spreadsheet, file).calls == sync.calls + upload.calls;
      if upload.out.Ok? {
        assert EndsIn(upload.calls, DraftScriptCalls(env, sheet, spreadsheet));
        EndsInConcat(sync.calls, upload.calls, DraftScriptCalls(env, sheet, spreadsheet));
      }
    }
  }

  lemma DraftRestIssues(remote: Remote, base: nat, env: Env, sheet: DraftSheet, spreadsheet: Reply)
    requires DraftAddressable(env, sheet)
    ensures var r := DraftRest(remote, base, env, sheet, spreadsheet);
      var tail := DraftScriptCalls(env, sheet, spreadsheet);
      && r.calls[0] == GetFile(sheet.fileId, ["id", "name", "parents"])
      && DraftWrites(r.calls, sheet.fileId)
      && (r.out.Ok? ==> EndsIn(r.calls, tail))
  {
    var getFile := GetFile(sheet.fileId, ["id", "name", "parents"]);
    var file := Ask(remote, base, getFile);
    if file.out.Ok? {
      var next := base + 1;
      DraftSyncUploadIssues(remote, next, env, sheet, spreadsheet, file.out.value);
      var rest := DraftSyncUpload(remote, next, env, sheet, spreadsheet, file.out.value);
      DraftWritesConcat([getFile], rest.calls, sheet.fileId);
      assert DraftRest(remote, base, env, sheet, spreadsheet).calls == [getFile] + rest.calls;
      if rest.out.Ok? {
        EndsInConcat([getFile], rest.calls, DraftScriptCalls(env, sheet, spreadsheet));
      }
    }
  }

  /** Every value the draft writes is a 1000-entry range write to the
      configured `fileId`, whether or not the run succeeds; and even after a
      404 made it create a new file, it reads the file metadata by the
      configured `fileId`. */
  lemma DraftUpdateWrites(remote: Remote, base: nat, env: Env, sheet: DraftSheet)
    requires DraftAddressable(env, sheet)
    ensures var r := DraftUpdate(remote, base, env, sheet);
      var created := GetCreateSpreadsheet(remote, base, env, AsEntry(sheet));
      && DraftWrites(r.calls, sheet.fileId)
      && (created.out.Ok? ==> |r.calls| > |created.calls| && r.calls[|created.calls|] == GetFile(sheet.fileId, ["id", "name", "parents"]))
  {
    var created := GetCreateSpreadsheet(remote, base, env, AsEntry(sheet));
    GetCreateWritesNothing(remote, base, env, AsEntry(sheet), sheet.fileId);
    assert DraftWrites(created.calls, sheet.fileId);
    if created.out.Ok? {
      var next := base + |created.calls|;
      DraftRestIssues(remote, next, env, sheet, created.out.value);
      var rest := DraftRest(remote, next, env, sheet, created.out.value);
      DraftWritesConcat(created.calls, rest.calls, sheet.fileId);
      assert DraftUpdate(remote, base, env, sheet).calls == created.calls + rest.calls;
    }
  }

  /** A successful draft run ends with the rename of the first sheet to
      "sheet1" followed by the value writes of the plan, and nothing after. */
  lemma DraftUpdateEnds(remote: Remote, base: nat, env: Env, sheet: DraftSheet)
    requires DraftAddressable(env, sheet)
    ensures var r := DraftUpdate(remote, base, env, sheet);
      var created := GetCreateSpreadsheet(remote, base, env, AsEntry(sheet));
      r.out.Ok? ==> created.out.Ok? && EndsIn(r.calls, DraftScriptCalls(env, sheet, created.out.value))
  {
    var created := GetCreateSpreadsheet(remote, base, env, AsEntry(sheet));
    if created.out.Ok? {
      var next := base + |created.calls|;
      DraftRestIssues(remote, next, env, sheet, created.out.value);
      var rest := DraftRest(remote, next, env, sheet, created.out.value);
      assert DraftUpdate(remote, base, env, sheet).calls == created.calls + rest.calls;
      if rest.out.Ok? {
        EndsInConcat(created.calls, rest.calls, DraftScriptCalls(env, sheet, created.out.value));
      }
    }
  }

  /** `append` of the draft does nothing. */
  function DraftAppend(sheet: DraftSheet): (r: Run<()>)
    ensures r.calls == [] && r.out.Ok?
  {
    Run([], Ok(()))
  }
}

=== FILE: spreadsheet.dfy ===
/** The spreadsheet writer (Writer/Spreadsheet.php): find or create the
    spreadsheet, sync the file's title and parents, then push each sheet's
    CSV rows in batches of 1000, clearing the sheet first for `update` and
    appending for `append`. */
module Spreadsheet {
  import opened Base
  import opened Json
  import opened Calls
  import opened Config
  import opened A1
  import opened Batching
  import opened Input
  import opened Metadata
  import opened Php

  datatype SheetEntry = SheetEntry(sheetId: int, title: string, tableId: string, action: Action)

  datatype SpreadsheetEntry = SpreadsheetEntry(fileId: string, tableId: string, title: string, parents: seq<string>, sheets: seq<SheetEntry>)

  /** The local collaborators: the data directory, PHP's `urlencode`, the CSV
      rows stored at a path, `Input::countLines` (not part of this model, so a
      parameter), the message text of a Guzzle client exception, and whether
      two numeric strings denote the same number (for PHP's `==`). */
  datatype Env = Env(
    dataDir: string,
    urlencode: string -> string,
    csv: string -> seq<seq<string>>,
    countLines: seq<seq<string>> -> int,
    message: (int, string) -> string,
    numEq: NumEq)

  function SheetRows(env: Env, sheet: SheetEntry): seq<seq<string>> {
    env.csv(TablePath(env.dataDir, sheet.tableId))
  }

  /** The column count `getRange` can address: an update that writes a
      batch needs a first row of at most 702 cells (one- or two-letter
      columns). */
  predicate Addressable(action: Action, rows: seq<seq<string>>) {
    |rows| > 0 && rows[0] != [] && action == Update ==> |rows[0]| <= 702
  }

  /** The rows the reader yields while `$csvFile->current()` is truthy: all
      of them up to the end of the file or to the first row without cells
      (an empty PHP array is falsy), whichever comes first. */
  function Readable(rows: seq<seq<string>>): seq<seq<string>>
    decreases |rows|
  {
    if |rows| == 0 || rows[0] == [] then [] else [rows[0]] + Readable(rows[1..])
  }

  /** The readable rows are the longest prefix of rows with cells: a prefix,
      every row of it has cells, and the row after it, if any, has none. */
  lemma {:induction false} ReadablePrefix(rows: seq<seq<string>>)
    ensures var r := Readable(rows);
      && |r| <= |rows| && r == rows[..|r|]
      && (forall i :: 0 <= i < |r| ==> rows[i] != [])
      && (|r| < |rows| ==> rows[|r|] == [])
    decreases |rows|
  {
    if |rows| > 0 && rows[0] != [] {
      var rest := Readable(rows[1..]);
      ReadablePrefix(rows[1..]);
      assert [rows[0]] + rest == rows[..|rest| + 1];
    }
  }

  predicate AllAddressable(env: Env, sheets: seq<SheetEntry>) {
    forall i :: 0 <= i < |sheets| ==> Addressable(sheets[i].action, SheetRows(env, sheets[i]))
  }

  function ColumnCount(rows: seq<seq<string>>): nat {
    if |rows| == 0 then 0 else |rows[0]|
  }

  /** `updateSheetMetadata`: one batchUpdate setting the sheet's title and grid size. */
  function GridCall(spreadsheetId: string, sheet: SheetEntry, rowCount: int, columnCount: int): Call {
    BatchUpdateSpreadsheet(spreadsheetId, [UpdateSheetProperties(sheet.sheetId, sheet.title, rowCount, columnCount, "title,gridProperties")])
  }

  /** The call that writes one batch at row `offset`: a range write for
      update, an append to the sheet for append. */
  function BatchCall(urlencode: string -> string, spreadsheetId: string, sheet: SheetEntry, columnCount: int, offset: int, batch: seq<seq<string>>): Call
    requires sheet.action == Update || sheet.action == Append
    requires sheet.action == Update ==> 1 <= columnCount <= 702
  {
    if sheet.action == Update
    then UpdateSpreadsheetValues(spreadsheetId, Range(urlencode, sheet.title, columnCount, offset, BatchLimit), AsLines(batch))
    else AppendSpreadsheetValues(spreadsheetId, urlencode(sheet.title), AsLines(batch))
  }

  function NotAllowed(action: Action): Failure {
    AppError("Action '" + action.Name() + "' not allowed", 0)
  }

  /** One batch of the loop: the rows it carries and the row it starts at. */
  datatype Batch = Batch(offset: int, rows: seq<seq<string>>)

  /** How the loop cuts the rows: up to 1000 rows per batch, the offset
      advanced by the number of rows taken. */
  function Plan(rows: seq<seq<string>>, offset: int): (r: seq<Batch>)
    decreases |rows|
  {
    if |rows| == 0 then []
    else
      var n := Min(BatchLimit, |rows|);
      [Batch(offset, rows[..n])] + Plan(rows[n..], offset + n)
  }

  /** The plan is the 1000-row chunking of the rows, batch k starting at row
      `offset + 1000 * k`: consecutive batches neither overlap nor leave a gap. */
  lemma {:induction false} PlanChunked(rows: seq<seq<string>>, offset: int)
    ensures var plan := Plan(rows, offset);
      var batches := Chunk(rows, BatchLimit);
      && |plan| == |batches|
      && forall k :: 0 <= k < |plan| ==> plan[k] == Batch(offset + 1000 * k, batches[k])
    decreases |rows|
  {
    if |rows| > 0 {
      var n := Min(BatchLimit, |rows|);
      var plan := Plan(rows, offset);
      var batches := Chunk(rows, BatchLimit);
      var rest := Plan(rows[n..], offset + n);
      var restBatches := Chunk(rows[n..], BatchLimit);
      PlanChunked(rows[n..], offset + n);
      assert plan == [Batch(offset, rows[..n])] + rest;
      assert batches == [rows[..n]] + restBatches;
      forall k | 1 <= k < |plan| ensures plan[k] == Batch(offset + 1000 * k, batches[k]) {
        assert |rows[n..]| > 0;
        assert n == 1000;
        assert plan[k] == rest[k - 1] && batches[k] == restBatches[k - 1];
        assert offset + n + 1000 * (k - 1) == offset + 1000 * k;
      }
    }
  }

  /** The calls that write the batches of a plan. */
  function BatchCalls(urlencode: string -> string, spreadsheetId: string, sheet: SheetEntry, columnCount: int, plan: seq<Batch>): (r: seq<Call>)
    requires sheet.action == Update || sheet.action == Append
    requires |plan| > 0 && sheet.action == Update ==> 1 <= columnCount <= 702
    ensures |r| == |plan|
  {
    seq(|plan|, k requires 0 <= k < |plan| => BatchCall(urlencode, spreadsheetId, sheet, columnCount, plan[k].offset, plan[k].rows))
  }

  /** The inner loop of `uploadSheetValues`: reads up to `limit` rows from
      `pos`, stopping early at the end of the file or at a row without
      cells. */
  method TakeBatch(rows: seq<seq<string>>, pos: nat, limit: nat) returns (values: seq<seq<string>>, i: nat)
    requires pos <= |rows|
    ensures i <= limit && pos + i <= |rows|
    ensures values == rows[pos..pos + i]
    ensures forall k :: pos <= k < pos + i ==> rows[k] != []
    ensures i < limit ==> pos + i == |rows| || rows[pos + i] == []
  {
    i := 0;
    values := [];
    while i < limit && pos + i < |rows| && rows[pos + i] != []
      invariant i <= limit && pos + i <= |rows|
      invariant values == rows[pos..pos + i]
      invariant forall k :: pos <= k < pos + i ==> rows[k] != []
      decreases limit - i
    {
      values := values + [rows[pos + i]];
      i := i + 1;
    }
  }

  /** Started inside the readable rows, the inner loop takes the next
      min(limit, readable rows left) of them. */
  lemma TakeWithinReadable(rows: seq<seq<string>>, pos: nat, i: nat, limit: nat)
    requires pos <= |Readable(rows)| && pos + i <= |rows| && i <= limit
    requires forall k :: pos <= k < pos + i ==> rows[k] != []
    requires i < limit ==> pos + i == |rows| || rows[pos + i] == []
    ensures i == Min(limit, |Readable(rows)| - pos)
    ensures rows[pos..pos + i] == Readable(rows)[pos..pos + i]
  {
    ReadablePrefix(rows);
  }

  /** The nested loops of `uploadSheetValues` as written, collecting the
      batches they send: the offset starts at 1 and grows by the rows taken,
      and both loops stop when `current()` turns falsy. The batches are the
      1000-row chunks of the readable rows, batch k at row 1 + 1000 * k. */
  method CutBatches(rows: seq<seq<string>>) returns (plan: seq<Batch>)
    ensures plan == Plan(Readable(rows), 1)
    ensures |plan| == |Chunk(Readable(rows), BatchLimit)|
    ensures forall k :: 0 <= k < |plan| ==> plan[k] == Batch(1 + 1000 * k, Chunk(Readable(rows), BatchLimit)[k])
  {
    ghost var read := Readable(rows);
    ReadablePrefix(rows);
    var offset := 1;
    var limit := BatchLimit;
    var pos := 0;
    plan := [];
    while pos < |rows| && rows[pos] != []
      invariant 0 <= pos <= |read|
      invariant Plan(read, 1) == plan + Plan(read[pos..], offset)
      decreases |rows| - pos
    {
      var values, i := TakeBatch(rows, pos, limit);
      TakeWithinReadable(rows, pos, i, limit);
      PlanStep(read, pos, i, offset);
      plan := plan + [Batch(offset, values)];
      pos := pos + i;
      offset := offset + i;
    }
    assert read[pos..] == [];
    PlanChunked(read, 1);
  }

  /** One round of the outer loop: the plan from `pos` is the batch of the
      next min(1000, |rows| - pos) rows followed by the plan after them. */
  lemma PlanStep(rows: seq<seq<string>>, pos: nat, i: nat, offset: int)
    requires pos < |rows| && i == Min(BatchLimit, |rows| - pos)
    ensures Plan(rows[pos..], offset) == [Batch(offset, rows[pos..pos + i])] + Plan(rows[pos + i..], offset + i)
  {
    var left := rows[pos..];
    assert rows[pos..pos + i] == left[..i] && rows[pos + i..] == left[i..];
  }

  /** A row without cells ends the upload: of three rows whose middle one is
      empty, only the first is sent. */
  lemma EmptyRowStops()
    ensures Readable([["a"], [], ["b"]]) == [["a"]]
    ensures Plan(Readable([["a"], [], ["b"]]), 1) == [Batch(1, [["a"]])]
  {
    var rows: seq<seq<string>> := [["a"], [], ["b"]];
    assert rows[1..] == [[], ["b"]];
    assert Readable(rows[1..]) == [];
    var read: seq<seq<string>> := [["a"]];
    assert read[..1] == read && read[1..] == [];
  }

  /** The ranges the update batches are written to follow each other
      without overlap: batch j ends (1000 rows from its offset) no later than
      batch k starts, for every j before k. */
  lemma PlanRangesDisjoint(rows: seq<seq<string>>)
    ensures forall j, k :: 0 <= j < k < |Plan(rows, 1)| ==> Plan(rows, 1)[j].offset + 1000 <= Plan(rows, 1)[k].offset
  {
    var plan := Plan(rows, 1);
    var batches := Chunk(rows, BatchLimit);
    PlanChunked(rows, 1);
    forall j, k | 0 <= j < k < |plan| ensures plan[j].offset + 1000 <= plan[k].offset {
      assert plan[j] == Batch(1 + 1000 * j, batches[j]);
      assert plan[k] == Batch(1 + 1000 * k, batches[k]);
    }
  }

  /** The clear request of an update sheet. */
  function ClearCall(env: Env, spreadsheetId: string, sheet: SheetEntry): Call {
    ClearSpreadsheetValues(spreadsheetId, env.urlencode(sheet.title))
  }

  /** The calls `uploadSheetValues` makes before its batch loop: the grid
      update, then the clear for update only. */
  function Prelude(env: Env, spreadsheetId: string, sheet: SheetEntry): seq<Call> {
    var rows := SheetRows(env, sheet);
    [GridCall(spreadsheetId, sheet, env.countLines(rows), ColumnCount(rows))]
      + (if sheet.action == Update then [ClearCall(env, spreadsheetId, sheet)] else [])
  }

  /** The batch loop as a script: the batch writes of the plan of the
      readable rows from row 1; for an action other than update or append, a
      raise once there is a readable row. */
  function BatchSteps(env: Env, spreadsheetId: string, sheet: SheetEntry): seq<Step>
    requires Addressable(sheet.action, SheetRows(env, sheet))
  {
    var rows := SheetRows(env, sheet);
    var read := Readable(rows);
    if |read| == 0 then []
    else if sheet.action != Update && sheet.action != Append then [Raise(NotAllowed(sheet.action))]
    else Dos(BatchCalls(env.urlencode, spreadsheetId, sheet, ColumnCount(rows), Plan(read, 1)))
  }

  /** What `uploadSheetValues` does for one sheet, in order. */
  function SheetScript(env: Env, spreadsheetId: string, sheet: SheetEntry): seq<Step>
    requires Addressable(sheet.action, SheetRows(env, sheet))
  {
    Dos(Prelude(env, spreadsheetId, sheet)) + BatchSteps(env, spreadsheetId, sheet)
  }

  /** `uploadSheetValues`: the sheet's script, stopped by the first error. */
  function UploadSheetValues(remote: Remote, base: nat, env: Env, spreadsheetId: string, sheet: SheetEntry): Run<()>
    requires Addressable(sheet.action, SheetRows(env, sheet))
  {
    Exec(remote, base, SheetScript(env, spreadsheetId, sheet))
  }

  /** The `foreach` over the sheets: their scripts one after the other. */
  function SheetsScript(env: Env, spreadsheetId: string, sheets: seq<SheetEntry>): seq<Step>
    requires AllAddressable(env, sheets)
    decreases |sheets|
  {
    if |sheets| == 0 then []
    else SheetScript(env, spreadsheetId, sheets[0]) + SheetsScript(env, spreadsheetId, sheets[1..])
  }

  function UploadAll(remote: Remote, base: nat, env: Env, spreadsheetId: string, sheets: seq<SheetEntry>): Run<()>
    requires AllAddressable(env, sheets)
  {
    Exec(remote, base, SheetsScript(env, spreadsheetId, sheets))
  }

  /** The sheets are uploaded one at a time in declaration order, and the
      first sheet that fails ends the loop. */
  lemma UploadAllSheetBySheet(remote: Remote, base: nat, env: Env, spreadsheetId: string, sheets: seq<SheetEntry>)
    requires AllAddressable(env, sheets)
    requires |sheets| > 0
    ensures var first := UploadSheetValues(remote, base, env, spreadsheetId, sheets[0]);
      UploadAll(remote, base, env, spreadsheetId, sheets)
        == if first.out.Fail? then first
           else Then(first, UploadAll(remote, base + |first.calls|, env, spreadsheetId, sheets[1..]))
  {
    ExecConcat(remote, base, SheetScript(env, spreadsheetId, sheets[0]), SheetsScript(env, spreadsheetId, sheets[1..]));
  }

  /** The sheet script: the grid update first; the clear, for update only, as
      the second step; after that only value writes and, for an action other
      than update or append, a single raise. Every call addresses the
      spreadsheet. */
  lemma SheetScriptShape(env: Env, spreadsheetId: string, sheet: SheetEntry)
    requires Addressable(sheet.action, SheetRows(env, sheet))
    ensures var script := SheetScript(env, spreadsheetId, sheet);
      var rows := SheetRows(env, sheet);
      var first := if sheet.action == Update then 2 else 1;
      && |script| >= first
      && script[0] == Do(GridCall(spreadsheetId, sheet, env.countLines(rows), ColumnCount(rows)))
      && (sheet.action == Update ==> script[1] == Do(ClearCall(env, spreadsheetId, sheet)))
      && (forall i :: first <= i < |script| ==>
            (script[i].Do? && IsValueWrite(script[i].call)) || script[i] == Raise(NotAllowed(sheet.action)))
      && (forall i :: 0 <= i < |script| && script[i].Do? ==> Addresses(script[i].call, spreadsheetId))
  {
    SheetScriptSplit(env, spreadsheetId, sheet);
    BatchStepsShape(env, spreadsheetId, sheet);
  }

  /** The sheet script is the prelude (one or two calls) followed by the
      batch steps. */
  lemma SheetScriptSplit(env: Env, spreadsheetId: string, sheet: SheetEntry)
    requires Addressable(sheet.action, SheetRows(env, sheet))
    ensures var script := SheetScript(env, spreadsheetId, sheet);
      var steps := BatchSteps(env, spreadsheetId, sheet);
      var rows := SheetRows(env, sheet);
      var first := if sheet.action == Update then 2 else 1;
      && |script| == first + |steps|
      && script[0] == Do(GridCall(spreadsheetId, sheet, env.countLines(rows), ColumnCount(rows)))
      && (sheet.action == Update ==> script[1] == Do(ClearCall(env, spreadsheetId, sheet)))
      && (forall i :: first <= i < |script| ==> script[i] == steps[i - first])
  {
    var pre := Prelude(env, spreadsheetId, sheet);
    var first := if sheet.action == Update then 2 else 1;
    assert |pre| == first;
  }

  /** The batch loop's steps: value writes to the spreadsheet, or the raise. */
  lemma BatchStepsShape(env: Env, spreadsheetId: string, sheet: SheetEntry)
    requires Addressable(sheet.action, SheetRows(env, sheet))
    ensures var steps := BatchSteps(env, spreadsheetId, sheet);
      forall j :: 0 <= j < |steps| ==>
        (steps[j].Do? && IsValueWrite(steps[j].call) && Addresses(steps[j].call, spreadsheetId))
        || steps[j] == Raise(NotAllowed(sheet.action))
  {
    var rows := SheetRows(env, sheet);
    var read := Readable(rows);
    if |read| > 0 && (sheet.action == Update || sheet.action == Append) {
      var ideal := BatchCalls(env.urlencode, spreadsheetId, sheet, ColumnCount(rows), Plan(read, 1));
      assert forall j :: 0 <= j < |ideal| ==> IsValueWrite(ideal[j]) && Addresses(ideal[j], spreadsheetId);
    }
  }

  /** The calls of an upload, read off its script. */
  lemma UploadCalls(remote: Remote, base: nat, env: Env, spreadsheetId: string, sheet: SheetEntry)
    requires Addressable(sheet.action, SheetRows(env, sheet))
    ensures var r := UploadSheetValues(remote, base, env, spreadsheetId, sheet);
      var script := SheetScript(env, spreadsheetId, sheet);
      |r.calls| <= |script| && forall i :: 0 <= i < |r.calls| ==> script[i] == Do(r.calls[i])
  {
    var script := SheetScript(env, spreadsheetId, sheet);
    ExecIssuesPrefix(remote, base, script);
    IssuedSteps(script);
  }

  /** The sheet is cleared exactly when the action is update and the grid
      update went through, and the clear is then the second call. */
  lemma UploadClearsOnlyUpdates(remote: Remote, base: nat, env: Env, spreadsheetId: string, sheet: SheetEntry)
    requires Addressable(sheet.action, SheetRows(env, sheet))
    ensures var r := UploadSheetValues(remote, base, env, spreadsheetId, sheet);
      var rows := SheetRows(env, sheet);
      var grid := GridCall(spreadsheetId, sheet, env.countLines(rows), ColumnCount(rows));
      && ((exists i :: 0 <= i < |r.calls| && r.calls[i].ClearSpreadsheetValues?)
            <==> sheet.action == Update && remote(base, grid).Answer?)
      && (sheet.action == Update && remote(base, grid).Answer? ==> r.calls[1] == ClearCall(env, spreadsheetId, sheet))
  {
    var r := UploadSheetValues(remote, base, env, spreadsheetId, sheet);
    var script := SheetScript(env, spreadsheetId, sheet);
    var rows := SheetRows(env, sheet);
    var grid := GridCall(spreadsheetId, sheet, env.countLines(rows), ColumnCount(rows));
    SheetScriptShape(env, spreadsheetId, sheet);
    UploadCalls(remote, base, env, spreadsheetId, sheet);
    ExecStep(remote, base, script);
    if remote(base, grid).Answer? && sheet.action == Update {
      var clear := ClearCall(env, spreadsheetId, sheet);
      assert script[1..][0] == Do(clear);
      ExecStep(remote, base + 1, script[1..]);
      assert r.calls[1] == clear;
    }
  }

  /** Every value write comes after the grid update, and after the clear for
      an update sheet; every call after those is a value write. */
  lemma UploadValueWrites(remote: Remote, base: nat, env: Env, spreadsheetId: string, sheet: SheetEntry)
    requires Addressable(sheet.action, SheetRows(env, sheet))
    ensures var r := UploadSheetValues(remote, base, env, spreadsheetId, sheet);
      var first := if sheet.action == Update then 2 else 1;
      && (forall i :: 0 <= i < |r.calls| && IsValueWrite(r.calls[i]) ==> i >= first)
      && (forall i :: first <= i < |r.calls| ==> IsValueWrite(r.calls[i]))
  {
    SheetScriptShape(env, spreadsheetId, sheet);
    UploadCalls(remote, base, env, spreadsheetId, sheet);
  }

  /** A successful upload of an update or append sheet sends the grid update,
      the clear (update only), then every batch of the plan of the rows read
      before the end of the file or the first row without cells. */
  lemma UploadSendsPlan(remote: Remote, base: nat, env: Env, spreadsheetId: string, sheet: SheetEntry)
    requires Addressable(sheet.action, SheetRows(env, sheet))
    requires sheet.action == Update || sheet.action == Append
    ensures var r := UploadSheetValues(remote, base, env, spreadsheetId, sheet);
      var rows := SheetRows(env, sheet);
      r.out.Ok? ==>
        r.calls == Prelude(env, spreadsheetId, sheet)
          + BatchCalls(env.urlencode, spreadsheetId, sheet, ColumnCount(rows), Plan(Readable(rows), 1))
  {
    var rows := SheetRows(env, sheet);
    var read := Readable(rows);
    ReadablePrefix(rows);
    var script := SheetScript(env, spreadsheetId, sheet);
    var batches := BatchCalls(env.urlencode, spreadsheetId, sheet, ColumnCount(rows), Plan(read, 1));
    ExecSucceeds(remote, base, script);
    IssuedDos(Prelude(env, spreadsheetId, sheet), BatchSteps(env, spreadsheetId, sheet));
    IssuedDos(batches, []);
    assert batches + [] == batches;
    if |read| == 0 {
      assert Plan(read, 1) == [];
      assert batches == [];
    } else {
      assert Dos(batches) + [] == Dos(batches);
    }
  }

  /** Any other action writes no value: only the grid update goes out, and the
      upload fails unless the reader yields no row. */
  lemma UploadRejectsOtherActions(remote: Remote, base: nat, env: Env, spreadsheetId: string, sheet: SheetEntry)
    requires sheet.action != Update && sheet.action != Append
    ensures var r := UploadSheetValues(remote, base, env, spreadsheetId, sheet);
      var rows := SheetRows(env, sheet);
      var grid := GridCall(spreadsheetId, sheet, env.countLines(rows), ColumnCount(rows));
      && r.calls == [grid]
      && (r.out.Ok? <==> remote(base, grid).Answer? && |Readable(rows)| == 0)
      && (remote(base, grid).Answer? && |Readable(rows)| > 0 ==> r.out == Fail(NotAllowed(sheet.action)))
  {
    var rows := SheetRows(env, sheet);
    var grid := GridCall(spreadsheetId, sheet, env.countLines(rows), ColumnCount(rows));
    var script := SheetScript(env, spreadsheetId, sheet);
    assert script[0] == Do(grid) && script[1..] == BatchSteps(env, spreadsheetId, sheet);
    ExecStep(remote, base, script);
    if |Readable(rows)| > 0 {
      ExecStep(remote, base + 1, script[1..]);
    }
  }

  /** `getCreateSpreadsheet`: fetch the spreadsheet; on a 404 create a
      spreadsheet-typed file from the table with the declared parents and
      fetch that one by its new id; any other error status escapes. */
  function GetCreateSpreadsheet(remote: Remote, base: nat, env: Env, s: SpreadsheetEntry): (r: Run<Reply>)
    ensures 1 <= |r.calls| <= 3 && r.calls[0] == GetSpreadsheet(s.fileId)
    ensures forall i :: 0 <= i < |r.calls| ==> r.calls[i].GetSpreadsheet? || r.calls[i].CreateFile?
  {
    var first := Ask(remote, base, GetSpreadsheet(s.fileId));
    if first.out.Ok? || first.out.failure.status != 404 then first
    else
      var create := Ask(remote, base + 1, CreateFile(TablePath(env.dataDir, s.tableId), s.title,
        map["parents" := Strs(s.parents), "mimeType" := JStr(MimeSpreadsheet)]));
      if create.out.Fail? then Then(first, create)
      else Then(first, Then(create, Ask(remote, base + 2, GetSpreadsheet(create.out.value.id))))
  }

  /** The three ways `getCreateSpreadsheet` goes: the spreadsheet exists;
      a status other than 404 escapes; a 404 creates a spreadsheet file
      from the table and fetches it by its new id. */
  lemma GetCreateSpreadsheetOutcomes(remote: Remote, base: nat, env: Env, s: SpreadsheetEntry)
    ensures var r := GetCreateSpreadsheet(remote, base, env, s);
      var first := remote(base, GetSpreadsheet(s.fileId));
      && (first.Answer? ==> r == Run([GetSpreadsheet(s.fileId)], Ok(first.reply)))
      && (first.HttpError? && first.status != 404 ==>
            r == Run([GetSpreadsheet(s.fileId)], Fail(RequestError(first.status, first.reason))))
      && (first.HttpError? && first.status == 404 ==>
            |r.calls| >= 2 && r.calls[1] == CreateFile(TablePath(env.dataDir, s.tableId), s.title,
              map["parents" := Strs(s.parents), "mimeType" := JStr(MimeSpreadsheet)]))
      && (|r.calls| == 3 ==> (remote(base + 1, r.calls[1]).Answer?
            && r.calls[2] == GetSpreadsheet(remote(base + 1, r.calls[1]).reply.id)))
  {
  }

  /** The `catch (ClientException)` around the sheet uploads: a 4xx error
      becomes a UserException carrying the client's message; anything else
      passes through. */
  function CatchClientError(r: Run<()>, message: (int, string) -> string): Run<()> {
    if r.out.Fail? && r.out.failure.RequestError? && 400 <= r.out.failure.status < 500
    then Run(r.calls, Fail(UserError(message(r.out.failure.status, r.out.failure.reason), 0)))
    else r
  }

  /** `process`: find or create the spreadsheet, then read, sync and fill
      the configured file. */
  function Process(remote: Remote, base: nat, env: Env, s: SpreadsheetEntry): (r: Run<()>)
    requires AllAddressable(env, s.sheets)
  {
    var created := GetCreateSpreadsheet(remote, base, env, s);
    if created.out.Fail? then Stop(created)
    else Then(created, ReadSyncUpload(remote, base + |created.calls|, env, s))
  }

  /** The rest of `process`: read the file's metadata by the configured id,
      sync it, upload every sheet. */
  function ReadSyncUpload(remote: Remote, base: nat, env: Env, s: SpreadsheetEntry): (r: Run<()>)
    requires AllAddressable(env, s.sheets)
  {
    var file := Ask(remote, base, GetFile(s.fileId, ["id", "name", "parents"]));
    if file.out.Fail? then Stop(file)
    else Then(file, SyncUpload(remote, base + 1, env, s, file.out.value))
  }

  function SyncUpload(remote: Remote, base: nat, env: Env, s: SpreadsheetEntry, file: Reply): (r: Run<()>)
    requires AllAddressable(env, s.sheets)
  {
    AfterSync(remote, base, env, s, Sync(remote, base, env.numEq, s.title, s.parents, file))
  }

  /** The sheet uploads that follow a successful metadata sync `sync`. */
  function AfterSync(remote: Remote, base: nat, env: Env, s: SpreadsheetEntry, sync: Run<()>): (r: Run<()>)
    requires AllAddressable(env, s.sheets)
  {
    if sync.out.Fail? then sync
    else Then(sync, CatchClientError(UploadAll(remote, base + |sync.calls|, env, s.fileId, s.sheets), env.message))
  }

  /** The call addresses the spreadsheet (or file) with id `id`. */
  predicate Addresses(c: Call, id: string) {
    match c
    case GetFile(i, _) => i == id
    case GetSpreadsheet(i) => i == id
    case BatchUpdateSpreadsheet(i, _) => i == id
    case ClearSpreadsheetValues(i, _) => i == id
    case UpdateSpreadsheetValues(i, _, _) => i == id
    case AppendSpreadsheetValues(i, _, _) => i == id
    case _ => false
  }

  /** Every call of `calls` addresses spreadsheet `id`. */
  predicate AllAddress(calls: seq<Call>, id: string) {
    forall i :: 0 <= i < |calls| ==> Addresses(calls[i], id)
  }

  /** Every call step of `steps` addresses spreadsheet `id`. */
  predicate StepsAddress(steps: seq<Step>, id: string) {
    forall i :: 0 <= i < |steps| && steps[i].Do? ==> Addresses(steps[i].call, id)
  }

  lemma {:induction false} SheetsScriptAddresses(env: Env, spreadsheetId: string, sheets: seq<SheetEntry>)
    requires AllAddressable(env, sheets)
    ensures StepsAddress(SheetsScript(env, spreadsheetId, sheets), spreadsheetId)
    decreases |sheets|
  {
    if |sheets| > 0 {
      var a := SheetScript(env, spreadsheetId, sheets[0]);
      var b := SheetsScript(env, spreadsheetId, sheets[1..]);
      SheetScriptShape(env, spreadsheetId, sheets[0]);
      SheetsScriptAddresses(env, spreadsheetId, sheets[1..]);
      var ab: seq<Step> := a + b;
      forall i | 0 <= i < |ab| && ab[i].Do? ensures Addresses(ab[i].call, spreadsheetId) {
        if i >= |a| {
          assert ab[i] == b[i - |a|];
        }
      }
    }
  }

  /** Every call of the sheet uploads addresses the given spreadsheet. */
  lemma UploadAllAddresses(remote: Remote, base: nat, env: Env, spreadsheetId: string, sheets: seq<SheetEntry>)
    requires AllAddressable(env, sheets)
    ensures AllAddress(UploadAll(remote, base, env, spreadsheetId, sheets).calls, spreadsheetId)
  {
    var script := SheetsScript(env, spreadsheetId, sheets);
    SheetsScriptAddresses(env, spreadsheetId, sheets);
    ExecIssuesPrefix(remote, base, script);
    IssuedSteps(script);
  }

  /** Every value write of `calls` goes to spreadsheet `id`. */
  predicate WritesTo(calls: seq<Call>, id: string) {
    forall i :: 0 <= i < |calls| && IsValueWrite(calls[i]) ==> Addresses(calls[i], id)
  }

  lemma WritesToConcat(a: seq<Call>, b: seq<Call>, id: string)
    requires WritesTo(a, id) && WritesTo(b, id)
    ensures WritesTo(a + b, id)
  {
    forall i | 0 <= i < |a + b| && IsValueWrite((a + b)[i]) ensures Addresses((a + b)[i], id) {
      if i >= |a| {
        assert (a + b)[i] == b[i - |a|];
      }
    }
  }

  lemma SyncUploadWrites(remote: Remote, base: nat, env: Env, s: SpreadsheetEntry, file: Reply)
    requires AllAddressable(env, s.sheets)
    ensures WritesTo(SyncUpload(remote, base, env, s, file).calls, s.fileId)
  {
    SyncWritesNothing(remote, base, env.numEq, s.title, s.parents, file, s.fileId);
    AfterSyncWrites(remote, base, env, s, Sync(remote, base, env.numEq, s.title, s.parents, file));
  }

  lemma AfterSyncWrites(remote: Remote, base: nat, env: Env, s: SpreadsheetEntry, sync: Run<()>)
    requires AllAddressable(env, s.sheets)
    requires WritesTo(sync.calls, s.fileId)
    ensures WritesTo(AfterSync(remote, base, env, s, sync).calls, s.fileId)
  {
    if sync.out.Ok? {
      var next := base + |sync.calls|;
      UploadAllWrites(remote, next, env, s.fileId, s.sheets);
      var upload := CatchClientError(UploadAll(remote, next, env, s.fileId, s.sheets), env.message);
      WritesToConcat(sync.calls, upload.calls, s.fileId);
      assert AfterSync(remote, base, env, s, sync).calls == sync.calls + upload.calls;
    }
  }

  /** The metadata sync writes no value. */
  lemma SyncWritesNothing(remote: Remote, base: nat, numEq: NumEq, title: string, parents: seq<string>, file: Reply, id: string)
    ensures WritesTo(Sync(remote, base, numEq, title, parents, file).calls, id)
  {
  }

  /** Every value the uploads write, with client errors caught, goes to spreadsheet `id`. */
  lemma UploadAllWrites(remote: Remote, base: nat, env: Env, id: string, sheets: seq<SheetEntry>)
    requires AllAddressable(env, sheets)
    ensures WritesTo(CatchClientError(UploadAll(remote, base, env, id, sheets), env.message).calls, id)
  {
    UploadAllAddresses(remote, base, env, id, sheets);
  }

  lemma ReadSyncUploadWrites(remote: Remote, base: nat, env: Env, s: SpreadsheetEntry)
    requires AllAddressable(env, s.sheets)
    ensures ReadSyncUpload(remote, base, env, s).calls[0] == GetFile(s.fileId, ["id", "name", "parents"])
    ensures WritesTo(ReadSyncUpload(remote, base, env, s).calls, s.fileId)
  {
    var getFile := GetFile(s.fileId, ["id", "name", "parents"]);
    var file := Ask(remote, base, getFile);
    if file.out.Ok? {
      SyncUploadWrites(remote, base + 1, env, s, file.out.value);
      WritesToConcat([getFile], SyncUpload(remote, base + 1, env, s, file.out.value).calls, s.fileId);
    }
  }

  /** Even after a 404 made it create a new file, `process` reads the file
      metadata by the configured `fileId`, not by the id of the file it
      created. */
  lemma ProcessReadsConfiguredFile(remote: Remote, base: nat, env: Env, s: SpreadsheetEntry)
    requires AllAddressable(env, s.sheets)
    ensures var r := Process(remote, base, env, s);
      var created := GetCreateSpreadsheet(remote, base, env, s);
      created.out.Ok? ==> r.calls[|created.calls|] == GetFile(s.fileId, ["id", "name", "parents"])
  {
    var created := GetCreateSpreadsheet(remote, base, env, s);
    if created.out.Ok? {
      var next := base + |created.calls|;
      ReadSyncUploadWrites(remote, next, env, s);
      var rest := ReadSyncUpload(remote, next, env, s);
      assert Process(remote, base, env, s).calls == created.calls + rest.calls;
    }
  }

  /** Looking up or creating the spreadsheet writes no value. */
  lemma GetCreateWritesNothing(remote: Remote, base: nat, env: Env, s: SpreadsheetEntry, id: string)
    ensures WritesTo(GetCreateSpreadsheet(remote, base, env, s).calls, id)
  {
  }

  /** Every value `process` writes goes to the configured `fileId`. */
  lemma ProcessKeepsConfiguredId(remote: Remote, base: nat, env: Env, s: SpreadsheetEntry)
    requires AllAddressable(env, s.sheets)
    ensures WritesTo(Process(remote, base, env, s).calls, s.fileId)
  {
    var created := GetCreateSpreadsheet(remote, base, env, s);
    GetCreateWritesNothing(remote, base, env, s, s.fileId);
    if created.out.Ok? {
      var next := base + |created.calls|;
      ReadSyncUploadWrites(remote, next, env, s);
      var rest := ReadSyncUpload(remote, next, env, s);
      WritesToConcat(created.calls, rest.calls, s.fileId);
      assert Process(remote, base, env, s).calls == created.calls + rest.calls;
    }
  }

  /** `process` with the follow-up calls addressed to the spreadsheet that
      `getCreateSpreadsheet` returned, so that after a 404 the new file is
      read, synced and filled instead of the missing one. */
  function ProcessFound(remote: Remote, base: nat, env: Env, s: SpreadsheetEntry): (r: Run<()>)
    requires AllAddressable(env, s.sheets)
  {
    var created := GetCreateSpreadsheet(remote, base, env, s);
    if created.out.Fail? then Stop(created)
    else Then(created, ReadSyncUpload(remote, base + |created.calls|, env, s.(fileId := created.out.value.id)))
  }

  /** In the corrected `process`, the metadata read and every value write
      address the spreadsheet `getCreateSpreadsheet` returned. */
  lemma ProcessFoundAddressesFound(remote: Remote, base: nat, env: Env, s: SpreadsheetEntry)
    requires AllAddressable(env, s.sheets)
    ensures var r := ProcessFound(remote, base, env, s);
      var created := GetCreateSpreadsheet(remote, base, env, s);
      created.out.Ok? ==>
        && r.calls[|created.calls|] == GetFile(created.out.value.id, ["id", "name", "parents"])
        && WritesTo(r.calls, created.out.value.id)
  {
    var created := GetCreateSpreadsheet(remote, base, env, s);
    if created.out.Ok? {
      var found := created.out.value.id;
      var next := base + |created.calls|;
      GetCreateWritesNothing(remote, base, env, s, found);
      ReadSyncUploadWrites(remote, next, env, s.(fileId := found));
      var rest := ReadSyncUpload(remote, next, env, s.(fileId := found));
      WritesToConcat(created.calls, rest.calls, found);
      assert ProcessFound(remote, base, env, s).calls == created.calls + rest.calls;
    }
  }
}

=== FILE: text.dfy ===
/** Decimal rendering of integers (PHP string interpolation of an int),
    `implode`/`explode` on one separator character, and affix helpers. */
module Text {

  predicate IsDigit(c: char) {
    '0' <= c <= '9'
  }

  predicate AllDigits(s: string) {
    forall i :: 0 <= i < |s| ==> IsDigit(s[i])
  }

  function DigitChar(d: int): char
    requires 0 <= d < 10
  {
    ('0' as int + d) as char
  }

  /** The decimal digits of `n`, most significant first, without leading zeros. */
  function NatToString(n: nat): (r: string)
    ensures |r| >= 1 && AllDigits(r)
    decreases n
  {
    if n < 10 then [DigitChar(n)] else NatToString(n / 10) + [DigitChar(n % 10)]
  }

  /** How PHP renders an int inside a string. */
  function IntToString(n: int): string {
    if n < 0 then "-" + NatToString(-n) else NatToString(n)
  }

  /** The value of a string of decimal digits. */
  function ParseNat(s: string): nat
    requires AllDigits(s)
  {
    if |s| == 0 then 0 else ParseNat(s[..|s| - 1]) * 10 + (s[|s| - 1] as int - '0' as int)
  }

  lemma {:induction false} ParseNatToString(n: nat)
    ensures ParseNat(NatToString(n)) == n
    decreases n
  {
    if n >= 10 {
      var s := NatToString(n);
      assert s[..|s| - 1] == NatToString(n / 10);
      ParseNatToString(n / 10);
    }
  }

  /** PHP `implode(sep, xs)`. */
  function Join(xs: seq<string>, sep: char): string {
    if |xs| == 0 then "" else if |xs| == 1 then xs[0] else xs[0] + [sep] + Join(xs[1..], sep)
  }

  /** PHP `explode(sep, s)`: the pieces between separators, at least one. */
  function Split(s: string, sep: char): (r: seq<string>)
    ensures |r| >= 1
  {
    if |s| == 0 then [""]
    else
      var rest := Split(s[1..], sep);
      if s[0] == sep then [""] + rest else [[s[0]] + rest[0]] + rest[1..]
  }

  lemma {:induction false} SplitPrefix(a: string, t: string, sep: char)
    requires sep !in a
    ensures Split(a + t, sep) == [a + Split(t, sep)[0]] + Split(t, sep)[1..]
    decreases |a|
  {
    if |a| > 0 {
      assert (a + t)[1..] == a[1..] + t;
      SplitPrefix(a[1..], t, sep);
      assert [a[0]] + (a[1..] + Split(t, sep)[0]) == a + Split(t, sep)[0];
    } else {
      var r := Split(t, sep);
      assert a + t == t && a + r[0] == r[0];
      assert r == [r[0]] + r[1..];
    }
  }

  /** Joining pieces that do not contain the separator and splitting again gives the pieces back. */
  lemma {:induction false} SplitJoin(xs: seq<string>, sep: char)
    requires |xs| >= 1
    requires forall i :: 0 <= i < |xs| ==> sep !in xs[i]
    ensures Split(Join(xs, sep), sep) == xs
    decreases |xs|
  {
    if |xs| == 1 {
      SplitPrefix(xs[0], "", sep);
      assert xs[0] + "" == xs[0];
    } else {
      var tail := Join(xs[1..], sep);
      SplitJoin(xs[1..], sep);
      assert Join(xs, sep) == xs[0] + ([sep] + tail);
      SplitPrefix(xs[0], [sep] + tail, sep);
      assert ([sep] + tail)[1..] == tail;
      assert Split([sep] + tail, sep) == [""] + Split(tail, sep);
      assert xs[0] + "" == xs[0];
      assert xs == [xs[0]] + xs[1..];
    }
  }

  predicate StartsWith(s: string, prefix: string) {
    |prefix| <= |s| && s[..|prefix|] == prefix
  }

  predicate EndsWith(s: string, suffix: string) {
    |suffix| <= |s| && s[|s| - |suffix|..] == suffix
  }
}

=== FILE: writer.dfy ===
/** The table and file planner (Writer.php): which Drive calls each enabled
    table entry and each uploaded file lead to, how the create parameters are
    assembled, and how a 403 is reported. The Drive client it drives is an
    external library, so each of its calls is one remote call here. */
module Writer {
  import opened Base
  import opened Json
  import opened Text
  import opened Calls
  import opened Config
  import opened Input
  import opened Php

  /** The retry count the writer sets on its API client. */
  const BackoffsCount: nat := 7

  /** The three reasons the 403 backoff callback refuses to retry. */
  const NoRetryReasons: set<string> := {"insufficientPermissions", "dailyLimitExceeded", "usageLimits.userRateLimitExceededUnreg"}

  /** The fields `getFile` asks for when none are given. */
  const DefaultFields: seq<string> := ["kind", "id", "name", "mimeType", "parents"]

  /** What the planner uses besides the remote service: the data directory,
      the `date('Y-m-d H:i:s')` of the run, the MIME type guessed from a
      file name, and the `name` a file's manifest holds, when the manifest
      exists and has one. */
  datatype Env = Env(dataDir: string, now: string, mimeOf: string -> string, manifestName: string -> Option<string>)

  /** The array handed from one step of the planner to the next; the table
      id is the configured scalar, null when there is none. */
  datatype Job = Job(inputFile: string, tableId: Json, fileId: string, title: string, folder: Option<Folder>, convert: bool)

  /** What processing a table yields: the file the service returned, or the
      warning status of a forbidden resource. */
  datatype TableResult = Written(file: Reply) | Warning

  /** The file `createFileMetadata` returns, with the folder it was put in. */
  datatype Placed = Placed(file: Reply, folder: Folder)

  /** `$file['folder']['id']` when it is set. */
  function FolderId(folder: Option<Folder>): Option<string> {
    if folder.Some? then folder.value.id else None
  }

  /** The 403 backoff callback: retry unless the reason says the permissions
      or the quota are exhausted. */
  predicate Retry403(reason: string) {
    reason != "insufficientPermissions" && reason != "dailyLimitExceeded" && reason != "usageLimits.userRateLimitExceededUnreg"
  }

  /** The callback refuses exactly the three quota and permission reasons;
      `forbidden` is retried. */
  lemma Retry403Refuses(reason: string)
    ensures !Retry403(reason) <==> reason in NoRetryReasons
    ensures Retry403("forbidden")
  {
  }

  /** `handleError403`: a forbidden resource is a warning, any other 403 a user error. */
  function HandleError403(reason: string): (r: Outcome<TableResult>)
    ensures r.Ok? ==> r.value == Warning
    ensures r.Fail? ==> r.failure == UserError("Reason: " + reason, 403)
  {
    if Lower(reason) == "forbidden" then Ok(Warning)
    else Fail(UserError("Reason: " + reason, 403))
  }

  /** The warning is given exactly for the reason `forbidden` spelled in any
      mixture of cases, with nothing around it. */
  lemma HandleError403Iff(reason: string)
    ensures HandleError403(reason).Ok? <==> |reason| == 9 && forall i :: 0 <= i < 9 ==> CaseVariant(reason[i], "forbidden"[i])
  {
    LowerEqualsIff(reason, "forbidden");
  }

  /** `getInputFile`: the uploaded file when one is named, else the table's
      CSV. `getInputTablePath` declares a string parameter and Writer.php
      declares strict types, so a non-empty table id that is not a string
      (a number, or true) raises a TypeError. */
  function GetInputFile(dataDir: string, job: Job): (r: Outcome<string>)
    ensures r.Ok? <==> !PhpEmpty(job.inputFile) || (job.tableId.JStr? && !PhpEmpty(job.tableId.s))
    ensures PhpEmpty(job.inputFile) && EmptyValue(job.tableId) ==> r == Fail(AppError("No input file or table specified", 0))
    ensures PhpEmpty(job.inputFile) && !EmptyValue(job.tableId) && !job.tableId.JStr? ==> r.Fail? && r.failure.EngineError?
  {
    if !PhpEmpty(job.inputFile) then Ok(FilePath(dataDir, job.inputFile))
    else if !EmptyValue(job.tableId) then
      if job.tableId.JStr? then Ok(TablePath(dataDir, job.tableId.s))
      else Fail(EngineError("getInputTablePath(): Argument #1 ($tableId) must be of type string"))
    else Fail(AppError("No input file or table specified", 0))
  }

  /** A named input file wins over the table: the path is the file's exactly
      when a file is named, and the table's CSV otherwise. */
  lemma InputFileWins(dataDir: string, job: Job)
    requires GetInputFile(dataDir, job).Ok?
    ensures GetInputFile(dataDir, job).value == FilePath(dataDir, job.inputFile) <==> !PhpEmpty(job.inputFile)
    ensures PhpEmpty(job.inputFile) ==> GetInputFile(dataDir, job).value == TablePath(dataDir, job.tableId.s)
  {
    if PhpEmpty(job.inputFile) {
      TableAndFilePathsDiffer(dataDir, job.tableId.s, job.inputFile);
    }
  }

  /** The parameters `createFile` sends: the spreadsheet MIME type when the
      file is converted and the guessed one otherwise, the id when a non-empty
      one is configured, the folder as sole parent when its id is set. */
  function CreateParams(env: Env, job: Job, pathname: string): (r: map<string, Json>)
    ensures r.Keys <= {"mimeType", "id", "parents"}
    ensures "mimeType" in r && r["mimeType"] == JStr(if job.convert then MimeSpreadsheet else env.mimeOf(pathname))
    ensures "id" in r <==> !PhpEmpty(job.fileId)
    ensures "id" in r ==> r["id"] == JStr(job.fileId)
    ensures "parents" in r <==> FolderId(job.folder).Some?
    ensures "parents" in r ==> r["parents"] == Strs([FolderId(job.folder).value])
  {
    var m := map["mimeType" := JStr(env.mimeOf(pathname))];
    var m := if !PhpEmpty(job.fileId) then m["id" := JStr(job.fileId)] else m;
    var m := if FolderId(job.folder).Some? then m["parents" := Strs([FolderId(job.folder).value])] else m;
    if job.convert then m["mimeType" := JStr(MimeSpreadsheet)] else m
  }

  /** `createFile`: one upload of the input file under the job's title. */
  function CreateFileRun(remote: Remote, base: nat, env: Env, job: Job): (r: Run<Reply>)
    ensures r.calls == [] <==> GetInputFile(env.dataDir, job).Fail?
    ensures r.calls == [] ==> r.out == Fail(GetInputFile(env.dataDir, job).failure)
    ensures r.calls != [] ==>
      && |r.calls| == 1
      && r.calls[0] == CreateFile(GetInputFile(env.dataDir, job).value, job.title, CreateParams(env, job, GetInputFile(env.dataDir, job).value))
  {
    match GetInputFile(env.dataDir, job)
    case Fail(f) => Run([], Fail(f))
    case Ok(pathname) => Ask(remote, base, CreateFile(pathname, job.title, CreateParams(env, job, pathname)))
  }

  /** The configured title with the run's timestamp appended. */
  function Stamped(title: string, now: string): string {
    title + " (" + now + ")"
  }

  /** The stamped title starts with the configured one and differs from it. */
  lemma StampedExtends(title: string, now: string)
    ensures StartsWith(Stamped(title, now), title) && EndsWith(Stamped(title, now), ")")
    ensures Stamped(title, now) != title
    ensures Stamped(title, now)[..|title|] == title
  {
    assert |Stamped(title, now)| == |title| + |now| + 3;
  }

  /** `create`: `createFile` under the stamped title. */
  function CreateRun(remote: Remote, base: nat, env: Env, job: Job): (r: Run<Reply>)
    ensures r.calls != [] ==> r.calls[0].CreateFile? && r.calls[0].title == Stamped(job.title, env.now)
  {
    CreateFileRun(remote, base, env, job.(title := Stamped(job.title, env.now)))
  }

  /** The metadata `updateFile` sends: the title, and the folder as a parent
      to add when its id is non-empty. */
  function UpdateParams(job: Job): (r: map<string, Json>)
    ensures "name" in r && r["name"] == JStr(job.title)
    ensures "addParents" in r <==> FolderId(job.folder).Some? && !PhpEmpty(FolderId(job.folder).value)
    ensures "addParents" in r ==> r["addParents"] == Strs([FolderId(job.folder).value])
    ensures r.Keys <= {"name", "addParents"}
  {
    var m := map["name" := JStr(job.title)];
    if FolderId(job.folder).Some? && !PhpEmpty(FolderId(job.folder).value) then m["addParents" := Strs([FolderId(job.folder).value])]
    else m
  }

  /** `update`: probe the configured file; overwrite it when it exists, create
      it otherwise. */
  function UpdateRun(remote: Remote, base: nat, env: Env, job: Job): (r: Run<Reply>)
    ensures 1 <= |r.calls| <= 2 && r.calls[0] == FileExists(job.fileId)
    ensures |r.calls| == 2 ==> r.calls[1].UpdateFile? || r.calls[1].CreateFile?
  {
    var probe := Ask(remote, base, FileExists(job.fileId));
    if probe.out.Fail? then Stop(probe)
    else if probe.out.value.found then
      match GetInputFile(env.dataDir, job)
      case Fail(f) => Run(probe.calls, Fail(f))
      case Ok(pathname) => Then(probe, Ask(remote, base + 1, UpdateFile(job.fileId, pathname, UpdateParams(job))))
    else Then(probe, CreateFileRun(remote, base + 1, env, job))
  }

  /** An existing file is overwritten in place under the configured title;
      a missing one is created from the same job, title unstamped; a refused
      probe ends the update. */
  lemma UpdateOutcomes(remote: Remote, base: nat, env: Env, job: Job)
    ensures var r := UpdateRun(remote, base, env, job);
      && (remote(base, FileExists(job.fileId)).HttpError? ==>
            r == Run([FileExists(job.fileId)], Fail(RequestError(remote(base, FileExists(job.fileId)).status, remote(base, FileExists(job.fileId)).reason))))
      && (remote(base, FileExists(job.fileId)).Answer? && remote(base, FileExists(job.fileId)).reply.found ==>
            && (|r.calls| == 2 <==> GetInputFile(env.dataDir, job).Ok?)
            && (|r.calls| == 2 ==> r.calls[1] == UpdateFile(job.fileId, GetInputFile(env.dataDir, job).value, UpdateParams(job))))
      && (remote(base, FileExists(job.fileId)).Answer? && !remote(base, FileExists(job.fileId)).reply.found ==>
            r.calls[1..] == CreateFileRun(remote, base + 1, env, job).calls && r.out == CreateFileRun(remote, base + 1, env, job).out)
  {
  }

  /** The job a table entry starts: no uploaded file, everything else from the entry. */
  function TableJob(t: TableEntry): Job {
    Job("", t.tableId, t.fileId, t.title, t.folder, t.convert)
  }

  /** Reading a key the array does not have. PHP 8 reports the warning to
      the handler bootstrap.php installs with four arguments, but that
      handler declares five, so the call of the handler itself raises this
      ArgumentCountError (an engine error); the ErrorException the handler
      means to throw is never reached. */
  const HandlerArgumentCount: Failure :=
    EngineError("Too few arguments to function {closure}(), 4 passed and exactly 5 expected")

  /** The body of `processTable`'s try block: read the action (an entry
      without one stops here), then create, update, or reject it. */
  function Dispatch(remote: Remote, base: nat, env: Env, t: TableEntry): (r: Run<Reply>)
    ensures t.action.None? ==> r == Run([], Fail(HandlerArgumentCount))
    ensures t.action.Some? && t.action != Some(Create) && t.action != Some(Update) ==>
      r == Run([], Fail(AppError("Action '" + t.action.value.Name() + "' doesn't exist. Use either 'create' or 'update'", 0)))
  {
    if t.action.None? then Run([], Fail(HandlerArgumentCount))
    else if t.action == Some(Create) then CreateRun(remote, base, env, TableJob(t))
    else if t.action == Some(Update) then UpdateRun(remote, base, env, TableJob(t))
    else Run([], Fail(AppError("Action '" + t.action.value.Name() + "' doesn't exist. Use either 'create' or 'update'", 0)))
  }

  /** Create begins with the stamped upload, update with the probe of the configured file. */
  lemma DispatchRoutes(remote: Remote, base: nat, env: Env, t: TableEntry)
    ensures t.action == Some(Create) && Dispatch(remote, base, env, t).calls != [] ==>
      && Dispatch(remote, base, env, t).calls[0].CreateFile?
      && Dispatch(remote, base, env, t).calls[0].title == Stamped(t.title, env.now)
    ensures t.action == Some(Update) ==> Dispatch(remote, base, env, t).calls[0] == FileExists(t.fileId)
  {
  }

  /** `processTable`: the dispatch, with a 403 from the service handed to
      `handleError403` and every other failure passed on unchanged. */
  function ProcessTable(remote: Remote, base: nat, env: Env, t: TableEntry): (r: Run<TableResult>)
    ensures r.calls == Dispatch(remote, base, env, t).calls
    ensures Dispatch(remote, base, env, t).out.Ok? ==> r.out == Ok(Written(Dispatch(remote, base, env, t).out.value))
    ensures var f := Dispatch(remote, base, env, t).out;
      f.Fail? && f.failure.RequestError? && f.failure.status == 403 ==>
        && (r.out.Ok? <==> Lower(f.failure.reason) == "forbidden")
        && (r.out.Ok? ==> r.out == Ok(Warning))
        && (r.out.Fail? ==> r.out.failure == UserError("Reason: " + f.failure.reason, 403))
    ensures var f := Dispatch(remote, base, env, t).out;
      f.Fail? && !(f.failure.RequestError? && f.failure.status == 403) ==> r.out == Fail(f.failure)
  {
    var d := Dispatch(remote, base, env, t);
    if d.out.Ok? then Run(d.calls, Ok(Written(d.out.value)))
    else if d.out.failure.RequestError? && d.out.failure.status == 403 then Run(d.calls, HandleError403(d.out.failure.reason))
    else Run(d.calls, Fail(d.out.failure))
  }

  /** A table ends in the warning exactly when the service refused one of its
      calls with a 403 whose reason is `forbidden` in any case. */
  lemma ProcessTableWarns(remote: Remote, base: nat, env: Env, t: TableEntry)
    ensures var f := Dispatch(remote, base, env, t).out;
      ProcessTable(remote, base, env, t).out == Ok(Warning) <==>
        f.Fail? && f.failure.RequestError? && f.failure.status == 403 && Lower(f.failure.reason) == "forbidden"
  {
  }

  predicate Enabled(t: TableEntry) {
    t.enabled
  }

  /** `processTable` as a step of a run. */
  function TableStep(remote: Remote, env: Env): (nat, TableEntry) -> Run<TableResult> {
    (b: nat, t: TableEntry) => ProcessTable(remote, b, env, t)
  }

  /** `processTables`: the enabled entries in order, one result each; the
      first failure that escapes a table ends the run. */
  function ProcessTables(remote: Remote, base: nat, env: Env, tables: seq<TableEntry>): (r: Run<seq<TableResult>>)
    ensures r.out.Ok? ==> |r.out.value| == |Filter(tables, Enabled)|
  {
    EachCount(TableStep(remote, env), base, Filter(tables, Enabled));
    Each(TableStep(remote, env), base, Filter(tables, Enabled))
  }

  /** A disabled entry, wherever it stands, changes neither the calls nor the results. */
  lemma DisabledChangesNothing(remote: Remote, base: nat, env: Env, before: seq<TableEntry>, t: TableEntry, after: seq<TableEntry>)
    requires !t.enabled
    ensures ProcessTables(remote, base, env, before + [t] + after) == ProcessTables(remote, base, env, before + after)
  {
    FilterConcat(before + [t], after, Enabled);
    FilterConcat(before, [t], Enabled);
    FilterConcat(before, after, Enabled);
    assert Filter([t], Enabled) == [];
    assert Filter(before, Enabled) + [] == Filter(before, Enabled);
  }

  /** With every entry disabled nothing is called and nothing is returned. */
  lemma {:induction false} NothingEnabled(remote: Remote, base: nat, env: Env, tables: seq<TableEntry>)
    requires forall i :: 0 <= i < |tables| ==> !tables[i].enabled
    ensures ProcessTables(remote, base, env, tables) == Run([], Ok([]))
  {
  }

  /** `tryParseNameFromManifest` on the file's real path: the manifest's
      name when it is non-empty, the file name (without its directories)
      otherwise. */
  function FileTitle(env: Env, name: string): (t: string)
    ensures env.manifestName(FilePath(env.dataDir, name)).None? ==> t == Basename(name)
  {
    var m := env.manifestName(FilePath(env.dataDir, name));
    if m.Some? && !PhpEmpty(m.value) then m.value else Basename(name)
  }

  /** The listing query for files named `title` that are not in the trash. */
  function NameQuery(title: string): string {
    "trashed=false and name='" + title + "'"
  }

  /** A run whose result is dropped. */
  function Done<A>(r: Run<A>): (d: Run<()>)
    ensures d.calls == r.calls && (d.out.Ok? <==> r.out.Ok?)
    ensures d.out.Fail? ==> d.out.failure == r.out.failure
  {
    Run(r.calls, if r.out.Fail? then Fail(r.out.failure) else Ok(()))
  }

  /** What follows the listing of an uploaded file: update the first match,
      or create the file when nothing matched. */
  function Adopt(remote: Remote, base: nat, env: Env, job: Job, matches: seq<string>): (r: Run<Reply>)
    ensures forall i :: 0 <= i < |r.calls| ==> r.calls[i].FileExists? || r.calls[i].UpdateFile? || r.calls[i].CreateFile?
  {
    if |matches| > 0 then UpdateRun(remote, base, env, job.(fileId := matches[0]))
    else CreateFileRun(remote, base, env, job)
  }

  /** One listed file whose `inputFile` is `input`: list the files of the
      same title, then adopt. */
  function ProcessFileAs(remote: Remote, base: nat, env: Env, files: FilesConfig, name: string, input: string): (r: Run<()>)
    ensures r.calls != [] && r.calls[0] == ListFiles(NameQuery(FileTitle(env, name)))
  {
    var title := FileTitle(env, name);
    var listed := Ask(remote, base, ListFiles(NameQuery(title)));
    if listed.out.Fail? then Stop(listed)
    else Then(listed, Done(Adopt(remote, base + 1, env, Job(input, JNull, "", title, files.folder, false), listed.out.value.fileIds)))
  }

  /** One uploaded file as written: its `inputFile` is `getFilename()`, the
      name without the directories Finder's recursive search went through. */
  function ProcessFile(remote: Remote, base: nat, env: Env, files: FilesConfig, name: string): (r: Run<()>)
    ensures r.calls != [] && r.calls[0] == ListFiles(NameQuery(FileTitle(env, name)))
  {
    ProcessFileAs(remote, base, env, files, name, Basename(name))
  }

  /** A name match adopts the first match's id and updates it; no match
      creates the file from the top of the files directory under its file
      name, without an id, and a file named "0" there (an empty value to
      `getInputFile`) is refused before the create. */
  lemma ProcessFileAdopts(remote: Remote, base: nat, env: Env, files: FilesConfig, name: string)
    ensures var q := ListFiles(NameQuery(FileTitle(env, name)));
      var r := ProcessFile(remote, base, env, files, name);
      && (remote(base, q).Answer? && |remote(base, q).reply.fileIds| > 0 ==>
            r.calls[1] == FileExists(remote(base, q).reply.fileIds[0]))
      && (remote(base, q).Answer? && |remote(base, q).reply.fileIds| == 0 && !PhpEmpty(Basename(name)) ==>
            && |r.calls| == 2
            && r.calls[1].CreateFile?
            && r.calls[1].pathname == FilePath(env.dataDir, Basename(name))
            && r.calls[1].title == FileTitle(env, name)
            && "id" !in r.calls[1].params)
      && (remote(base, q).Answer? && |remote(base, q).reply.fileIds| == 0 && PhpEmpty(Basename(name)) ==>
            r == Run([q], Fail(AppError("No input file or table specified", 0))))
  {
  }

  /** A file in a sub-directory, `sub/a.csv` with no manifest and no match on
      the service, is listed and created as `a.csv` but read from
      `in/files/a.csv`, which is not the file that was listed. */
  lemma NestedFileReadsTopLevel(remote: Remote, base: nat, env: Env, files: FilesConfig)
    requires env.manifestName(FilePath(env.dataDir, "sub/a.csv")).None?
    requires remote(base, ListFiles(NameQuery("a.csv"))).Answer? && remote(base, ListFiles(NameQuery("a.csv"))).reply.fileIds == []
    ensures var r := ProcessFile(remote, base, env, files, "sub/a.csv");
      && r.calls[0] == ListFiles("trashed=false and name='a.csv'")
      && |r.calls| == 2 && r.calls[1].CreateFile?
      && r.calls[1].pathname == FilePath(env.dataDir, "a.csv")
      && r.calls[1].title == "a.csv"
      && r.calls[1].pathname != FilePath(env.dataDir, "sub/a.csv")
  {
    SubACsvBasename();
    assert FileTitle(env, "sub/a.csv") == "a.csv";
    ProcessFileAdopts(remote, base, env, files, "sub/a.csv");
    FilePathInjective(env.dataDir, "a.csv", "sub/a.csv");
  }

  /** A file `sub/0` is refused as if no input were named, after its listing. */
  lemma NestedZeroRefused(remote: Remote, base: nat, env: Env, files: FilesConfig)
    requires env.manifestName(FilePath(env.dataDir, "sub/0")).None?
    requires remote(base, ListFiles(NameQuery("0"))).Answer? && remote(base, ListFiles(NameQuery("0"))).reply.fileIds == []
    ensures ProcessFile(remote, base, env, files, "sub/0").out == Fail(AppError("No input file or table specified", 0))
  {
    SubZeroBasename();
    assert FileTitle(env, "sub/0") == "0";
    ProcessFileAdopts(remote, base, env, files, "sub/0");
  }

  lemma SubACsvBasename()
    ensures Basename("sub/a.csv") == "a.csv" && !PhpEmpty(Basename("sub/a.csv"))
  {
    BasenameOfJoin("sub", "a.csv");
    assert "sub" + "/" + "a.csv" == "sub/a.csv";
  }

  lemma SubZeroBasename()
    ensures Basename("sub/0") == "0" && PhpEmpty(Basename("sub/0"))
  {
    var p := "sub/0";
    assert p[..|p| - 1] == "sub/" && p[|p| - 1] == '0';
    assert Basename("sub/") == "";
  }

  /** One uploaded file as evidently intended: the file read is the one
      listed, at its path relative to the files directory. */
  function ProcessFileListed(remote: Remote, base: nat, env: Env, files: FilesConfig, name: string): (r: Run<()>)
    ensures r.calls != [] && r.calls[0] == ListFiles(NameQuery(FileTitle(env, name)))
  {
    ProcessFileAs(remote, base, env, files, name, name)
  }

  /** Corrected, a file without a match is created from the path it was
      listed at, and otherwise the run is the one written. */
  lemma ProcessFileListedUploadsListed(remote: Remote, base: nat, env: Env, files: FilesConfig, name: string)
    ensures var q := ListFiles(NameQuery(FileTitle(env, name)));
      var r := ProcessFileListed(remote, base, env, files, name);
      remote(base, q).Answer? && |remote(base, q).reply.fileIds| == 0 && !PhpEmpty(name) ==>
        && |r.calls| == 2
        && r.calls[1].CreateFile?
        && r.calls[1].pathname == FilePath(env.dataDir, name)
        && r.calls[1].title == FileTitle(env, name)
    ensures '/' !in name ==> ProcessFileListed(remote, base, env, files, name) == ProcessFile(remote, base, env, files, name)
  {
    if '/' !in name {
      BasenameOfJoin("", name);
    }
  }

  /** The calls of a run that are listings. */
  function Listings(calls: seq<Call>): (r: seq<Call>)
    ensures forall i :: 0 <= i < |r| ==> r[i].ListFiles?
    decreases |calls|
  {
    if |calls| == 0 then []
    else if calls[0].ListFiles? then [calls[0]] + Listings(calls[1..])
    else Listings(calls[1..])
  }

  lemma {:induction false} ListingsConcat(a: seq<Call>, b: seq<Call>)
    ensures Listings(a + b) == Listings(a) + Listings(b)
    decreases |a|
  {
    if |a| > 0 {
      assert (a + b)[1..] == a[1..] + b;
      ListingsConcat(a[1..], b);
    } else {
      assert a + b == b;
    }
  }

  lemma {:induction false} NoListings(calls: seq<Call>)
    requires forall i :: 0 <= i < |calls| ==> !calls[i].ListFiles?
    ensures Listings(calls) == []
    decreases |calls|
  {
    if |calls| > 0 {
      NoListings(calls[1..]);
    }
  }

  /** Each file lists exactly once, first. */
  lemma ProcessFileListsOnce(remote: Remote, base: nat, env: Env, files: FilesConfig, name: string)
    ensures Listings(ProcessFile(remote, base, env, files, name).calls) == [ListFiles(NameQuery(FileTitle(env, name)))]
  {
    ProcessFileAsListsOnce(remote, base, env, files, name, Basename(name));
  }

  /** Whatever its input file, a file lists exactly once, first. */
  lemma ProcessFileAsListsOnce(remote: Remote, base: nat, env: Env, files: FilesConfig, name: string, input: string)
    ensures Listings(ProcessFileAs(remote, base, env, files, name, input).calls) == [ListFiles(NameQuery(FileTitle(env, name)))]
  {
    var r := ProcessFileAs(remote, base, env, files, name, input);
    var tail := r.calls[1..];
    assert r.calls == [r.calls[0]] + tail;
    ListingsConcat([r.calls[0]], tail);
    NoListings(tail);
  }

  /** The files of a listing, in order; the first failure ends the run. */
  function ProcessFileList(remote: Remote, base: nat, env: Env, files: FilesConfig, names: seq<string>): (r: Run<()>)
    decreases |names|, 1
  {
    if |names| == 0 then Run([], Ok(()))
    else AfterFile(remote, base, env, files, names, ProcessFile(remote, base, env, files, names[0]))
  }

  /** The rest of the files once the first one has run as `first`. */
  function AfterFile(remote: Remote, base: nat, env: Env, files: FilesConfig, names: seq<string>, first: Run<()>): (r: Run<()>)
    requires |names| > 0
    decreases |names|, 0
  {
    if first.out.Fail? then first
    else Then(first, ProcessFileList(remote, base + |first.calls|, env, files, names[1..]))
  }

  /** The listings a run over `names` should issue: one per file, by its title. */
  function FileListings(env: Env, names: seq<string>): (r: seq<Call>)
    ensures |r| == |names|
    ensures forall i :: 0 <= i < |names| ==> r[i] == ListFiles(NameQuery(FileTitle(env, names[i])))
  {
    seq(|names|, i requires 0 <= i < |names| => ListFiles(NameQuery(FileTitle(env, names[i]))))
  }

  /** A successful run lists once per file, in order, each time by that file's title. */
  lemma {:induction false} ProcessFileListListings(remote: Remote, base: nat, env: Env, files: FilesConfig, names: seq<string>)
    ensures var r := ProcessFileList(remote, base, env, files, names);
      r.out.Ok? ==> Listings(r.calls) == FileListings(env, names)
    decreases |names|, 1
  {
    if |names| > 0 {
      ProcessFileListsOnce(remote, base, env, files, names[0]);
      AfterFileListings(remote, base, env, files, names, ProcessFile(remote, base, env, files, names[0]));
    } else {
      assert FileListings(env, names) == [];
    }
  }

  /** Once the first file has listed once by its title, a successful rest
      lists once per remaining file, in order. */
  lemma {:induction false} AfterFileListings(remote: Remote, base: nat, env: Env, files: FilesConfig, names: seq<string>, first: Run<()>)
    requires |names| > 0
    requires Listings(first.calls) == [ListFiles(NameQuery(FileTitle(env, names[0])))]
    ensures var r := AfterFile(remote, base, env, files, names, first);
      r.out.Ok? ==> Listings(r.calls) == FileListings(env, names)
    decreases |names|, 0
  {
    if first.out.Ok? {
      var rest := ProcessFileList(remote, base + |first.calls|, env, files, names[1..]);
      AfterFileThen(remote, base, env, files, names, first);
      if rest.out.Ok? {
        ProcessFileListListings(remote, base + |first.calls|, env, files, names[1..]);
        FileListingsTail(env, names);
        ConsListings(first.calls, rest.calls, FileListings(env, names));
      }
    }
  }

  lemma AfterFileThen(remote: Remote, base: nat, env: Env, files: FilesConfig, names: seq<string>, first: Run<()>)
    requires |names| > 0 && first.out.Ok?
    ensures AfterFile(remote, base, env, files, names, first) == Then(first, ProcessFileList(remote, base + |first.calls|, env, files, names[1..]))
  {
  }

  lemma FileListingsTail(env: Env, names: seq<string>)
    requires |names| > 0
    ensures FileListings(env, names[1..]) == FileListings(env, names)[1..]
  {
  }

  lemma ConsListings(a: seq<Call>, b: seq<Call>, want: seq<Call>)
    requires |want| > 0 && Listings(a) == [want[0]] && Listings(b) == want[1..]
    ensures Listings(a + b) == want
  {
    ListingsConcat(a, b);
  }

  /** `processFiles`: every file under `in/files` that is not a manifest. */
  function ProcessFiles(remote: Remote, base: nat, env: Env, files: FilesConfig, listing: seq<string>): Run<()> {
    ProcessFileList(remote, base, env, files, InputFiles(listing))
  }

  /** A successful run lists once per input file (manifests are not input
      files), in listing order, each time by that file's title. */
  lemma ProcessFilesListings(remote: Remote, base: nat, env: Env, files: FilesConfig, listing: seq<string>)
    ensures var r := ProcessFiles(remote, base, env, files, listing);
      r.out.Ok? ==>
        && |Listings(r.calls)| == |InputFiles(listing)|
        && forall i :: 0 <= i < |InputFiles(listing)| ==>
             Listings(r.calls)[i] == ListFiles(NameQuery(FileTitle(env, InputFiles(listing)[i])))
  {
    ProcessFileListListings(remote, base, env, files, InputFiles(listing));
  }

  /** `createFileMetadata`: an empty file of the table's type, in the
      configured folder or in the root. */
  function CreateFileMetadataRun(remote: Remote, base: nat, job: Job): (r: Run<Placed>)
    ensures |r.calls| == 1 && r.calls[0].CreateFileMetadata? && r.calls[0].title == job.title
    ensures "mimeType" in r.calls[0].params && r.calls[0].params["mimeType"] == JStr(if job.convert then MimeSpreadsheet else "text/csv")
    ensures "parents" in r.calls[0].params <==> FolderId(job.folder).Some?
    ensures r.out.Ok? ==> r.out.value.folder == (if FolderId(job.folder).Some? then job.folder.value else Folder(Some("root"), Some("")))
  {
    var m := map["mimeType" := JStr(if job.convert then MimeSpreadsheet else "text/csv")];
    var params := if FolderId(job.folder).Some? then m["parents" := Strs([FolderId(job.folder).value])] else m;
    var a := Ask(remote, base, CreateFileMetadata(job.title, params));
    if a.out.Fail? then Stop(a)
    else Run(a.calls, Ok(Placed(a.out.value, if FolderId(job.folder).Some? then job.folder.value else Folder(Some("root"), Some("")))))
  }

  /** `getFile`: the given fields, or the default ones when none are given. */
  function GetFileRun(remote: Remote, base: nat, fileId: string, fields: seq<string>): (r: Run<Reply>)
    ensures |r.calls| == 1 && r.calls[0].GetFile? && r.calls[0].id == fileId
    ensures fields != [] ==> r.calls[0].fields == fields
    ensures fields == [] ==> r.calls[0].fields == DefaultFields
    ensures r.calls[0].fields != []
  {
    Ask(remote, base, GetFile(fileId, if |fields| == 0 then DefaultFields else fields))
  }
}
